=== FILE: README.md ===
# Enrollment backend model

This project models the core of a course-enrollment REST backend. The backend runs on Node and knex over SQLite. Users hold roles (ADMIN, PROFESSOR, ALUNO). Turmas (course sections) have a seat counter `vagas` and optional links to a disciplina, a horario (timetable slot) and a professor. Students enroll in turmas through matriculas.

The model covers:
- the domain records (`Usuario`, `Turma`, `Matricula`);
- the repositories over one immutable database value;
- the services:
  - the enrollment engine, with its seat, duplicate and timetable checks;
  - the turma rules, with unique code and one turma per professor and horario;
  - disciplinas and horarios, with delete guards;
  - users and roles;
  - login with refresh-token rotation;
- the authentication middleware;
- the controllers' status-code mapping;
- the request-body validators of horarios and disciplinas.

Database and errors:
- The database is the `Store.Db` datatype: one map per table, `usuario_roles` as a set of pairs, and one counter `nextId` standing for the auto-increment keys.
- It follows the schema the migrations declare for a client that enforces foreign keys: unique keys and ON DELETE CASCADE. It also includes ON DELETE SET NULL for a turma's professor, which only the non-SQLite branch of src/migrations/20251102100000_add_professor_horario_unique_and_fk.js:28-45 declares.
- A service that throws is modelled as `Outcome.Fail`. The error is either an `HttpError(status)` or a `StoreError`. A `StoreError` is a refused query, which carries no status code.

Request bodies:
- A request field is a `Field<T>`: `Undefined`, `Null` or `Val`. This matters because knex skips `undefined` columns and writes `null` ones.
- JavaScript truthiness is spelled out by `IdTruthy`, `TextTruthy` and `SomeId`.

Functions passed in as parameters:
- bcrypt hashing and comparison;
- SHA-256 of refresh tokens;
- JWT signing and verification;
- random token generation;
- the clock.

## Model

| member | source | states |
|---|---|---|
| Roles.TextRoleIncludesItself | src/services/matriculaService.js:20-24 | a roles value that is the plain string "ALUNO" passes both the middleware's `.includes` and the enrollment check's `[roles]` fallback |
| Roles.TextIncludesSubstring | src/middlewares/authMiddleware.js:42-58 | when roles is a string, `.includes` is a substring test: any string containing a role name passes for that role ("ADMINISTRATOR" passes for ADMIN) |
| UsuarioDomain.DefaultRoles | src/domain/Usuario.js:18 | `data.roles \|\| []`: missing roles and the empty string become the empty array; every other value is kept |
| UsuarioDomain.ToSafeJson | src/domain/Usuario.js:53-56 | the safe object has no `senha` key and every other property with its value |
| UsuarioDomain.SafeJsonHidesOnlySenha | src/domain/Usuario.js:53-56 | two users that differ only in the password have the same safe form |
| UsuarioDomain.ComparePassword | src/domain/Usuario.js:40-47 | false when the password is missing or empty; otherwise bcrypt's verdict against the stored hash |
| UsuarioDomain.HashPassword | src/domain/Usuario.js:29-33 | a user without a (truthy) password is left unchanged; otherwise only the password changes, to its hash |
| MatriculaDomain.Make | src/domain/Matricula.js:6-12 | a missing status makes the record active; a given status is kept |
| MatriculaDomain.Cancel | src/domain/Matricula.js:18-22 | returns true exactly for an active record; afterwards the record is never active |
| MatriculaDomain.CancelTwiceIsNoOp | src/domain/Matricula.js:18-22 | a second cancel changes nothing and reports false |
| MatriculaDomain.JsonRoundTrip | src/domain/Matricula.js:24-36 | the JSON form reads back to the same record |
| TurmaDomain.Make | src/domain/Turma.js:6-15 | a missing `vagas` becomes the number 0; the links and `created_at` are kept as given |
| TurmaDomain.OcuparVaga | src/domain/Turma.js:17-25 | succeeds exactly when `vagas` is a positive number, and then takes one seat; otherwise nothing changes |
| TurmaDomain.LiberarVaga | src/domain/Turma.js:27-30 | adds one to a numeric `vagas`; appends "1" to a string `vagas` |
| TurmaDomain.OcuparKeepsNonNegative | src/domain/Turma.js:17-25 | taking a seat never drives a non-negative counter below zero |
| TurmaDomain.LiberarUndoesOcupar | src/domain/Turma.js:21-30 | releasing a seat after a successful take restores the record |
| TurmaDomain.JsonRoundTrip | src/domain/Turma.js:32-47 | the JSON form reads back to the same record |
| UsuarioRepository.RoleAggregation | src/repositories/usuarioRepository.js:39-64 | a loaded user's roles are the names linked in `usuario_roles` when there are any; otherwise the legacy column, with NULL and "" read as the empty array |
| UsuarioRepository.FindById | src/repositories/usuarioRepository.js:39-64 | some user exactly when the key exists, and that user has the key |
| UsuarioRepository.FindByEmail | src/repositories/usuarioRepository.js:9-37 | some user exactly when the e-mail is registered, and that user's row has the e-mail |
| UsuarioRepository.Create | src/repositories/usuarioRepository.js:66-77 | fails exactly on a repeated e-mail; otherwise it inserts one row under a fresh key with falsy `ra`/`siape` stored as NULL and `token_version` 0 |
| UsuarioRepository.AddRole | src/repositories/usuarioRepository.js:101-109 | true exactly when the link is new and both rows exist, and then the link is added; otherwise nothing changes |
| UsuarioRepository.RemoveRole | src/repositories/usuarioRepository.js:111-114 | true exactly when the link existed; afterwards the link is gone |
| UsuarioRepository.IncrementBumpsByOne | src/repositories/usuarioRepository.js:116-119 | the token counter rises by one, and nothing else about the user changes, including what `findById` returns |
| UsuarioRepository.UpdateById | src/repositories/usuarioRepository.js:121-124 | an empty change set is refused; an unknown id reads back null; a non-empty change without a NULL name or password succeeds on a known id, and a success changes only the supplied columns |
| UsuarioRepository.DeleteById | src/repositories/usuarioRepository.js:126-128 | removes the user, and cascades to the user's matriculas, role links and refresh tokens; the user's turmas keep their keys and lose only their professor (the SET NULL of the non-SQLite migration branch) |
| RefreshTokensRepository.Create | src/repositories/refreshTokensRepository.js:11-15 | stores the token's hash, never the token; refused exactly when the hash is taken or the user is missing |
| RefreshTokensRepository.FindByToken | src/repositories/refreshTokensRepository.js:17-20 | finds a record exactly when one stores the token's hash |
| RefreshTokensRepository.Rotate | src/repositories/refreshTokensRepository.js:22-26 | same key, new hash and expiry, revocation cleared; refused exactly when another record holds the new hash |
| RefreshTokensRepository.RevokeByUser | src/repositories/refreshTokensRepository.js:28-30 | marks exactly the user's records revoked and leaves the others unchanged |
| RefreshTokensRepository.DeleteByUser | src/repositories/refreshTokensRepository.js:32-34 | removes exactly the user's records |
| RefreshTokensRepository.CreateThenFind | src/repositories/refreshTokensRepository.js:11-20 | a stored token is found again, and hashes stay unique |
| RefreshTokensRepository.RotateThenFind | src/repositories/refreshTokensRepository.js:17-26 | after a rotation the new token finds the same record, unrevoked, and the old token finds nothing |
| MatriculaRepository.ListByAluno | src/repositories/matriculaRepository.js:8-15 | exactly the enrollments whose student is the given one |
| MatriculaRepository.FindById | src/repositories/matriculaRepository.js:47-52 | some record exactly when the key exists |
| MatriculaRepository.Create | src/repositories/matriculaRepository.js:32-39 | refused exactly for a duplicate pair or a missing student or turma; otherwise one active row under a fresh key |
| MatriculaRepository.Remove | src/repositories/matriculaRepository.js:41-45 | reports 1 exactly when the row existed; only that row goes |
| MatriculaRepository.UpdateById | src/repositories/matriculaRepository.js:61-66 | an empty body is refused; a key that names no column is refused even for an unknown id; otherwise an unknown id reads back null, and only the supplied columns change |
| MatriculaRepository.UpdateByIdAsWritten | src/migrations/20251101127000_create_matriculas.js:4-10 | against the migrated table, which has no `status` column, any body carrying `status` is refused; without `status` it is `UpdateById` |
| MatriculaRepository.ExistsIffListed | src/repositories/matriculaRepository.js:8-30 | `exists(a, t)` agrees with scanning the student's list for the turma |
| MatriculaRepository.CountPositiveIffSomeRow | src/repositories/matriculaRepository.js:17-23 | a turma's count is positive exactly when some student is paired with it |
| MatriculaRepository.CountAfterInsert | src/repositories/matriculaRepository.js:17-39 | inserting a row adds one to its own turma's count and to no other |
| MatriculaRepository.CountAfterDelete | src/repositories/matriculaRepository.js:17-45 | deleting a row takes one from its own turma's count and from no other |
| MatriculaRepository.CountAfterRewrite | src/repositories/matriculaRepository.js:17-23 | rewriting a row in place without changing its turma keeps every count |
| TurmaRepository.FindById | src/repositories/turmaRepository.js:17-24 | some turma exactly when the key exists |
| TurmaRepository.FindByCodigo | src/repositories/turmaRepository.js:26-33 | some turma exactly when the code is in use, and it is the one with that code |
| TurmaRepository.CountsDetectReferences | src/repositories/turmaRepository.js:35-47 | the disciplina and horario counts are positive exactly when some turma references the key |
| TurmaRepository.FindByProfessorId | src/repositories/turmaRepository.js:75-82 | exactly the turmas whose professor is the given one |
| TurmaRepository.Create | src/repositories/turmaRepository.js:49-56 | succeeds exactly when code and name are present, `vagas` is not null and both unique keys stay free; absent columns take their defaults |
| TurmaRepository.Update | src/repositories/turmaRepository.js:58-65 | an empty payload is refused; an unknown id reads back null; a success keeps both unique keys free |
| TurmaRepository.Remove | src/repositories/turmaRepository.js:67-73 | the turma goes, and its matriculas cascade with it |
| TurmaRepository.RemoveKeepsValid | src/repositories/turmaRepository.js:67-73 | removal keeps every declared constraint, including matricula references |
| TurmaRepository.StoreKeepsUniqueKeys | src/migrations/20251101121000_create_turmas.js:10 | storing a row whose keys are free keeps the code and the professor/horario pair unique |
| TurmaRepository.CreateKeepsUniqueKeys | src/repositories/turmaRepository.js:49-56 | a successful insert keeps both unique keys |
| TurmaRepository.UpdateKeepsUniqueKeys | src/repositories/turmaRepository.js:58-65 | a successful update keeps both unique keys |
| Store.VagasKeepTurmaKeys | src/migrations/20251102100000_add_professor_horario_unique_and_fk.js:17 | changing only `vagas` keeps both unique keys of turmas |
| MatriculaService.Enroll | src/services/matriculaService.js:12-59 | succeeds exactly for an eligible student with a free seat: 404 (no user), 403 (no ALUNO role), 400 (already enrolled), 404 (no turma), 409 (timetable clash at a truthy horario) and 409 (no free seat), each stated under the earlier checks passing; success takes one seat and inserts one active row, and any failure leaves the store unchanged |
| MatriculaService.Remove | src/services/matriculaService.js:65-93 | returns the seat to the turma when the turma still exists, then deletes the row; an unknown id changes nothing |
| MatriculaService.EnrollConservesSeats | src/services/matriculaService.js:46-54 | free seats plus occupied rows stay constant for every turma; only the chosen turma loses a free seat |
| MatriculaService.EnrollKeepsValid | src/services/matriculaService.js:27-58 | enrolling keeps every declared constraint |
| MatriculaService.EnrollKeepsNoDoubleBooking | src/services/matriculaService.js:37-43 | no student ever holds two rows at the same truthy horario |
| MatriculaService.RemoveConservesSeats | src/services/matriculaService.js:65-93 | removal keeps free seats plus occupied rows constant for every turma |
| MatriculaService.RemoveKeepsValid | src/services/matriculaService.js:65-93 | removal keeps every declared constraint and the no-double-booking guarantee |
| MatriculaService.StatusUpdateConservesSeats | src/services/matriculaService.js:103-106 | a status-only update keeps every turma's seat total: a cancelled row still holds its seat |
| MatriculaService.RewriteKeepsValid | src/repositories/matriculaRepository.js:61-66 | rewriting a row in place, keeping its student and turma, keeps every constraint |
| MatriculaService.StatusUpdateKeepsValid | src/services/matriculaService.js:103-106 | a status-only update keeps every constraint and the no-double-booking guarantee |
| MatriculaService.TurmaMoveShiftsSeats | src/services/matriculaService.js:103-106 | an update that moves a row shifts one seat's worth of total from the old turma to the new one without touching `vagas` |
| MatriculaService.RemoveUndoesEnroll | src/services/matriculaService.js:12-93 | removing the row an enrollment created restores the store, apart from the spent key |
| MatriculaService.NoOverbooking | src/services/matriculaService.js:45-51 | any run of requests for a turma admits at most its free seats, takes exactly one seat per admission, and never drives `vagas` below zero |
| MatriculaService.EnrollKeepsOthersEligible | src/services/matriculaService.js:12-43 | enrolling one student leaves another student's eligibility for the same turma unchanged |
| MatriculaService.FillsToCapacity | src/services/matriculaService.js:12-59 | distinct eligible students are admitted up to exactly the number of free seats |
| TurmaService.Create | src/services/turmaService.js:21-53 | each refusal under the earlier checks passing: 404 for a missing truthy disciplina, then horario, then professor; 400 for a user without PROFESSOR; 409 for a truthy code in use; 409 for a professor busy at that horario; when every check passes, exactly the repository insert |
| TurmaService.Update | src/services/turmaService.js:55-92 | each refusal under the earlier checks passing: 404 for an unknown turma, then a missing truthy disciplina or horario; 409 for another turma's code; 404 for a missing truthy professor; 400 for a user without PROFESSOR; 409 for a clash on the professor and horario the turma would have; when every check passes, exactly the repository update |
| TurmaService.Remove | src/services/turmaService.js:94-99 | refused with 409 exactly while some matricula references the turma |
| TurmaService.RemoveNeverCascades | src/services/turmaService.js:94-99 | an accepted removal deletes only the turma and no matricula |
| TurmaService.CreateSucceedsWhenChecksPass | src/services/turmaService.js:21-53 | when every check passes and the body has what the table needs, the insert succeeds |
| TurmaService.UpdateSucceedsWhenChecksPass | src/services/turmaService.js:55-92 | when every check passes and no required column is cleared, the update succeeds and returns the updated turma |
| TurmaService.CreateKeepsProfessorFree | src/services/turmaService.js:41-51 | after a create, the new turma is its professor's only turma at that horario |
| DisciplinaService.Create | src/services/disciplinaService.js:17-22 | 409 exactly when the code is taken; otherwise a missing required column or a key that names no column is a store error, and success inserts under a fresh key, with `carga_horaria` defaulting to 0 |
| DisciplinaService.Update | src/services/disciplinaService.js:24-31 | 409 exactly when a truthy code is held by another disciplina; a key that names no column fails; success writes only the supplied columns |
| DisciplinaService.Remove | src/services/disciplinaService.js:33-38 | refused with 409 exactly while a turma references the disciplina |
| DisciplinaService.RemoveKeepsReferences | src/services/disciplinaService.js:33-38 | no turma is left pointing at a deleted disciplina |
| DisciplinaService.CreateKeepsCodigoUnique | src/services/disciplinaService.js:17-22 | codes stay unique, and the new code names only the new row |
| DisciplinaService.UpdateKeepsCodigoUnique | src/services/disciplinaService.js:24-31 | codes stay unique |
| DisciplinaService.OwnCodigoAllowed | src/services/disciplinaService.js:24-31 | resubmitting a disciplina's own code succeeds exactly when every key names a column |
| HorarioService.Create | src/services/horarioService.js:17-21 | 409 exactly when the code is taken; otherwise a missing required column or a key that names no column is a store error, and success inserts under a fresh key |
| HorarioService.Update | src/services/horarioService.js:23-29 | 409 exactly when a truthy code is held by another horario; a key that names no column fails; success writes only the supplied columns |
| HorarioService.Remove | src/services/horarioService.js:31-36 | refused with 409 exactly while a turma uses the horario |
| HorarioService.RemoveKeepsReferences | src/services/horarioService.js:31-36 | no turma is left pointing at a deleted horario |
| HorarioService.CreateKeepsCodigoUnique | src/services/horarioService.js:17-21 | codes stay unique, and the new code names only the new row |
| HorarioService.UpdateKeepsCodigoUnique | src/services/horarioService.js:23-29 | codes stay unique |
| HorarioService.OwnCodigoAllowed | src/services/horarioService.js:23-29 | resubmitting a horario's own code succeeds exactly when every key names a column |
| AuthMiddleware.Authenticate | src/middlewares/authMiddleware.js:10-36 | 401 without a "Bearer " header or with an empty token; 403 when verification fails; otherwise the decoded payload |
| AuthMiddleware.BearerRoundTrip | src/middlewares/authMiddleware.js:14-20 | a token without spaces sent as "Bearer " + token, with or without trailing fields, is read back exactly |
| AuthMiddleware.AnyIncludedIff | src/middlewares/authMiddleware.js:42-58 | the `some(... includes ...)` scan is true exactly when some required role is included |
| AuthMiddleware.Authorize | src/middlewares/authMiddleware.js:42-58 | passes exactly when the user has truthy roles including one required role; otherwise 403 |
| AuthMiddleware.EmptyRequirementDenies | src/middlewares/authMiddleware.js:42-58 | an empty role list lets nobody through |
| AuthMiddleware.AuthorizeOrTurmaOwner | src/middlewares/authMiddleware.js:64-87 | passes exactly for ADMIN, or for a PROFESSOR who is the existing turma's professor; 400 exactly for a non-admin professor without a turma id; 404 exactly for a non-admin professor naming a missing turma; every other refusal is 403 (no user or roles, another professor's turma, neither ADMIN nor PROFESSOR) |
| AuthMiddleware.OwnerExactlyPasses | src/middlewares/authMiddleware.js:64-87 | a non-admin professor passes for a turma exactly when it is that turma's professor |
| AuthService.AsWrittenPayloadIgnoresTokenVersion | src/services/authService.js:32-34 | as written, a payload issued after a token-counter bump equals one issued before it |
| AuthService.PayloadTracksTokenVersion | src/services/authService.js:32-34 | with the counter copied from the row, a payload issued after a bump differs and carries the new counter |
| AuthService.UserPayload | src/controllers/authController.js:58-63 | the claims login and refresh sign: the stored user's id, e-mail and loaded roles, and never a token counter |
| AuthService.Login | src/services/authService.js:13-49 | throws exactly when the password is not a string and the e-mail belongs to a user with a stored password, because bcrypt rejects its arguments; otherwise a session exactly when some user's e-mail, password presence and bcrypt verdict accept the credentials; the session carries that user's payload as the code builds it (id, e-mail, roles, no token counter), its signature and the new refresh token, whose hash is stored with a 7-day expiry |
| AuthService.LoginIssuesRefreshToken | src/services/authService.js:37-46 | after a login with a fresh token hash, the token finds its record: the user's, unrevoked, expiring 7 days later |
| AuthController.Login | src/controllers/authController.js:34-43 | 200 exactly when the password is a string and the credentials are accepted; 500 exactly when the service throws on a password that is not a string (the error handler of src/app.js:52-55); otherwise 401; a non-200 answer changes nothing |
| AuthController.Refresh | src/controllers/authController.js:45-80 | 400 without a token, 403 for an unknown, revoked or expired one, 404 for a missing user, 500 when the rotation is refused; 200 carries a token for the user's current payload, built without a token counter, and rotates the record |
| AuthController.LoginThenRefresh | src/controllers/authController.js:45-80 | a refresh token from a login is accepted until it expires |
| AuthController.RefreshRetiresOldToken | src/controllers/authController.js:45-80 | a refresh token is single-use: after a refresh the old token gets 403 |
| AuthController.AssignRoleEndsSessions | src/services/usuarioService.js:87-91 | after a role assignment every refresh token the user held gets 403 |
| AuthController.LoginThenAuthenticate | src/middlewares/authMiddleware.js:10-36 | the access token from a login, sent as a bearer header, authenticates as the session's user |
| MatriculaController.Enroll | src/controllers/matriculaController.js:39-49 | 400 without a truthy turma id; 201 exactly when the service succeeds, with the student's new active enrollment; every other outcome is 400 with no change |
| MatriculaController.EnrollErrorsCollapse | src/controllers/matriculaController.js:39-49 | the service's 403, 404 and 409 refusals all reach the client as 400 |
| MatriculaController.RemoveAsWritten | src/controllers/matriculaController.js:61-72 | as written: 204 exactly when the id exists, after `MatriculaService.Remove`; otherwise 404 and no change, whoever asks |
| MatriculaController.AnyStudentRemovesAnyEnrollment | src/controllers/matriculaController.js:61-72 | as written, a non-admin student deletes another student's enrollment |
| MatriculaController.OnlyOwnerOrAdminRemoves | src/routers/matriculaRoutes.js:16-17 | an enrollment is removed exactly when its own student or an ADMIN asks, and then the seat goes back |
| MatriculaController.Remove | src/routers/matriculaRoutes.js:16-17 | 404 for an unknown id; only 204, 403 and 404 occur; a refusal changes nothing |
| MatriculaController.GetById | src/controllers/matriculaController.js:85-99 | 404 for an unknown id; 200 with the enrollment exactly for an ADMIN or its own student; otherwise 403 |
| MatriculaController.OwnerPatch | src/controllers/matriculaController.js:101-122 | a student's body is cut to a truthy status only |
| MatriculaController.Update | src/controllers/matriculaController.js:101-122 | 404 for an unknown id; 403 for someone who is neither ADMIN nor the student; an ADMIN gets 200 exactly when the store accepts; only 200, 403, 404 and 500 occur |
| MatriculaController.OwnerUpdateOnlyTouchesStatus | src/controllers/matriculaController.js:101-122 | with a `status` column present, a student's own update succeeds exactly with a truthy status, changes only the status and keeps every seat total; otherwise 500 |
| MatriculaController.OwnerUpdateFailsAsWritten | src/controllers/matriculaController.js:113-118 | against the migrated table, the body a student's update forwards is always refused, so a student can never cancel |
| TurmaController.VagasOrZero | src/controllers/turmaController.js:51-62 | `vagas \|\| 0`: an absent, null or zero count becomes 0; others are kept |
| TurmaController.Create | src/controllers/turmaController.js:51-62 | 400 unless code and name are truthy; otherwise 201 exactly when the service succeeds, and a refusal's own status (500 for a store error) |
| TurmaController.CreateDefaultsVagas | src/controllers/turmaController.js:51-62 | a created turma starts with the given count, or 0 when none was given |
| TurmaController.Update | src/controllers/turmaController.js:64-75 | 404 for an unknown turma; a service refusal keeps its own status (400, 404, 409) and a store error gives 500; 200 exactly when the service returns a turma |
| TurmaController.EmptyUpdateIsServerError | src/controllers/turmaController.js:64-75 | an update body with no columns gets 500, not a validation error |
| TurmaController.Remove | src/controllers/turmaController.js:77-85 | 204 exactly when no matricula references the turma, even for an unknown id; otherwise 500 and no change |
| TurmaController.ReferencedTurmaSurvivesRemove | src/controllers/turmaController.js:77-85 | a turma with enrollments survives a delete, and the answer is 500 |
| UsuarioService.FindRole | src/services/usuarioService.js:82-86 | a string looks the role up by name, anything else by key; a found role exists and matches |
| UsuarioService.LinkRolesAddsResolved | src/services/usuarioService.js:19-28 | registration links the user to exactly the roles that resolve, and changes nothing else |
| UsuarioService.CreateUser | src/services/usuarioService.js:14-32 | fails exactly on a repeated e-mail; otherwise the new user, under a fresh key, has the hashed password and the e-mail |
| UsuarioService.CreatedUserCarriesRequestedRoles | src/services/usuarioService.js:14-32 | the new user carries exactly the names of the roles its registration named and the store knows |
| UsuarioService.AssignRole | src/services/usuarioService.js:82-97 | nothing for an unknown role; otherwise the link is added, the token counter rises by one, and exactly the user's refresh tokens are deleted |
| UsuarioService.AssignedRoleIsCarried | src/services/usuarioService.js:82-97 | after an assignment the loaded user carries the role's name |
| UsuarioService.RemoveRole | src/services/usuarioService.js:99-101 | true exactly when the link existed; afterwards it is gone and nothing else changes |
| UsuarioService.RemoveUndoesAssign | src/services/usuarioService.js:82-101 | removing a newly assigned role restores the links |
| UsuarioService.ChangesFor | src/services/usuarioService.js:104-113 | a password is hashed and written only when it is a non-empty string; the other fields pass as sent |
| UsuarioService.UpdateUser | src/services/usuarioService.js:104-121 | the updated user comes back exactly when the id is known, some column is written and the name is not null; otherwise nothing and no change; a result is the stored user |
| UsuarioService.UpdatePasswordRule | src/services/usuarioService.js:104-121 | a non-empty new password is stored hashed, otherwise the old one stays; e-mail, roles and token counter never change |
| UsuarioService.NewPasswordLogsIn | src/services/usuarioService.js:104-121 | after a password change, the comparison runs against the new hash |
| UsuarioService.DeleteUser | src/services/usuarioService.js:123-131 | true exactly when the user existed; none of the user's matriculas or refresh tokens remain |
| UsuarioService.DeleteUserKeepsTurmaKeys | src/migrations/20251102100000_add_professor_horario_unique_and_fk.js:17 | deleting a user keeps both unique keys of turmas |
| UsuarioService.DeleteUserKeepsRows | src/repositories/usuarioRepository.js:126-128 | deleting a user keeps the counter, the unique keys and the matricula references |
| UsuarioService.DeleteUserKeepsValid | src/repositories/usuarioRepository.js:126-128 | deleting a user keeps every declared constraint |
| UsuarioController.Register | src/controllers/usuarioController.js:120-129 | 400 unless name, e-mail and password are truthy; 500 exactly for a repeated e-mail; 201 stores the hashed password |
| UsuarioController.RegisteredPasswordLogsIn | src/controllers/usuarioController.js:120-129 | a registered user's password check runs against the hash of the password it registered with |
| UsuarioController.GetProfessorTurmas | src/controllers/usuarioController.js:192-207 | 401 without a user; 200 exactly for ADMIN or the professor itself, listing only that professor's turmas; otherwise 403 |
| UsuarioController.Get | src/controllers/usuarioController.js:209-218 | 200 with the user exactly when it exists; otherwise 404 |
| UsuarioController.AssignRole | src/controllers/usuarioController.js:220-231 | 400 without a truthy role; 200 exactly when the role resolves; otherwise 404 and no change |
| UsuarioController.RemoveRole | src/controllers/usuarioController.js:233-243 | 200 exactly when the link existed, and then it is gone; otherwise 404 |
| UsuarioController.Update | src/controllers/usuarioController.js:247-264 | 401 without a user; 403 unless ADMIN or self; then 200 with the stored user exactly when the id is known, some column is written and the name is not null, else 404 |
| UsuarioController.EmptyUpdateLooksLikeMissingUser | src/controllers/usuarioController.js:247-264 | an update that changes nothing is answered 404, as for a missing user |
| UsuarioController.Remove | src/controllers/usuarioController.js:266-276 | 204 exactly when the user existed; otherwise 404 |
| Validators.IntRoundTrip | src/validators/horariosValidator.js:6-7 | a number written in decimal passes the integer syntax and parses back to itself |
| Validators.CheckInt | src/validators/horariosValidator.js:6-7 | `isInt({min,max})` and `toInt`: a result lies in range; a number is checked as it is, a string through the integer syntax; anything else fails |
| Validators.TrimEmptyIff | src/validators/disciplinasValidator.js:7-8 | trimming leaves nothing exactly when the string is all white space |
| Validators.TrimIdempotent | src/validators/disciplinasValidator.js:7 | trimming twice is trimming once |
| Validators.RequiredText | src/validators/horariosValidator.js:14-19 | a string that is not blank passes and is trimmed; anything else fails |
| Validators.OptionalText | src/validators/horariosValidator.js:20-25 | an absent field stays absent; a string is trimmed; anything else, null included, fails |
| Validators.HorarioCreate | src/validators/horariosValidator.js:3-26 | accepts exactly a `dia` of 1 to 7, a `turno` of 1 to 3, a code that is not blank and an optional string description |
| Validators.HorarioUpdate | src/validators/horariosValidator.js:28-53 | the same rules with every field optional, and never a null column |
| Validators.DisciplinaCreate | src/validators/disciplinasValidator.js:3-22 | accepts exactly a code and a name that are not blank, and an optional `carga_horaria` of at least 0 |
| Validators.DisciplinaUpdate | src/validators/disciplinasValidator.js:24-43 | every field optional; never a null column; `carga_horaria` at least 0 |
| Validators.ValidHorarioCreateReachesStore | src/services/horarioService.js:17-21 | an accepted horario body is inserted, or refused for a taken code, or for a key that names no column |
| Validators.ValidDisciplinaCreateReachesStore | src/services/disciplinaService.js:17-22 | an accepted disciplina body is inserted, or refused for a taken code, or for a key that names no column |
| Validators.ValidHorarioUpdateReachesStore | src/services/horarioService.js:23-29 | an accepted, non-empty horario update whose code is free succeeds on a known horario exactly when every key names a column |

## Left out

- Concurrency: transactions, `forUpdate` row locks and interleavings are not modelled. Each operation is one atomic step on the database value, which is what the transactions aim to give.
- Crypto and clocks are parameters: bcrypt, SHA-256, JWT signing and verification, random token generation, and the current time. The properties hold for any such functions, or name the assumption they need (for example `LoginThenAuthenticate` needs a verifier that accepts what the signer produces).
- SQLite does not enforce foreign keys unless a pragma turns them on. The model follows the schema as declared: matriculas reference existing users and turmas, deletes cascade, and deleting a user sets a turma's professor to NULL.
- UsuarioRepository.DeleteById: the SET NULL of a turma's professor holds only on a client other than SQLite. The foreign key is added only in the non-SQLite branch of src/migrations/20251102100000_add_professor_horario_unique_and_fk.js:28-45, and knexfile.js:11 defaults to sqlite3. On SQLite the user's turmas keep a professor id that names no user.
- A turma's disciplina, horario and professor references are not checked by the store. The services check them before writing; only the matricula references are part of `Store.Valid`.
- The matriculas migration declares no `status` column. The main model gives the row a nullable status, which reads as 'ativa' when absent. This is the corrected schema of the third row under Findings. Against the migrated table every update that carries `status` fails with "no such column" and is answered 500. This is stated by `MatriculaRepository.UpdateByIdAsWritten` and `MatriculaController.OwnerUpdateFailsAsWritten`.
- MatriculaController.Update and MatriculaRepository.UpdateById: an ADMIN body that rewrites the primary key `id` is not modelled. The patch carries `aluno_id`, `turma_id`, `status` and `created_at`, and a flag for any other key, which names no column and is refused.
- Non-numeric `vagas` (SQLite type affinity), and `parseInt(... ) || 0` applied to such text, are left out: the store's `vagas` is an integer.
- Ids that come from `req.params` are modelled as naturals. `parseInt` of a non-numeric id (NaN) is left out.
- A string roles value that is valid JSON but not an array is left out: such text is stored as a JSON array or as raw non-JSON text.
- Catch-and-log branches that swallow an error are modelled by their visible outcome. These are the token insert in login and the token invalidation in role assignment. The log lines are left out.
- Routers, `app.js`, the Swagger docs, the seeds and the scripts are left out, as are the listing endpoints (`listAll`, `listMine`, `list`, `listProfessores`, `listProfessoresWithTurmas`) and `whoami`. They read the store without a rule of their own.
- horarioRepository.js is not part of this model. The horario service's store behaviour is modelled on disciplinaRepository.js, with the table's declared columns.
- The `REFRESH_TOKEN_DAYS` and `ACCESS_TOKEN_EXPIRY` environment overrides are left out: the refresh lifetime is the default of 7 days.
- Validators: arrays, objects, booleans and fractions are one `Other` input that every rule refuses. Numbers of 1e21 and above, which JavaScript writes in exponent form, are not distinguished.
- AuthService.Login / AuthController.Login: the e-mail is modelled as a string. An absent e-mail makes the query fail, and `findByEmail` catches that and reads it as an unknown e-mail (401). The password is modelled as a string or not a string, which is all bcrypt distinguishes.
- UsuarioService.CreateUser, UsuarioService.UpdateUser and AuthController.Refresh: a truthy body value that is not a string (a number, an object) is not modelled. bcrypt's hash (src/services/usuarioService.js:16 and 110-111) or the SHA-256 of the token (src/repositories/refreshTokensRepository.js:9) would throw on it, and the error handler would answer 500. Registration and refresh already answer 400 for a falsy value.
- DisciplinaService.Create, DisciplinaService.Update, HorarioService.Create and HorarioService.Update: a body key `id` is not modelled. The services pass the body whole to the store (src/controllers/disciplinaController.js:53 and 63, src/controllers/horarioController.js:108 and 118), so such a key would set the new row's primary key on insert, or rewrite it on update. The payload carries the table's columns and a flag for any key that names no column; the store refuses such a key, and these controllers answer that with 400.
- MatriculaService.Update: restates the repository update it delegates to; its properties are stated by `StatusUpdateConservesSeats`, `StatusUpdateKeepsValid` and `TurmaMoveShiftsSeats`.

## Findings

| source | as written | input that shows it | evidently intended | confidence | as-written member | corrected member |
|---|---|---|---|---|---|---|
| src/services/authService.js:32-34 | the payload copies `user.token_version` only when defined, but the `Usuario` constructor (src/domain/Usuario.js:10-23) never keeps that property, so the payload never carries it | any user: bump the counter with a role assignment, then log in; the payload is identical to one issued before the bump | the payload carries the user's current `token_version`, so a counter bump is visible in every later token | not executed | AuthService.AsWrittenPayloadIgnoresTokenVersion | AuthService.PayloadTracksTokenVersion |
| src/controllers/matriculaController.js:61-72 | the delete handler removes any enrollment by id; the route (src/routers/matriculaRoutes.js:16-17) promises "ADMIN or owner" but only checks the role | a student with id 2 deletes enrollment 5 of student 3: 204, and the seat is freed | only the enrollment's own student or an ADMIN may remove it; anyone else gets 403 | not executed | MatriculaController.AnyStudentRemovesAnyEnrollment | MatriculaController.OnlyOwnerOrAdminRemoves |
| src/migrations/20251101127000_create_matriculas.js:4-10 | the matriculas table has no `status` column, yet the domain record reads a status (src/domain/Matricula.js:6-12) and the update handler lets a student write one (src/controllers/matriculaController.js:113-118) | a student sends `{status: 'cancelada'}` for an own enrollment: the update names a missing column and the answer is 500 | the table carries a nullable `status`, so a student can cancel an own enrollment and the row keeps its seat | not executed | MatriculaController.OwnerUpdateFailsAsWritten | MatriculaController.OwnerUpdateOnlyTouchesStatus |

For the first row, login and refresh are modelled as written: `AuthService.Login` and `AuthController.Refresh` sign `AuthService.UserPayload`, which has no token counter, and `AuthService.Payload` is the corrected payload. For the third row, the endpoints run against the corrected table with a `status` column.

=== FILE: auth_controller.dfy ===
/** The login and refresh endpoints. */
module AuthController {
  import opened Wrappers
  import opened Store
  import opened AuthMiddleware
  import opened Http
  import AS = AuthService
  import UR = UsuarioRepository
  import RT = RefreshTokensRepository
  import US = UsuarioService

  /** `POST /login`: 401 when the credentials are refused, otherwise the session. What the
      service throws (a password that is not a string, for a user with a stored one) goes
      to the application's error handler, which answers 500. */
  function Login(db: Db, email: string, senha: Option<string>, compare: (string, string) -> bool,
                 sign: Claims -> string, newToken: string, now: int, hash: string -> string): (r: (Db, Response<AS.Session>))
    requires EmailUnique(db.usuarios)
    ensures r.1.status == 200 <==> senha.Some? && exists k :: AS.Accepts(db, k, email, senha.value, compare)
    ensures r.1.status == 500 <==> senha.None? && exists k :: AS.Registered(db, k, email)
    ensures r.1.status != 200 ==> r.0 == db && r.1.body.None?
    ensures r.1.status in {200, 401, 500}
    ensures r.1.status == 200 ==> r.1.body == AS.Login(db, email, senha, compare, sign, newToken, now, hash).value.1
  {
    match AS.Login(db, email, senha, compare, sign, newToken, now, hash)
    case Fail(e) => (db, NoBody(StatusOf(e)))
    case Ok((db', s)) => if s.None? then (db, NoBody(401)) else (db', Send(200, s.value))
  }

  /** The pair a refresh answers with. */
  datatype Tokens = Tokens(accessToken: string, refreshToken: string)

  /** `expires_at` is set (neither NULL nor 0) and lies before `now`. */
  predicate Expired(row: TokenRow, now: int) {
    row.expiresAt.Some? && row.expiresAt.value != 0 && row.expiresAt.value < now
  }

  /** The record a refresh token names can be used at `now`. */
  ghost predicate Usable(db: Db, token: string, now: int, hash: string -> string)
    requires TokenHashUnique(db.refreshTokens)
  {
    var f := RT.FindByToken(db, token, hash);
    f.Some? && !db.refreshTokens[f.value].revoked && !Expired(db.refreshTokens[f.value], now)
  }

  /** `POST /refresh`: 400 without a token; 403 for an unknown, revoked or expired one;
      404 when its user is gone; 500 when the rotation is refused; otherwise a new access
      token for the user's current payload (without a token counter) and a new refresh
      token, which replaces the old one in the same record. */
  function Refresh(db: Db, token: Field<string>, sign: Claims -> string, newToken: string, now: int,
                   hash: string -> string): (r: (Db, Response<Tokens>))
    requires TokenHashUnique(db.refreshTokens)
    ensures !TextTruthy(token) ==> r == (db, NoBody(400))
    ensures TextTruthy(token) && !Usable(db, token.value, now, hash) ==> r == (db, NoBody(403))
    ensures TextTruthy(token) && Usable(db, token.value, now, hash) ==>
      var k := RT.FindByToken(db, token.value, hash).value;
      db.refreshTokens[k].usuarioId !in db.usuarios ==> r == (db, NoBody(404))
    ensures TextTruthy(token) && Usable(db, token.value, now, hash) ==>
      var k := RT.FindByToken(db, token.value, hash).value;
      (db.refreshTokens[k].usuarioId in db.usuarios && RT.Rotate(db, k, newToken, Some(now + AS.REFRESH_TTL), hash).Fail?
       ==> r == (db, NoBody(500)))
    ensures TextTruthy(token) && Usable(db, token.value, now, hash) ==>
      var k := RT.FindByToken(db, token.value, hash).value;
      (db.refreshTokens[k].usuarioId in db.usuarios && RT.Rotate(db, k, newToken, Some(now + AS.REFRESH_TTL), hash).Ok?
       ==> r.1.status == 200)
    ensures r.1.status != 200 ==> r.0 == db && r.1.body.None?
    ensures r.1.status in {200, 400, 403, 404, 500}
    ensures r.1.status == 200 ==>
      && TextTruthy(token) && Usable(db, token.value, now, hash)
      && var k := RT.FindByToken(db, token.value, hash).value;
         var u := db.refreshTokens[k].usuarioId;
         && u in db.usuarios
         && r.1.body == Some(Tokens(sign(AS.UserPayload(db, u)), newToken))
         && RT.Rotate(db, k, newToken, Some(now + AS.REFRESH_TTL), hash) == Ok(r.0)
  {
    if !TextTruthy(token) then (db, NoBody(400))
    else match RT.FindByToken(db, token.value, hash)
      case None => (db, NoBody(403))
      case Some(k) =>
        var row := db.refreshTokens[k];
        if row.revoked then (db, NoBody(403))
        else if Expired(row, now) then (db, NoBody(403))
        else if row.usuarioId !in db.usuarios then (db, NoBody(404))
        else
          var payload := AS.UserPayload(db, row.usuarioId);
          match RT.Rotate(db, k, newToken, Some(now + AS.REFRESH_TTL), hash)
          case Fail(_) => (db, NoBody(500))
          case Ok(db') => (db', Send(200, Tokens(sign(payload), newToken)))
  }

  /** A refresh token from a login works until it expires: a refresh within its lifetime
      succeeds, provided the new token's hash is not already stored. */
  lemma LoginThenRefresh(db: Db, email: string, senha: Option<string>, compare: (string, string) -> bool,
                         sign: Claims -> string, tok: string, now: int, later: int, tok2: string, hash: string -> string)
    requires EmailUnique(db.usuarios) && TokenHashUnique(db.refreshTokens) && FreshCounter(db)
    requires AS.Login(db, email, senha, compare, sign, tok, now, hash).Ok?
    requires AS.Login(db, email, senha, compare, sign, tok, now, hash).value.1.Some?
    requires tok != "" && !RT.HashUsed(db.refreshTokens, hash(tok))
    requires later <= now + AS.REFRESH_TTL
    requires !RT.HashUsed(AS.Login(db, email, senha, compare, sign, tok, now, hash).value.0.refreshTokens, hash(tok2))
    ensures var db' := AS.Login(db, email, senha, compare, sign, tok, now, hash).value.0;
      TokenHashUnique(db'.refreshTokens) && Refresh(db', Val(tok), sign, tok2, later, hash).1.status == 200
  {
    AS.LoginIssuesRefreshToken(db, email, senha, compare, sign, tok, now, hash);
  }

  /** Refresh tokens are single-use: after a successful refresh the old token is refused. */
  lemma RefreshRetiresOldToken(db: Db, tok: string, sign: Claims -> string, tok2: string, now: int,
                               later: int, tok3: string, hash: string -> string)
    requires TokenHashUnique(db.refreshTokens)
    requires Refresh(db, Val(tok), sign, tok2, now, hash).1.status == 200
    requires hash(tok) != hash(tok2)
    ensures var db' := Refresh(db, Val(tok), sign, tok2, now, hash).0;
      TokenHashUnique(db'.refreshTokens) && Refresh(db', Val(tok), sign, tok3, later, hash) == (db', NoBody(403))
  {
    var k := RT.FindByToken(db, tok, hash).value;
    RT.RotateThenFind(db, k, tok, tok2, Some(now + AS.REFRESH_TTL), hash);
  }

  /** Assigning a role ends the user's sessions: every refresh token the user held is
      refused afterwards. */
  lemma AssignRoleEndsSessions(db: Db, u: Id, role: US.RoleRef, tok: string, sign: Claims -> string,
                               tok2: string, now: int, hash: string -> string)
    requires US.RoleNameUnique(db.roles) && TokenHashUnique(db.refreshTokens)
    requires US.AssignRole(db, u, role).1.Some? && tok != ""
    requires RT.FindByToken(db, tok, hash).Some? && db.refreshTokens[RT.FindByToken(db, tok, hash).value].usuarioId == u
    ensures var db' := US.AssignRole(db, u, role).0;
      TokenHashUnique(db'.refreshTokens) && Refresh(db', Val(tok), sign, tok2, now, hash).1.status == 403
  {
    var db' := US.AssignRole(db, u, role).0;
    var k := RT.FindByToken(db, tok, hash).value;
    assert TokenHashUnique(db'.refreshTokens);
    assert !RT.HashUsed(db'.refreshTokens, hash(tok));
  }

  /** The access token a login returns authenticates as the session's user when sent as a
      bearer header, given a signer whose tokens the verifier accepts and that contain no
      space. */
  lemma LoginThenAuthenticate(db: Db, email: string, senha: Option<string>, compare: (string, string) -> bool,
                              sign: Claims -> string, verify: string -> Option<Claims>, tok: string, now: int,
                              hash: string -> string)
    requires EmailUnique(db.usuarios)
    requires AS.Login(db, email, senha, compare, sign, tok, now, hash).Ok?
    requires AS.Login(db, email, senha, compare, sign, tok, now, hash).value.1.Some?
    requires forall c :: verify(sign(c)) == Some(c) && sign(c) != "" && ' ' !in sign(c)
    ensures var s := AS.Login(db, email, senha, compare, sign, tok, now, hash).value.1.value;
      Authenticate(Some(BEARER + s.accessToken), verify) == Ok(s.user)
  {
    var s := AS.Login(db, email, senha, compare, sign, tok, now, hash).value.1.value;
    assert s.accessToken == sign(s.user);
    assert forall i :: 0 <= i < |s.accessToken| ==> s.accessToken[i] != ' ';
    BearerRoundTrip(s.accessToken, "");
  }
}

=== FILE: auth_middleware.dfy ===
/** Request authentication and role checks. */
module AuthMiddleware {
  import opened Wrappers
  import opened Roles
  import opened Store

  /** The decoded access-token payload that becomes `req.user`. */
  datatype Claims = Claims(id: Id, email: string, roles: Option<UserRoles>, tokenVersion: Option<int>)

  /** What a middleware does with the request: pass it on, or answer with a status. */
  datatype Decision = Next | Deny(status: nat)

  /** `user.roles` is truthy: present, and not the empty string. */
  predicate RolesTruthy(c: Claims) {
    c.roles.Some? && c.roles.value != Text("")
  }

  /** `requester.roles && requester.roles.includes(role)`. */
  predicate HasRole(c: Claims, role: string) {
    RolesTruthy(c) && Includes(c.roles.value, role)
  }

  /** The characters before the first space. */
  function UpToSpace(s: string): (r: string)
    ensures |r| <= |s| && r == s[..|r|]
    ensures forall i :: 0 <= i < |r| ==> r[i] != ' '
    ensures |r| < |s| ==> s[|r|] == ' '
  {
    if s == [] || s[0] == ' ' then [] else [s[0]] + UpToSpace(s[1..])
  }

  const BEARER: string := "Bearer "

  /** `header.split(' ')[1]` for a header that starts with "Bearer ": the second field. */
  function BearerToken(h: string): string
    requires StartsWith(h, BEARER)
  {
    UpToSpace(h[|BEARER|..])
  }

  /** `authenticate`: 401 without a "Bearer " header or with an empty token; 403 when the
      token does not verify; otherwise the decoded payload. `verify` stands for the JWT
      check, which returns nothing for a bad or expired token. */
  function Authenticate(header: Option<string>, verify: string -> Option<Claims>): (r: Outcome<Claims>)
    ensures header.None? || !StartsWith(header.value, BEARER) ==> r == Fail(HttpError(401))
    ensures header.Some? && StartsWith(header.value, BEARER) ==>
      var tok := BearerToken(header.value);
      && (tok == "" ==> r == Fail(HttpError(401)))
      && (tok != "" && verify(tok).None? ==> r == Fail(HttpError(403)))
      && (tok != "" && verify(tok).Some? ==> r == Ok(verify(tok).value))
  {
    if header.None? || !StartsWith(header.value, BEARER) then Fail(HttpError(401))
    else
      var tok := BearerToken(header.value);
      if tok == "" then Fail(HttpError(401))
      else match verify(tok)
        case None => Fail(HttpError(403))
        case Some(c) => Ok(c)
  }

  /** A header built as "Bearer " + token, optionally followed by a space and anything,
      yields exactly that token. */
  lemma {:induction false} BearerRoundTrip(tok: string, rest: string)
    requires forall i :: 0 <= i < |tok| ==> tok[i] != ' '
    ensures StartsWith(BEARER + tok, BEARER) && BearerToken(BEARER + tok) == tok
    ensures StartsWith(BEARER + tok + " " + rest, BEARER) && BearerToken(BEARER + tok + " " + rest) == tok
  {
    assert (BEARER + tok)[..|BEARER|] == BEARER;
    assert (BEARER + tok + " " + rest)[..|BEARER|] == BEARER;
    assert (BEARER + tok)[|BEARER|..] == tok;
    assert (BEARER + tok + " " + rest)[|BEARER|..] == tok + (" " + rest);
    UpToSpacePrefix(tok, "");
    UpToSpacePrefix(tok, " " + rest);
  }

  lemma {:induction false} UpToSpacePrefix(tok: string, tail: string)
    requires forall i :: 0 <= i < |tok| ==> tok[i] != ' '
    requires tail == [] || tail[0] == ' '
    ensures UpToSpace(tok + tail) == tok
    decreases |tok|
  {
    if tok == [] {
      assert tok + tail == tail;
    } else {
      assert (tok + tail)[1..] == tok[1..] + tail;
      UpToSpacePrefix(tok[1..], tail);
    }
  }

  /** `requiredRoles.some(role => userRoles.includes(role))`. */
  function AnyIncluded(roles: UserRoles, required: seq<string>): bool
    decreases |required|
  {
    if required == [] then false
    else Includes(roles, required[0]) || AnyIncluded(roles, required[1..])
  }

  lemma {:induction false} AnyIncludedIff(roles: UserRoles, required: seq<string>)
    ensures AnyIncluded(roles, required) <==> exists i :: 0 <= i < |required| && Includes(roles, required[i])
    decreases |required|
  {
    if required != [] {
      AnyIncludedIff(roles, required[1..]);
      if exists i :: 0 <= i < |required| && Includes(roles, required[i]) {
        var i :| 0 <= i < |required| && Includes(roles, required[i]);
        if i > 0 {
          assert required[1..][i - 1] == required[i];
        }
      }
      if exists i :: 0 <= i < |required[1..]| && Includes(roles, required[1..][i]) {
        var i :| 0 <= i < |required[1..]| && Includes(roles, required[1..][i]);
        assert required[i + 1] == required[1..][i];
      }
    }
  }

  /** `authorize(requiredRoles)`: 403 without a user or roles; passes exactly when one of
      the required roles is among the user's. */
  function Authorize(user: Option<Claims>, required: seq<string>): (d: Decision)
    ensures d.Deny? ==> d.status == 403
    ensures d == Next <==>
      user.Some? && RolesTruthy(user.value)
      && exists i :: 0 <= i < |required| && Includes(user.value.roles.value, required[i])
  {
    if user.None? || !RolesTruthy(user.value) then Deny(403)
    else
      AnyIncludedIff(user.value.roles.value, required);
      if AnyIncluded(user.value.roles.value, required) then Next else Deny(403)
  }

  /** No role list lets anyone through. */
  lemma EmptyRequirementDenies(user: Option<Claims>)
    ensures Authorize(user, []) == Deny(403)
  {
  }

  /** `Number(x)` of a nullable id column: null reads as 0. */
  function NumberOf(o: Option<Id>): nat {
    if o.Some? then o.value else 0
  }

  /** `authorizeOrTurmaOwner`: 403 without roles; ADMIN passes without a lookup; a
      PROFESSOR needs the turma id (400), the turma (404), and to be its professor (403);
      anyone else gets 403. */
  function AuthorizeOrTurmaOwner(db: Db, user: Option<Claims>, turmaId: Option<Id>): (d: Decision)
    ensures d == Next <==>
      user.Some? && (HasRole(user.value, ADMIN)
        || (HasRole(user.value, PROFESSOR) && turmaId.Some? && turmaId.value in db.turmas
            && NumberOf(db.turmas[turmaId.value].professorId) == user.value.id))
    ensures d == Deny(404) <==>
      user.Some? && !HasRole(user.value, ADMIN) && HasRole(user.value, PROFESSOR)
      && turmaId.Some? && turmaId.value !in db.turmas
    ensures d == Deny(400) <==>
      user.Some? && !HasRole(user.value, ADMIN) && HasRole(user.value, PROFESSOR) && turmaId.None?
    ensures d.Deny? && d != Deny(400) && d != Deny(404) ==> d == Deny(403)
    ensures d.Deny? ==> d.status in {400, 403, 404}
  {
    if user.None? || !RolesTruthy(user.value) then Deny(403)
    else if Includes(user.value.roles.value, ADMIN) then Next
    else if Includes(user.value.roles.value, PROFESSOR) then
      if turmaId.None? then Deny(400)
      else if turmaId.value !in db.turmas then Deny(404)
      else if NumberOf(db.turmas[turmaId.value].professorId) == user.value.id then Next
      else Deny(403)
    else Deny(403)
  }

  /** The professor a turma names always passes for it, and a professor who is not its
      professor never does, unless also ADMIN. */
  lemma OwnerExactlyPasses(db: Db, c: Claims, t: Id)
    requires HasRole(c, PROFESSOR) && !HasRole(c, ADMIN) && t in db.turmas && c.id != 0
    ensures AuthorizeOrTurmaOwner(db, Some(c), Some(t)) == Next <==> db.turmas[t].professorId == Some(c.id)
  {
  }
}

=== FILE: auth_service.dfy ===
/** Login: password check, access-token payload and refresh-token issue. */
module AuthService {
  import opened Wrappers
  import opened Store
  import opened UsuarioDomain
  import opened AuthMiddleware
  import UR = UsuarioRepository
  import RT = RefreshTokensRepository

  const DAY_MS: int := 24 * 60 * 60 * 1000
  /** The default of `REFRESH_TOKEN_DAYS`. */
  const REFRESH_EXPIRES_DAYS: int := 7
  /** How long a refresh token lives, in milliseconds. */
  const REFRESH_TTL: int := REFRESH_EXPIRES_DAYS * DAY_MS

  /** What a successful login returns. */
  datatype Session = Session(accessToken: string, refreshToken: string, user: Claims)

  /** The payload as the code builds it. The optional `token_version` is copied from the
      loaded user object, but that object never has such a property (its constructor keeps
      id, email, nome, senha, roles, ra and siape only), so the field is always left out. */
  function PayloadAsWritten(u: Usuario): (c: Claims)
    ensures c.tokenVersion.None?
  {
    Claims(u.id, u.email, Some(u.roles), None)
  }

  /** The payload `login` and `refresh` sign for stored user `id`: its id, e-mail and loaded
      roles, and no token counter. */
  function UserPayload(db: Db, id: Id): (c: Claims)
    requires id in db.usuarios
    ensures c.id == id && c.email == db.usuarios[id].email
    ensures c.roles == Some(UR.ToDomain(db, id).roles)
    ensures c.tokenVersion.None?
  {
    PayloadAsWritten(UR.ToDomain(db, id))
  }

  /** The payload as meant: id, e-mail, roles and the user's current token counter. */
  function Payload(db: Db, id: Id): (c: Claims)
    requires id in db.usuarios
    ensures c.id == id && c.email == db.usuarios[id].email
    ensures c.roles == Some(UR.ToDomain(db, id).roles)
    ensures c.tokenVersion == Some(db.usuarios[id].tokenVersion)
  {
    UserPayload(db, id).(tokenVersion := Some(db.usuarios[id].tokenVersion))
  }

  /** As written, bumping a user's token counter leaves every payload issued afterwards
      exactly as before: the bump that role assignment performs to mark the change is
      never visible in a token. */
  lemma AsWrittenPayloadIgnoresTokenVersion(db: Db, u: Id)
    requires u in db.usuarios
    ensures var db' := UR.IncrementTokenVersion(db, u);
      && db'.usuarios[u].tokenVersion != db.usuarios[u].tokenVersion
      && UserPayload(db', u) == UserPayload(db, u)
  {
    UR.IncrementBumpsByOne(db, u);
  }

  /** With the counter in the payload, a payload issued after a bump differs from one
      issued before it, and carries the new counter. */
  lemma PayloadTracksTokenVersion(db: Db, u: Id)
    requires u in db.usuarios
    ensures var db' := UR.IncrementTokenVersion(db, u);
      && Payload(db', u) != Payload(db, u)
      && Payload(db', u).tokenVersion == Some(db.usuarios[u].tokenVersion + 1)
      && Payload(db', u).(tokenVersion := None) == Payload(db, u).(tokenVersion := None)
  {
    UR.IncrementBumpsByOne(db, u);
  }

  /** User `k` holds e-mail `email` and a stored (truthy) password. */
  ghost predicate Registered(db: Db, k: Id, email: string) {
    k in db.usuarios && db.usuarios[k].email == email && db.usuarios[k].senha != ""
  }

  /** The user an e-mail and password log in as. */
  ghost predicate Accepts(db: Db, k: Id, email: string, senha: string, compare: (string, string) -> bool) {
    k in db.usuarios && db.usuarios[k].email == email && db.usuarios[k].senha != ""
    && compare(senha, db.usuarios[k].senha)
  }

  /** `login(email, senha)`: nothing for an unknown e-mail, a user without a password or a
      wrong password; otherwise a signed access token, a new refresh token and the payload,
      which carries no token counter (see `PayloadAsWritten`). `senha` is `None` when the
      body's value is not a string (absent, null, a number, ...): bcrypt's comparison then
      rejects its arguments, so the call throws once a user with a stored password is found.
      The refresh token's hash is stored with its expiry; a failure to store it is
      swallowed. `compare` is bcrypt's comparison, `sign` the JWT signer, `newToken` the
      random refresh token, `now` the clock and `hash` SHA-256. */
  function Login(db: Db, email: string, senha: Option<string>, compare: (string, string) -> bool,
                 sign: Claims -> string, newToken: string, now: int, hash: string -> string)
    : (r: Outcome<(Db, Option<Session>)>)
    requires EmailUnique(db.usuarios)
    ensures r.Fail? <==> senha.None? && exists k :: Registered(db, k, email)
    ensures r.Fail? ==> r.error == LibraryError
    ensures r.Ok? ==> (r.value.1.Some? <==> senha.Some? && exists k :: Accepts(db, k, email, senha.value, compare))
    ensures r.Ok? && r.value.1.None? ==> r.value.0 == db
    ensures r.Ok? && r.value.1.Some? ==>
      var s := r.value.1.value;
      && Accepts(db, s.user.id, email, senha.value, compare)
      && s.user == UserPayload(db, s.user.id)
      && s.accessToken == sign(s.user)
      && s.refreshToken == newToken
    ensures r.Ok? && r.value.1.Some? && RT.HashUsed(db.refreshTokens, hash(newToken)) ==> r.value.0 == db
    ensures r.Ok? && r.value.1.Some? && !RT.HashUsed(db.refreshTokens, hash(newToken)) ==>
      r.value.0 == db.(refreshTokens := db.refreshTokens[db.nextId :=
                   TokenRow(r.value.1.value.user.id, hash(newToken), false, Some(now + REFRESH_TTL))],
                 nextId := db.nextId + 1)
  {
    match UR.FindByEmail(db, email)
    case None => Ok((db, None))
    case Some(u) =>
      assert forall k :: Registered(db, k, email) ==> k == u.id;
      if !HasSenha(u) then Ok((db, None))
      else if senha.None? then
        assert Registered(db, u.id, email);
        Fail(LibraryError)
      else
        assert forall k :: Accepts(db, k, email, senha.value, compare) ==> k == u.id;
        if !ComparePassword(u, senha.value, compare) then Ok((db, None))
        else
          assert Accepts(db, u.id, email, senha.value, compare);
          var payload := UserPayload(db, u.id);
          var db' := match RT.Create(db, u.id, newToken, Some(now + REFRESH_TTL), hash)
            case Ok((db1, _)) => db1
            case Fail(_) => db;
          Ok((db', Some(Session(sign(payload), newToken, payload))))
  }

  /** After a login whose token hash is fresh, the refresh token finds its record: the
      user's, unrevoked, expiring one refresh lifetime after the login. */
  lemma LoginIssuesRefreshToken(db: Db, email: string, senha: Option<string>, compare: (string, string) -> bool,
                                sign: Claims -> string, newToken: string, now: int, hash: string -> string)
    requires EmailUnique(db.usuarios) && TokenHashUnique(db.refreshTokens) && FreshCounter(db)
    requires Login(db, email, senha, compare, sign, newToken, now, hash).Ok?
    requires Login(db, email, senha, compare, sign, newToken, now, hash).value.1.Some?
    requires !RT.HashUsed(db.refreshTokens, hash(newToken))
    ensures var (db', s) := Login(db, email, senha, compare, sign, newToken, now, hash).value;
      && TokenHashUnique(db'.refreshTokens)
      && RT.FindByToken(db', s.value.refreshToken, hash) == Some(db.nextId)
      && db'.refreshTokens[db.nextId] == TokenRow(s.value.user.id, hash(newToken), false, Some(now + REFRESH_TTL))
  {
    var s := Login(db, email, senha, compare, sign, newToken, now, hash).value.1.value;
    RT.CreateThenFind(db, s.user.id, newToken, Some(now + REFRESH_TTL), hash);
  }
}

=== FILE: disciplina_service.dfy ===
/** Disciplinas: unique codes and the delete guard. */
module DisciplinaService {
  import opened Wrappers
  import opened Store
  import opened Columns
  import TR = TurmaRepository

  /** The body of an insert or update: the value it gives each column, and whether it
      also carries a key that names no column of the table. */
  datatype Payload = Payload(codigo: Field<string>, nome: Field<string>, cargaHoraria: Field<int>,
                             unknownColumn: bool)

  predicate CodigoUsed(ds: map<Id, DisciplinaRow>, c: string) {
    exists k :: k in ds && ds[k].codigo == c
  }

  predicate CodigoTakenByOther(ds: map<Id, DisciplinaRow>, c: string, id: Id) {
    exists k :: k in ds && k != id && ds[k].codigo == c
  }

  /** Every turma's disciplina reference names an existing disciplina. */
  ghost predicate Referenced(db: Db) {
    forall k :: k in db.turmas && db.turmas[k].disciplinaId.Some? ==> db.turmas[k].disciplinaId.value in db.disciplinas
  }

  /** The row an insert stores: `carga_horaria` defaults to 0. */
  function InsertRow(p: Payload): DisciplinaRow
    requires p.codigo.Val? && p.nome.Val?
  {
    DisciplinaRow(p.codigo.value, p.nome.value, SetNullable(p.cargaHoraria, Some(0)))
  }

  /** `create(payload)`: 409 when the code is taken; otherwise the insert, which the
      store refuses when a NOT NULL column is missing or a key names no column. Returns
      the new key. */
  function Create(db: Db, p: Payload): (r: Outcome<(Db, Id)>)
    ensures r == Fail(HttpError(409)) <==> p.codigo.Val? && CodigoUsed(db.disciplinas, p.codigo.value)
    ensures r.Fail? && r.error != HttpError(409) ==>
      r.error == StoreError && (!(p.codigo.Val? && p.nome.Val?) || p.unknownColumn)
    ensures r.Ok? ==>
      && p.codigo.Val? && p.nome.Val? && !p.unknownColumn && !CodigoUsed(db.disciplinas, p.codigo.value)
      && r.value == (db.(disciplinas := db.disciplinas[db.nextId := InsertRow(p)], nextId := db.nextId + 1), db.nextId)
  {
    if p.codigo.Val? && CodigoUsed(db.disciplinas, p.codigo.value) then Fail(HttpError(409))
    else if !p.codigo.Val? || !p.nome.Val? || p.unknownColumn then Fail(StoreError)
    else Ok((db.(disciplinas := db.disciplinas[db.nextId := InsertRow(p)], nextId := db.nextId + 1), db.nextId))
  }

  function UpdateRow(row: DisciplinaRow, p: Payload): DisciplinaRow {
    DisciplinaRow(SetRequired(p.codigo, row.codigo), SetRequired(p.nome, row.nome),
                  SetNullable(p.cargaHoraria, row.cargaHoraria))
  }

  predicate EmptyPayload(p: Payload) {
    p.codigo.Undefined? && p.nome.Undefined? && p.cargaHoraria.Undefined? && !p.unknownColumn
  }

  /** `update(id, payload)`: a truthy code held by another disciplina gives 409; the
      service's own code is allowed, and a falsy code is not checked. Then the repository
      update: an empty body, a key that names no column (whether or not the row exists) or
      a NULL in a NOT NULL column is refused by the store, as is a code another row holds;
      a missing id reads back as null. */
  function Update(db: Db, id: Id, p: Payload): (r: Outcome<(Db, Option<DisciplinaRow>)>)
    ensures TextTruthy(p.codigo) && CodigoTakenByOther(db.disciplinas, p.codigo.value, id) ==> r == Fail(HttpError(409))
    ensures r == Fail(HttpError(409)) <==> TextTruthy(p.codigo) && CodigoTakenByOther(db.disciplinas, p.codigo.value, id)
    ensures p.unknownColumn ==> r.Fail?
    ensures r.Ok? && id !in db.disciplinas ==> r.value == (db, None)
    ensures r.Ok? && id in db.disciplinas ==>
      && !(p.codigo.Val? && CodigoTakenByOther(db.disciplinas, p.codigo.value, id))
      && r.value.0 == db.(disciplinas := db.disciplinas[id := UpdateRow(db.disciplinas[id], p)])
      && r.value.1 == Some(UpdateRow(db.disciplinas[id], p))
  {
    if TextTruthy(p.codigo) && CodigoTakenByOther(db.disciplinas, p.codigo.value, id) then Fail(HttpError(409))
    else if EmptyPayload(p) || p.unknownColumn then Fail(StoreError)
    else if id !in db.disciplinas then Ok((db, None))
    else if p.codigo.Null? || p.nome.Null? then Fail(StoreError)
    else if p.codigo.Val? && CodigoTakenByOther(db.disciplinas, p.codigo.value, id) then Fail(StoreError)
    else
      var row := UpdateRow(db.disciplinas[id], p);
      Ok((db.(disciplinas := db.disciplinas[id := row]), Some(row)))
  }

  /** `remove(id)`: 409 while a turma references the disciplina; otherwise the number of
      deleted rows. */
  function Remove(db: Db, id: Id): (r: Outcome<(Db, nat)>)
    ensures r.Fail? <==> TR.CountByDisciplina(db, id) > 0
    ensures r.Fail? ==> r.error == HttpError(409)
    ensures r.Ok? ==> r.value == (db.(disciplinas := db.disciplinas - {id}), if id in db.disciplinas then 1 else 0)
  {
    if TR.CountByDisciplina(db, id) > 0 then Fail(HttpError(409))
    else Ok((db.(disciplinas := db.disciplinas - {id}), if id in db.disciplinas then 1 else 0))
  }

  /** A disciplina with turmas cannot be deleted, so no turma is left pointing at a
      missing disciplina. */
  lemma RemoveKeepsReferences(db: Db, id: Id)
    requires Referenced(db) && Remove(db, id).Ok?
    ensures Referenced(Remove(db, id).value.0)
  {
    TR.CountsDetectReferences(db, id);
  }

  /** Creating keeps codes unique, and the new row is the one its code finds. */
  lemma CreateKeepsCodigoUnique(db: Db, p: Payload)
    requires DisciplinaCodigoUnique(db.disciplinas) && FreshCounter(db) && Create(db, p).Ok?
    ensures var (db', id) := Create(db, p).value;
      && DisciplinaCodigoUnique(db'.disciplinas)
      && forall k :: k in db'.disciplinas && db'.disciplinas[k].codigo == p.codigo.value ==> k == id
  {
    assert db.nextId !in db.disciplinas;
  }

  /** Updating keeps codes unique. */
  lemma UpdateKeepsCodigoUnique(db: Db, id: Id, p: Payload)
    requires DisciplinaCodigoUnique(db.disciplinas) && Update(db, id, p).Ok?
    ensures DisciplinaCodigoUnique(Update(db, id, p).value.0.disciplinas)
  {
    if id in db.disciplinas {
      var ds' := Update(db, id, p).value.0.disciplinas;
      forall i, j | i in ds' && j in ds' && ds'[i].codigo == ds'[j].codigo
        ensures i == j
      {
        if i != id && j != id {
          assert db.disciplinas[i].codigo == db.disciplinas[j].codigo;
        }
      }
    }
  }

  /** Resubmitting a disciplina's own code is never a conflict: such an update succeeds
      exactly when every key names a column. */
  lemma OwnCodigoAllowed(db: Db, id: Id, p: Payload)
    requires DisciplinaCodigoUnique(db.disciplinas) && id in db.disciplinas
    requires p.codigo == Val(db.disciplinas[id].codigo) && !p.nome.Null?
    ensures Update(db, id, p).Ok? <==> !p.unknownColumn
  {
  }
}

=== FILE: horario_service.dfy ===
/** Horarios: unique codes and the delete guard. */
module HorarioService {
  import opened Wrappers
  import opened Store
  import opened Columns
  import TR = TurmaRepository

  /** The body of an insert or update: the value it gives each column, and whether it
      also carries a key that names no column of the table. */
  datatype Payload = Payload(dia: Field<int>, turno: Field<int>, codigo: Field<string>, descricao: Field<string>,
                             unknownColumn: bool)

  predicate CodigoUsed(hs: map<Id, HorarioRow>, c: string) {
    exists k :: k in hs && hs[k].codigo == c
  }

  predicate CodigoTakenByOther(hs: map<Id, HorarioRow>, c: string, id: Id) {
    exists k :: k in hs && k != id && hs[k].codigo == c
  }

  /** Every turma's horario reference names an existing horario. */
  ghost predicate Referenced(db: Db) {
    forall k :: k in db.turmas && db.turmas[k].horarioId.Some? ==> db.turmas[k].horarioId.value in db.horarios
  }

  predicate Complete(p: Payload) {
    p.dia.Val? && p.turno.Val? && p.codigo.Val?
  }

  /** The row an insert stores: `descricao` defaults to NULL. */
  function InsertRow(p: Payload): HorarioRow
    requires Complete(p)
  {
    HorarioRow(p.dia.value, p.turno.value, p.codigo.value, SetNullable(p.descricao, None))
  }

  /** `create(payload)`: 409 when the code is taken; otherwise the insert, which the
      store refuses when a NOT NULL column is missing or a key names no column. Returns
      the new key. */
  function Create(db: Db, p: Payload): (r: Outcome<(Db, Id)>)
    ensures r == Fail(HttpError(409)) <==> p.codigo.Val? && CodigoUsed(db.horarios, p.codigo.value)
    ensures r.Fail? && r.error != HttpError(409) ==> r.error == StoreError && (!Complete(p) || p.unknownColumn)
    ensures r.Ok? ==>
      && Complete(p) && !p.unknownColumn && !CodigoUsed(db.horarios, p.codigo.value)
      && r.value == (db.(horarios := db.horarios[db.nextId := InsertRow(p)], nextId := db.nextId + 1), db.nextId)
  {
    if p.codigo.Val? && CodigoUsed(db.horarios, p.codigo.value) then Fail(HttpError(409))
    else if !Complete(p) || p.unknownColumn then Fail(StoreError)
    else Ok((db.(horarios := db.horarios[db.nextId := InsertRow(p)], nextId := db.nextId + 1), db.nextId))
  }

  function UpdateRow(row: HorarioRow, p: Payload): HorarioRow {
    HorarioRow(SetRequired(p.dia, row.dia), SetRequired(p.turno, row.turno), SetRequired(p.codigo, row.codigo),
               SetNullable(p.descricao, row.descricao))
  }

  predicate EmptyPayload(p: Payload) {
    p.dia.Undefined? && p.turno.Undefined? && p.codigo.Undefined? && p.descricao.Undefined? && !p.unknownColumn
  }

  /** `update(id, payload)`: a truthy code held by another horario gives 409; its own code
      is allowed, and a falsy code is not checked. Then the repository update, with the
      same store refusals as for disciplinas, a key that names no column among them. */
  function Update(db: Db, id: Id, p: Payload): (r: Outcome<(Db, Option<HorarioRow>)>)
    ensures TextTruthy(p.codigo) && CodigoTakenByOther(db.horarios, p.codigo.value, id) ==> r == Fail(HttpError(409))
    ensures r == Fail(HttpError(409)) <==> TextTruthy(p.codigo) && CodigoTakenByOther(db.horarios, p.codigo.value, id)
    ensures p.unknownColumn ==> r.Fail?
    ensures r.Ok? && id !in db.horarios ==> r.value == (db, None)
    ensures r.Ok? && id in db.horarios ==>
      && !(p.codigo.Val? && CodigoTakenByOther(db.horarios, p.codigo.value, id))
      && r.value.0 == db.(horarios := db.horarios[id := UpdateRow(db.horarios[id], p)])
      && r.value.1 == Some(UpdateRow(db.horarios[id], p))
  {
    if TextTruthy(p.codigo) && CodigoTakenByOther(db.horarios, p.codigo.value, id) then Fail(HttpError(409))
    else if EmptyPayload(p) || p.unknownColumn then Fail(StoreError)
    else if id !in db.horarios then Ok((db, None))
    else if p.dia.Null? || p.turno.Null? || p.codigo.Null? then Fail(StoreError)
    else if p.codigo.Val? && CodigoTakenByOther(db.horarios, p.codigo.value, id) then Fail(StoreError)
    else
      var row := UpdateRow(db.horarios[id], p);
      Ok((db.(horarios := db.horarios[id := row]), Some(row)))
  }

  /** `remove(id)`: 409 while a turma uses the horario; otherwise the number of deleted rows. */
  function Remove(db: Db, id: Id): (r: Outcome<(Db, nat)>)
    ensures r.Fail? <==> TR.CountByHorario(db, id) > 0
    ensures r.Fail? ==> r.error == HttpError(409)
    ensures r.Ok? ==> r.value == (db.(horarios := db.horarios - {id}), if id in db.horarios then 1 else 0)
  {
    if TR.CountByHorario(db, id) > 0 then Fail(HttpError(409))
    else Ok((db.(horarios := db.horarios - {id}), if id in db.horarios then 1 else 0))
  }

  /** A horario in use cannot be deleted, so no turma is left pointing at a missing one. */
  lemma RemoveKeepsReferences(db: Db, id: Id)
    requires Referenced(db) && Remove(db, id).Ok?
    ensures Referenced(Remove(db, id).value.0)
  {
    TR.CountsDetectReferences(db, id);
  }

  /** Creating keeps codes unique, and the new row is the one its code finds. */
  lemma CreateKeepsCodigoUnique(db: Db, p: Payload)
    requires HorarioCodigoUnique(db.horarios) && FreshCounter(db) && Create(db, p).Ok?
    ensures var (db', id) := Create(db, p).value;
      && HorarioCodigoUnique(db'.horarios)
      && forall k :: k in db'.horarios && db'.horarios[k].codigo == p.codigo.value ==> k == id
  {
    assert db.nextId !in db.horarios;
  }

  /** Updating keeps codes unique. */
  lemma UpdateKeepsCodigoUnique(db: Db, id: Id, p: Payload)
    requires HorarioCodigoUnique(db.horarios) && Update(db, id, p).Ok?
    ensures HorarioCodigoUnique(Update(db, id, p).value.0.horarios)
  {
    if id in db.horarios {
      var hs' := Update(db, id, p).value.0.horarios;
      forall i, j | i in hs' && j in hs' && hs'[i].codigo == hs'[j].codigo
        ensures i == j
      {
        if i != id && j != id {
          assert db.horarios[i].codigo == db.horarios[j].codigo;
        }
      }
    }
  }

  /** Resubmitting a horario's own code is never a conflict: such an update succeeds
      exactly when every key names a column. */
  lemma OwnCodigoAllowed(db: Db, id: Id, p: Payload)
    requires HorarioCodigoUnique(db.horarios) && id in db.horarios
    requires p.codigo == Val(db.horarios[id].codigo) && !p.dia.Null? && !p.turno.Null?
    ensures Update(db, id, p).Ok? <==> !p.unknownColumn
  {
  }
}

=== FILE: http.dfy ===
/** What a controller sends back. */
module Http {
  import opened Wrappers

  /** A status code and, where the controller sends one that the model keeps, a body. */
  datatype Response<+T> = Response(status: int, body: Option<T>)

  function Send<T>(status: int, v: T): Response<T> {
    Response(status, Some(v))
  }

  function NoBody<T>(status: int): Response<T> {
    Response(status, None)
  }

  /** The status a caught error turns into where the controller honours `err.statusCode`:
      a raised application error keeps its own code; a store or library error has none
      and gives 500. */
  function StatusOf(e: Error): (s: nat)
    ensures e.HttpError? ==> s == e.status
    ensures !e.HttpError? ==> s == 500
  {
    match e
    case HttpError(s) => s
    case StoreError => 500
    case LibraryError => 500
  }
}

=== FILE: json.dfy ===
/** The JSON values the domain records serialise to. */
module Json {
  import opened Wrappers
  import opened Roles

  /** `JRoles` stands for the `roles` property of a user, an array of names or a string. */
  datatype Json = JNull | JNum(n: int) | JStr(s: string) | JRoles(roles: UserRoles)

  /** A JSON object, keyed by property name. */
  type Object = map<string, Json>

  function OptNum(o: Option<int>): Json {
    match o
    case Some(n) => JNum(n)
    case None => JNull
  }

  function OptStr(o: Option<string>): Json {
    match o
    case Some(s) => JStr(s)
    case None => JNull
  }

  /** Reads back a nullable number written by `OptNum`. */
  function NumOpt(j: Json): Option<int> {
    if j.JNum? then Some(j.n) else None
  }

  /** Reads back a nullable string written by `OptStr`. */
  function StrOpt(j: Json): Option<string> {
    if j.JStr? then Some(j.s) else None
  }

  lemma OptNumRoundTrip(o: Option<int>)
    ensures NumOpt(OptNum(o)) == o
  {
  }

  lemma OptStrRoundTrip(o: Option<string>)
    ensures StrOpt(OptStr(o)) == o
  {
  }
}

=== FILE: matricula_controller.dfy ===
/** The enrollment endpoints. Every route runs after authentication, so a user is present. */
module MatriculaController {
  import opened Wrappers
  import opened Roles
  import opened Store
  import opened MatriculaDomain
  import opened AuthMiddleware
  import opened Http
  import MS = MatriculaService
  import MR = MatriculaRepository

  /** `POST /matriculas`: 400 without a truthy `turmaId`; 201 with the new enrollment;
      every refusal of the service, whatever its own code, is answered with 400. */
  function Enroll(db: Db, user: Claims, turmaId: Field<Id>, now: int): (r: (Db, Response<Matricula>))
    ensures !IdTruthy(turmaId) ==> r == (db, NoBody(400))
    ensures r.1.status == 201 <==> IdTruthy(turmaId) && MS.Enroll(db, user.id, turmaId.value, now).Ok?
    ensures r.1.status != 201 ==> r == (db, NoBody(400))
    ensures r.1.status == 201 ==>
      && r.1.body.Some? && IsActive(r.1.body.value)
      && r.1.body.value.alunoId == user.id && r.1.body.value.turmaId == turmaId.value
      && r.1.body.value.id in r.0.matriculas
  {
    if !IdTruthy(turmaId) then (db, NoBody(400))
    else match MS.Enroll(db, user.id, turmaId.value, now)
      case Fail(_) => (db, NoBody(400))
      case Ok((db', m)) => (db', Send(201, m))
  }

  /** A student the service refuses for a missing user (404), a missing role (403) or a
      full turma (409) still sees 400 from this endpoint. */
  lemma EnrollErrorsCollapse(db: Db, user: Claims, t: Id, now: int)
    requires t != 0 && MS.Enroll(db, user.id, t, now).Fail?
    ensures MS.Enroll(db, user.id, t, now).error.status in {400, 403, 404, 409}
    ensures Enroll(db, user, Val(t), now).1.status == 400
  {
  }

  /** `requester.id` matches the enrollment's student, or the requester is ADMIN. */
  predicate OwnerOrAdmin(user: Claims, m: Matricula) {
    HasRole(user, ADMIN) || user.id == m.alunoId
  }

  /** `DELETE /matriculas/:id` as written: 404 when nothing was deleted, 204 otherwise.
      Any ADMIN or ALUNO reaches it, and it does not look at who owns the enrollment. */
  function RemoveAsWritten(db: Db, user: Claims, id: Id): (r: (Db, Response<()>))
    ensures r.1.status == 204 <==> id in db.matriculas
    ensures r.1.status != 204 ==> r == (db, NoBody(404))
    ensures r.1.status == 204 ==> r.0 == MS.Remove(db, id).0
  {
    var (db', n) := MS.Remove(db, id);
    if n == 0 then (db, NoBody(404)) else (db', NoBody(204))
  }

  /** As written, a student deletes another student's enrollment and frees its seat. */
  lemma AnyStudentRemovesAnyEnrollment(db: Db, user: Claims, id: Id)
    requires id in db.matriculas && db.matriculas[id].alunoId != user.id && !HasRole(user, ADMIN)
    ensures RemoveAsWritten(db, user, id).1.status == 204
    ensures id !in RemoveAsWritten(db, user, id).0.matriculas
  {
  }

  /** `DELETE /matriculas/:id` with the owner check the route promises (ADMIN or the
      enrollment's own student): 404 for an unknown id, 403 for anyone else, 204 after the
      removal. */
  function Remove(db: Db, user: Claims, id: Id): (r: (Db, Response<()>))
    ensures r.1.status in {204, 403, 404}
    ensures id !in db.matriculas ==> r == (db, NoBody(404))
    ensures r.1.status != 204 ==> r.0 == db
  {
    match MR.FindById(db, id)
    case None => (db, NoBody(404))
    case Some(m) =>
      if !OwnerOrAdmin(user, m) then (db, NoBody(403))
      else (MS.Remove(db, id).0, NoBody(204))
  }

  /** An enrollment disappears exactly when its own student or an ADMIN removes it, and
      then its seat goes back to the turma. */
  lemma OnlyOwnerOrAdminRemoves(db: Db, user: Claims, id: Id)
    requires id in db.matriculas
    ensures var (db', resp) := Remove(db, user, id);
      && (resp.status == 204 <==> HasRole(user, ADMIN) || user.id == db.matriculas[id].alunoId)
      && (id !in db'.matriculas <==> resp.status == 204)
      && (resp.status == 204 ==> db' == MS.Remove(db, id).0)
  {
  }

  /** `GET /matriculas/:id`: 404 for an unknown id; the enrollment for an ADMIN or its own
      student; 403 for anyone else, including a missing user. */
  function GetById(db: Db, user: Option<Claims>, id: Id): (r: Response<Matricula>)
    ensures id !in db.matriculas ==> r == NoBody(404)
    ensures id in db.matriculas ==>
      var m := MR.ToDomain(id, db.matriculas[id]);
      && (r.status == 200 <==> user.Some? && OwnerOrAdmin(user.value, m))
      && (r.status == 200 ==> r.body == Some(m))
      && (r.status != 200 ==> r == NoBody(403))
  {
    match MR.FindById(db, id)
    case None => NoBody(404)
    case Some(m) =>
      if !(user.Some? && HasRole(user.value, ADMIN)) && (user.None? || user.value.id != m.alunoId) then NoBody(403)
      else Send(200, m)
  }

  /** The part of the body a student may change about its own enrollment: a truthy status. */
  function OwnerPatch(body: MR.Patch): (p: MR.Patch)
    ensures MR.StatusOnly(p)
    ensures p.status.Val? <==> TextTruthy(body.status)
    ensures MR.EmptyPatch(p) <==> !TextTruthy(body.status)
    ensures p.status.Val? ==> p.status == body.status
  {
    MR.Patch(Undefined, Undefined, if TextTruthy(body.status) then body.status else Undefined, Undefined, false)
  }

  /** `PUT /matriculas/:id`: 404 for an unknown id; an ADMIN's body goes to the store as
      sent; another user who is not the student gets 403; the student's body is cut down
      to a truthy status. A store refusal (an empty update among them) gives 500. */
  function Update(db: Db, user: Claims, id: Id, body: MR.Patch): (r: (Db, Response<Option<Matricula>>))
    ensures id !in db.matriculas ==> r == (db, NoBody(404))
    ensures r.1.status in {200, 403, 404, 500}
    ensures r.1.status != 200 ==> r.0 == db
    ensures id in db.matriculas && !HasRole(user, ADMIN) && user.id != db.matriculas[id].alunoId ==>
      r == (db, NoBody(403))
    ensures id in db.matriculas && HasRole(user, ADMIN) ==>
      (r.1.status == 200 <==> MS.Update(db, id, body).Ok?)
    ensures r.1.status == 200 ==> r.1.body.Some? && r.1.body.value.Some? && r.1.body.value.value.id == id
  {
    match MR.FindById(db, id)
    case None => (db, NoBody(404))
    case Some(existing) =>
      var p := if HasRole(user, ADMIN) then body
               else OwnerPatch(body);
      if !HasRole(user, ADMIN) && user.id != existing.alunoId then (db, NoBody(403))
      else match MS.Update(db, id, p)
        case Fail(_) => (db, NoBody(500))
        case Ok((db', o)) => (db', Send(200, o))
  }

  /** A student updating its own enrollment never moves it: student and turma stay, the
      status is the one sent, and every turma keeps its seat total. Without a truthy
      status the store refuses the empty update. */
  lemma OwnerUpdateOnlyTouchesStatus(db: Db, user: Claims, id: Id, body: MR.Patch, x: Id)
    requires Valid(db)
    requires id in db.matriculas && !HasRole(user, ADMIN) && user.id == db.matriculas[id].alunoId
    requires x in db.turmas
    ensures var (db', resp) := Update(db, user, id, body);
      && (resp.status == 200 <==> TextTruthy(body.status))
      && (resp.status == 200 ==>
            && id in db'.matriculas
            && db'.matriculas[id].alunoId == db.matriculas[id].alunoId
            && db'.matriculas[id].turmaId == db.matriculas[id].turmaId
            && db'.matriculas[id].status == Some(body.status.value)
            && db'.matriculas[id].createdAt == db.matriculas[id].createdAt
            && x in db'.turmas && MS.Seats(db', x) == MS.Seats(db, x))
      && (resp.status != 200 ==> resp.status == 500 && db' == db)
  {
    var p := OwnerPatch(body);
    var row := MR.ApplyPatch(db.matriculas[id], p);
    assert MR.PatchAllowed(db, id, row);
    if MS.Update(db, id, p).Ok? {
      MS.StatusUpdateConservesSeats(db, id, p, x);
    }
  }

  /** Against the table the migrations create, a student can never change its own
      enrollment: the body the handler forwards either is empty or names the missing
      `status` column, so the store refuses it, and the handler answers 500. */
  lemma OwnerUpdateFailsAsWritten(db: Db, id: Id, body: MR.Patch)
    ensures MR.UpdateByIdAsWritten(db, id, OwnerPatch(body)) == Fail(StoreError)
  {
  }
}

=== FILE: matricula_domain.dfy ===
/** The `Matricula` entity: the link between a student and a turma, with a status. */
module MatriculaDomain {
  import opened Wrappers
  import opened Json

  const ATIVA: string := "ativa"
  const CANCELADA: string := "cancelada"

  datatype Matricula = Matricula(id: nat, alunoId: nat, turmaId: nat, status: string, createdAt: Option<int>)

  predicate IsActive(m: Matricula) {
    m.status == ATIVA
  }

  /** The constructor: a missing status (NULL or absent) reads as 'ativa'. */
  function Make(id: nat, alunoId: nat, turmaId: nat, status: Option<string>, createdAt: Option<int>): (m: Matricula)
    ensures m.id == id && m.alunoId == alunoId && m.turmaId == turmaId && m.createdAt == createdAt
    ensures status.None? ==> IsActive(m)
    ensures status.Some? ==> m.status == status.value
  {
    Matricula(id, alunoId, turmaId, status.GetOr(ATIVA), createdAt)
  }

  /** `cancel()`: returns the record after the call and the call's boolean result. */
  function Cancel(m: Matricula): (r: (Matricula, bool))
    ensures r.1 <==> IsActive(m)
    ensures r.1 ==> r.0 == m.(status := CANCELADA)
    ensures !r.1 ==> r.0 == m
    ensures !IsActive(r.0)
  {
    if !IsActive(m) then (m, false) else (m.(status := CANCELADA), true)
  }

  /** A second cancel is a no-op that reports false. */
  lemma CancelTwiceIsNoOp(m: Matricula)
    ensures Cancel(Cancel(m).0) == (Cancel(m).0, false)
  {
  }

  /** `toJSON()`. */
  function ToJson(m: Matricula): (j: Object)
    ensures j.Keys == {"id", "aluno_id", "turma_id", "status", "created_at"}
  {
    map["id" := JNum(m.id), "aluno_id" := JNum(m.alunoId), "turma_id" := JNum(m.turmaId),
        "status" := JStr(m.status), "created_at" := OptNum(m.createdAt)]
  }

  /** `toSafeJSON()` hides nothing: it is `toJSON()`. */
  function ToSafeJson(m: Matricula): (j: Object)
    ensures j == ToJson(m)
  {
    ToJson(m)
  }

  /** Reads a record back from its JSON object. */
  function FromJson(j: Object): Option<Matricula> {
    if && "id" in j && j["id"].JNum? && j["id"].n >= 0
       && "aluno_id" in j && j["aluno_id"].JNum? && j["aluno_id"].n >= 0
       && "turma_id" in j && j["turma_id"].JNum? && j["turma_id"].n >= 0
       && "status" in j && j["status"].JStr?
       && "created_at" in j
    then Some(Matricula(j["id"].n, j["aluno_id"].n, j["turma_id"].n, j["status"].s, NumOpt(j["created_at"])))
    else None
  }

  /** The JSON form loses nothing: every field can be read back. */
  lemma JsonRoundTrip(m: Matricula)
    ensures FromJson(ToSafeJson(m)) == Some(m)
  {
    OptNumRoundTrip(m.createdAt);
  }
}

=== FILE: matricula_repository.dfy ===
/** Queries on `matriculas`. */
module MatriculaRepository {
  import opened Wrappers
  import opened Store
  import opened Columns
  import opened MatriculaDomain

  function ToDomain(id: Id, row: MatriculaRow): Matricula {
    Make(id, row.alunoId, row.turmaId, row.status, row.createdAt)
  }

  /** `listByAluno(a)`: the rows of student `a`. */
  function ListByAluno(db: Db, a: Id): (r: set<Matricula>)
    ensures forall m :: m in r <==>
      (m.id in db.matriculas && db.matriculas[m.id].alunoId == a && m == ToDomain(m.id, db.matriculas[m.id]))
  {
    set id | id in db.matriculas && db.matriculas[id].alunoId == a :: ToDomain(id, db.matriculas[id])
  }

  /** Keys of the rows that reference turma `t`, whatever their status. */
  function RowsOfTurma(ms: map<Id, MatriculaRow>, t: Id): set<Id> {
    set id | id in ms && ms[id].turmaId == t
  }

  /** `countByTurma(t)`: the number of rows of turma `t`, cancelled ones included. */
  function CountByTurma(ms: map<Id, MatriculaRow>, t: Id): nat {
    |RowsOfTurma(ms, t)|
  }

  /** `exists(a, t)`: some row pairs `a` with `t`, whatever its status. */
  predicate Exists(ms: map<Id, MatriculaRow>, a: Id, t: Id) {
    exists id :: id in ms && ms[id].alunoId == a && ms[id].turmaId == t
  }

  /** `findById(id)`. */
  function FindById(db: Db, id: Id): (r: Option<Matricula>)
    ensures r.Some? <==> id in db.matriculas
    ensures r.Some? ==> r.value == ToDomain(id, db.matriculas[id])
  {
    if id in db.matriculas then Some(ToDomain(id, db.matriculas[id])) else None
  }

  /** `create(a, t)`: inserts one row with no status (so it reads as 'ativa').
      The store refuses a duplicate pair or a dangling reference. */
  function Create(db: Db, a: Id, t: Id, now: int): (r: Outcome<(Db, Matricula)>)
    ensures r.Fail? <==> Exists(db.matriculas, a, t) || a !in db.usuarios || t !in db.turmas
    ensures r.Fail? ==> r.error == StoreError
    ensures r.Ok? ==>
      var (db', m) := r.value;
      && db' == db.(matriculas := db.matriculas[db.nextId := MatriculaRow(a, t, None, Some(now))], nextId := db.nextId + 1)
      && m == Matricula(db.nextId, a, t, ATIVA, Some(now))
      && IsActive(m)
  {
    if Exists(db.matriculas, a, t) || a !in db.usuarios || t !in db.turmas then Fail(StoreError)
    else
      var row := MatriculaRow(a, t, None, Some(now));
      Ok((db.(matriculas := db.matriculas[db.nextId := row], nextId := db.nextId + 1), ToDomain(db.nextId, row)))
  }

  /** `remove(id)`: the number of deleted rows. */
  function Remove(db: Db, id: Id): (r: (Db, nat))
    ensures r.1 == (if id in db.matriculas then 1 else 0)
    ensures r.0 == db.(matriculas := db.matriculas - {id})
  {
    (db.(matriculas := db.matriculas - {id}), if id in db.matriculas then 1 else 0)
  }

  /** An update body as it reaches the store: the value it gives each column, and
      whether it also carries a key that names no column of the table. */
  datatype Patch = Patch(alunoId: Field<Id>, turmaId: Field<Id>, status: Field<string>, createdAt: Field<int>,
                         unknownColumn: bool)

  /** A body with no key at all. */
  predicate EmptyPatch(p: Patch) {
    p.alunoId.Undefined? && p.turmaId.Undefined? && p.status.Undefined? && p.createdAt.Undefined?
    && !p.unknownColumn
  }

  /** A patch that touches `status` only. */
  predicate StatusOnly(p: Patch) {
    p.alunoId.Undefined? && p.turmaId.Undefined? && p.createdAt.Undefined? && !p.unknownColumn
  }

  function ApplyPatch(row: MatriculaRow, p: Patch): (r: MatriculaRow)
    ensures p.alunoId.Undefined? ==> r.alunoId == row.alunoId
    ensures p.turmaId.Undefined? ==> r.turmaId == row.turmaId
    ensures p.status.Undefined? ==> r.status == row.status
    ensures p.createdAt.Undefined? ==> r.createdAt == row.createdAt
    ensures p.status.Val? ==> r.status == Some(p.status.value)
  {
    MatriculaRow(SetRequired(p.alunoId, row.alunoId), SetRequired(p.turmaId, row.turmaId),
                 SetNullable(p.status, row.status), SetNullable(p.createdAt, row.createdAt))
  }

  /** The updated row would break no declared constraint. */
  predicate PatchAllowed(db: Db, id: Id, row: MatriculaRow) {
    && row.alunoId in db.usuarios && row.turmaId in db.turmas
    && !(exists k :: k in db.matriculas && k != id && db.matriculas[k].alunoId == row.alunoId
                     && db.matriculas[k].turmaId == row.turmaId)
  }

  /** `updateById(id, patch)`: writes the supplied columns and reads the row back.
      The query builder refuses an empty update; the store refuses a key that names no
      column (whether or not the row exists), NULL ids, a duplicate pair and a dangling
      reference. */
  function UpdateById(db: Db, id: Id, p: Patch): (r: Outcome<(Db, Option<Matricula>)>)
    ensures EmptyPatch(p) ==> r == Fail(StoreError)
    ensures p.unknownColumn ==> r == Fail(StoreError)
    ensures r.Fail? ==> r.error == StoreError
    ensures !EmptyPatch(p) && !p.unknownColumn && id !in db.matriculas ==> r == Ok((db, None))
    ensures r.Ok? && id in db.matriculas ==>
      var row := ApplyPatch(db.matriculas[id], p);
      && r.value.0 == db.(matriculas := db.matriculas[id := row])
      && r.value.1 == Some(ToDomain(id, row))
  {
    if EmptyPatch(p) then Fail(StoreError)
    else if p.unknownColumn then Fail(StoreError)
    else if id !in db.matriculas then Ok((db, None))
    else if p.alunoId.Null? || p.turmaId.Null? then Fail(StoreError)
    else
      var row := ApplyPatch(db.matriculas[id], p);
      if !PatchAllowed(db, id, row) then Fail(StoreError)
      else Ok((db.(matriculas := db.matriculas[id := row]), Some(ToDomain(id, row))))
  }

  /** `updateById` against the table the migrations create, which has no `status` column:
      a body that carries `status` at all, even as null, names a missing column and the
      query fails. Without `status` it behaves as `UpdateById`. */
  function UpdateByIdAsWritten(db: Db, id: Id, p: Patch): (r: Outcome<(Db, Option<Matricula>)>)
    ensures !p.status.Undefined? ==> r == Fail(StoreError)
    ensures p.status.Undefined? ==> r == UpdateById(db, id, p)
  {
    if p.status.Undefined? then UpdateById(db, id, p)
    else UpdateById(db, id, p.(status := Undefined, unknownColumn := true))
  }

  /** `exists` answers the same question as scanning the student's list. */
  lemma ExistsIffListed(db: Db, a: Id, t: Id)
    ensures Exists(db.matriculas, a, t) <==> exists m :: m in ListByAluno(db, a) && m.turmaId == t
  {
    if Exists(db.matriculas, a, t) {
      var id :| id in db.matriculas && db.matriculas[id].alunoId == a && db.matriculas[id].turmaId == t;
      assert ToDomain(id, db.matriculas[id]) in ListByAluno(db, a);
    }
  }

  /** A turma has rows exactly when some student is paired with it. */
  lemma {:induction false} CountPositiveIffSomeRow(ms: map<Id, MatriculaRow>, t: Id)
    ensures CountByTurma(ms, t) > 0 <==> exists a :: Exists(ms, a, t)
  {
    if CountByTurma(ms, t) > 0 {
      var id :| id in RowsOfTurma(ms, t);
      assert Exists(ms, ms[id].alunoId, t);
    }
    if exists a :: Exists(ms, a, t) {
      var a :| Exists(ms, a, t);
      var id :| id in ms && ms[id].alunoId == a && ms[id].turmaId == t;
      assert id in RowsOfTurma(ms, t);
    }
  }

  /** Inserting a fresh row adds one to the count of its turma only. */
  lemma {:induction false} CountAfterInsert(ms: map<Id, MatriculaRow>, id: Id, row: MatriculaRow, t: Id)
    requires id !in ms
    ensures CountByTurma(ms[id := row], t) == CountByTurma(ms, t) + (if row.turmaId == t then 1 else 0)
  {
    if row.turmaId == t {
      assert RowsOfTurma(ms[id := row], t) == RowsOfTurma(ms, t) + {id};
    } else {
      assert RowsOfTurma(ms[id := row], t) == RowsOfTurma(ms, t);
    }
  }

  /** Deleting a row takes one off the count of its turma only. */
  lemma {:induction false} CountAfterDelete(ms: map<Id, MatriculaRow>, id: Id, t: Id)
    requires id in ms
    ensures CountByTurma(ms - {id}, t) + (if ms[id].turmaId == t then 1 else 0) == CountByTurma(ms, t)
  {
    if ms[id].turmaId == t {
      assert RowsOfTurma(ms, t) == RowsOfTurma(ms - {id}, t) + {id};
    } else {
      assert RowsOfTurma(ms - {id}, t) == RowsOfTurma(ms, t);
    }
  }

  /** Rewriting a row without moving it to another turma keeps every count. */
  lemma {:induction false} CountAfterRewrite(ms: map<Id, MatriculaRow>, id: Id, row: MatriculaRow, t: Id)
    requires id in ms && row.turmaId == ms[id].turmaId
    ensures CountByTurma(ms[id := row], t) == CountByTurma(ms, t)
  {
    assert RowsOfTurma(ms[id := row], t) == RowsOfTurma(ms, t);
  }
}

=== FILE: matricula_service.dfy ===
/** The enrollment engine: seats, duplicate and timetable checks, seat restoration. */
module MatriculaService {
  import opened Wrappers
  import opened Roles
  import opened Store
  import opened MatriculaDomain
  import UsuarioRepository
  import MR = MatriculaRepository

  /** The timetable slot of turma `t`: its horario when the turma exists and the horario
      is truthy. */
  function Slot(db: Db, t: Id): (s: Option<Id>)
    ensures s.Some? ==> t in db.turmas && db.turmas[t].horarioId == s && s.value != 0
  {
    if t in db.turmas && SomeId(db.turmas[t].horarioId) then db.turmas[t].horarioId else None
  }

  /** Student `a` already holds a row in an existing turma scheduled at horario `h`. */
  predicate BookedAt(db: Db, a: Id, h: Id) {
    exists k :: k in db.matriculas && db.matriculas[k].alunoId == a && db.matriculas[k].turmaId in db.turmas
      && db.turmas[db.matriculas[k].turmaId].horarioId == Some(h)
  }

  /** The user exists and carries the ALUNO role. */
  predicate IsAluno(db: Db, a: Id) {
    a in db.usuarios && ALUNO in EnrollRoles(UsuarioRepository.ToDomain(db, a).roles)
  }

  /** Student `a` may take turma `t` if a seat is free: the checks that do not look at seats. */
  predicate Eligible(db: Db, a: Id, t: Id) {
    && IsAluno(db, a)
    && !MR.Exists(db.matriculas, a, t)
    && t in db.turmas
    && !(Slot(db, t).Some? && BookedAt(db, a, Slot(db, t).value))
  }

  /** `enroll(alunoId, turmaId)`. Checks in order: the user exists (404) and is a student
      (403), is not already enrolled (400), the turma exists (404), no timetable clash
      (409), a seat is free (409); then takes one seat and inserts the row, atomically.
      Any failure leaves the store as it was. */
  function Enroll(db: Db, a: Id, t: Id, now: int): (r: Outcome<(Db, Matricula)>)
    ensures r.Ok? <==> Eligible(db, a, t) && db.turmas[t].vagas > 0
    ensures a !in db.usuarios ==> r == Fail(HttpError(404))
    ensures a in db.usuarios && !IsAluno(db, a) ==> r == Fail(HttpError(403))
    ensures IsAluno(db, a) && MR.Exists(db.matriculas, a, t) ==> r == Fail(HttpError(400))
    ensures IsAluno(db, a) && !MR.Exists(db.matriculas, a, t) && t !in db.turmas ==> r == Fail(HttpError(404))
    ensures (IsAluno(db, a) && !MR.Exists(db.matriculas, a, t) && t in db.turmas
             && Slot(db, t).Some? && BookedAt(db, a, Slot(db, t).value)) ==> r == Fail(HttpError(409))
    ensures Eligible(db, a, t) && db.turmas[t].vagas <= 0 ==> r == Fail(HttpError(409))
    ensures r.Ok? ==>
      var (db', m) := r.value;
      && m == Matricula(db.nextId, a, t, ATIVA, Some(now)) && IsActive(m)
      && db' == db.(turmas := db.turmas[t := db.turmas[t].(vagas := db.turmas[t].vagas - 1)],
                    matriculas := db.matriculas[db.nextId := MatriculaRow(a, t, None, Some(now))],
                    nextId := db.nextId + 1)
  {
    if a !in db.usuarios then Fail(HttpError(404))
    else if ALUNO !in EnrollRoles(UsuarioRepository.ToDomain(db, a).roles) then Fail(HttpError(403))
    else if MR.Exists(db.matriculas, a, t) then Fail(HttpError(400))
    else if t !in db.turmas then Fail(HttpError(404))
    else
      var row := db.turmas[t];
      if SomeId(row.horarioId) && BookedAt(db, a, row.horarioId.value) then Fail(HttpError(409))
      else if row.vagas <= 0 then Fail(HttpError(409))
      else
        var db1 := db.(turmas := db.turmas[t := row.(vagas := row.vagas - 1)]);
        MR.Create(db1, a, t, now)
  }

  /** `remove(id)`: gives the seat back to the turma when it still exists, then deletes the
      row. Returns the number of deleted rows. */
  function Remove(db: Db, id: Id): (r: (Db, nat))
    ensures r.1 == (if id in db.matriculas then 1 else 0)
    ensures id !in db.matriculas ==> r.0 == db
    ensures id in db.matriculas && db.matriculas[id].turmaId in db.turmas ==>
      var t := db.matriculas[id].turmaId;
      r.0 == db.(turmas := db.turmas[t := db.turmas[t].(vagas := db.turmas[t].vagas + 1)],
                 matriculas := db.matriculas - {id})
    ensures id in db.matriculas && db.matriculas[id].turmaId !in db.turmas ==>
      r.0 == db.(matriculas := db.matriculas - {id})
  {
    if id !in db.matriculas then (db, 0)
    else
      var t := db.matriculas[id].turmaId;
      var db1 := if t in db.turmas then db.(turmas := db.turmas[t := db.turmas[t].(vagas := db.turmas[t].vagas + 1)]) else db;
      MR.Remove(db1, id)
  }

  /** `update(id, body)`: the repository update, unchanged. */
  function Update(db: Db, id: Id, p: MR.Patch): (r: Outcome<(Db, Option<Matricula>)>)
    ensures r == MR.UpdateById(db, id, p)
    ensures r.Ok? && r.value.1.Some? ==> r.value.1.value.id == id && id in r.value.0.matriculas
  {
    MR.UpdateById(db, id, p)
  }

  // ---------------------------------------------------------------------------
  // Invariants

  /** Seats of turma `t`: the free ones plus the rows that hold one. */
  function Seats(db: Db, t: Id): int
    requires t in db.turmas
  {
    db.turmas[t].vagas + MR.CountByTurma(db.matriculas, t)
  }

  ghost predicate VagasNonNeg(db: Db) {
    forall t :: t in db.turmas ==> db.turmas[t].vagas >= 0
  }

  /** No student holds two rows in turmas scheduled at the same (truthy) horario. */
  ghost predicate NoDoubleBooking(db: Db) {
    forall i, j ::
      (i in db.matriculas && j in db.matriculas && db.matriculas[i].alunoId == db.matriculas[j].alunoId
       && Slot(db, db.matriculas[i].turmaId).Some?
       && Slot(db, db.matriculas[i].turmaId) == Slot(db, db.matriculas[j].turmaId)) ==> i == j
  }

  /** Enrolling never makes free seats negative, and takes exactly one seat from the
      chosen turma: free seats plus occupied rows stay constant for every turma. */
  lemma EnrollConservesSeats(db: Db, a: Id, t: Id, now: int, x: Id)
    requires FreshCounter(db) && x in db.turmas
    requires Enroll(db, a, t, now).Ok?
    ensures var db' := Enroll(db, a, t, now).value.0;
      && x in db'.turmas && Seats(db', x) == Seats(db, x)
      && db'.turmas[x].vagas == db.turmas[x].vagas - (if x == t then 1 else 0)
      && (VagasNonNeg(db) ==> VagasNonNeg(db'))
  {
    assert db.nextId !in db.matriculas;
    MR.CountAfterInsert(db.matriculas, db.nextId, MatriculaRow(a, t, None, Some(now)), x);
  }

  /** Enrolling keeps every declared constraint. */
  lemma EnrollKeepsValid(db: Db, a: Id, t: Id, now: int)
    requires Valid(db)
    requires Enroll(db, a, t, now).Ok?
    ensures Valid(Enroll(db, a, t, now).value.0)
  {
    var db' := Enroll(db, a, t, now).value.0;
    var n := db.nextId;
    assert n !in db.matriculas;
    VagasKeepTurmaKeys(db.turmas, t, db.turmas[t].vagas - 1);
    assert FreshCounter(db');
    assert PairUnique(db'.matriculas);
    assert MatriculaRefs(db');
  }

  /** Enrolling never double-books a student. */
  lemma EnrollKeepsNoDoubleBooking(db: Db, a: Id, t: Id, now: int)
    requires FreshCounter(db) && NoDoubleBooking(db)
    requires Enroll(db, a, t, now).Ok?
    ensures NoDoubleBooking(Enroll(db, a, t, now).value.0)
  {
    var db' := Enroll(db, a, t, now).value.0;
    var n := db.nextId;
    assert n !in db.matriculas;
    assert forall x :: Slot(db', x) == Slot(db, x);
  }

  /** Removing a row gives its seat back: free seats plus occupied rows stay constant for
      every turma. */
  lemma RemoveConservesSeats(db: Db, id: Id, x: Id)
    requires x in db.turmas
    ensures var db' := Remove(db, id).0;
      x in db'.turmas && Seats(db', x) == Seats(db, x)
  {
    if id in db.matriculas {
      MR.CountAfterDelete(db.matriculas, id, x);
    }
  }

  /** Removing rows keeps every declared constraint and the timetable guarantee. */
  lemma RemoveKeepsValid(db: Db, id: Id)
    requires Valid(db) && NoDoubleBooking(db)
    ensures Valid(Remove(db, id).0) && NoDoubleBooking(Remove(db, id).0)
  {
    var db' := Remove(db, id).0;
    if id in db.matriculas && db.matriculas[id].turmaId in db.turmas {
      var t := db.matriculas[id].turmaId;
      VagasKeepTurmaKeys(db.turmas, t, db.turmas[t].vagas + 1);
    }
    assert FreshCounter(db');
    assert forall x :: Slot(db', x) == Slot(db, x);
    assert MatriculaRefs(db');
  }

  /** Cancelling through a status-only update keeps the seat totals: the row still holds
      its seat. */
  lemma StatusUpdateConservesSeats(db: Db, id: Id, p: MR.Patch, x: Id)
    requires x in db.turmas
    requires MR.StatusOnly(p) && Update(db, id, p).Ok?
    ensures var db' := Update(db, id, p).value.0;
      x in db'.turmas && Seats(db', x) == Seats(db, x)
  {
    if id in db.matriculas {
      MR.CountAfterRewrite(db.matriculas, id, MR.ApplyPatch(db.matriculas[id], p), x);
    }
  }

  /** Rewriting a row in place without changing its pair keeps every declared constraint
      and the timetable guarantee. */
  lemma RewriteKeepsValid(db: Db, id: Id, row: MatriculaRow)
    requires Valid(db) && NoDoubleBooking(db) && id in db.matriculas
    requires row.alunoId == db.matriculas[id].alunoId && row.turmaId == db.matriculas[id].turmaId
    ensures Valid(db.(matriculas := db.matriculas[id := row]))
    ensures NoDoubleBooking(db.(matriculas := db.matriculas[id := row]))
  {
    var db' := db.(matriculas := db.matriculas[id := row]);
    assert db'.matriculas.Keys == db.matriculas.Keys;
    assert forall k :: k in db'.matriculas ==>
      db'.matriculas[k].alunoId == db.matriculas[k].alunoId && db'.matriculas[k].turmaId == db.matriculas[k].turmaId;
    assert FreshCounter(db');
    assert PairUnique(db'.matriculas);
    assert MatriculaRefs(db');
  }

  /** A status-only update keeps every declared constraint and the timetable guarantee. */
  lemma StatusUpdateKeepsValid(db: Db, id: Id, p: MR.Patch)
    requires Valid(db) && NoDoubleBooking(db)
    requires MR.StatusOnly(p) && Update(db, id, p).Ok?
    ensures var db' := Update(db, id, p).value.0;
      Valid(db') && NoDoubleBooking(db')
  {
    if id in db.matriculas {
      RewriteKeepsValid(db, id, MR.ApplyPatch(db.matriculas[id], p));
    }
  }

  /** An update that moves a row to another turma shifts one occupied seat between the two
      turmas without touching `vagas`: the seat total of the old turma drops by one and
      that of the new turma rises by one. */
  lemma TurmaMoveShiftsSeats(db: Db, id: Id, p: MR.Patch, x: Id)
    requires x in db.turmas
    requires Update(db, id, p).Ok? && id in db.matriculas
    ensures var db' := Update(db, id, p).value.0;
      var from := db.matriculas[id].turmaId;
      var to := db'.matriculas[id].turmaId;
      && x in db'.turmas
      && Seats(db', x) == Seats(db, x) - (if x == from then 1 else 0) + (if x == to then 1 else 0)
  {
    var ms := db.matriculas;
    var row := MR.ApplyPatch(ms[id], p);
    MR.CountAfterDelete(ms, id, x);
    assert ms[id := row] == (ms - {id})[id := row];
    MR.CountAfterInsert(ms - {id}, id, row, x);
  }

  /** Removing the row an enrollment created puts the store back as it was, apart from the
      spent key. */
  lemma RemoveUndoesEnroll(db: Db, a: Id, t: Id, now: int)
    requires FreshCounter(db)
    requires Enroll(db, a, t, now).Ok?
    ensures var (db', m) := Enroll(db, a, t, now).value;
      Remove(db', m.id) == (db.(nextId := db.nextId + 1), 1)
  {
    var (db', m) := Enroll(db, a, t, now).value;
    assert db.nextId !in db.matriculas;
    assert db'.matriculas - {m.id} == db.matriculas;
    var row := db.turmas[t];
    assert row.(vagas := row.vagas - 1).(vagas := row.vagas - 1 + 1) == row;
    assert db.turmas[t := row.(vagas := row.vagas - 1)][t := row] == db.turmas;
  }

  // ---------------------------------------------------------------------------
  // Capacity

  /** A run of enrollment requests for one turma, one after the other; returns the final
      store and the number of requests that succeeded. */
  function EnrollAll(db: Db, students: seq<Id>, t: Id, now: int): (Db, nat)
    decreases |students|
  {
    if students == [] then (db, 0)
    else match Enroll(db, students[0], t, now)
      case Ok((db1, _)) =>
        var (db2, n) := EnrollAll(db1, students[1..], t, now);
        (db2, n + 1)
      case Fail(_) => EnrollAll(db, students[1..], t, now)
  }

  /** No overbooking: a run of requests takes exactly as many seats as it admits students,
      never more than were free, and never drives `vagas` below zero. */
  lemma {:induction false} NoOverbooking(db: Db, students: seq<Id>, t: Id, now: int)
    requires FreshCounter(db) && t in db.turmas && db.turmas[t].vagas >= 0
    ensures var (db', n) := EnrollAll(db, students, t, now);
      && t in db'.turmas
      && db'.turmas[t].vagas == db.turmas[t].vagas - n
      && db'.turmas[t].vagas >= 0
      && n <= db.turmas[t].vagas
      && MR.CountByTurma(db'.matriculas, t) == MR.CountByTurma(db.matriculas, t) + n
    decreases |students|
  {
    if students != [] {
      match Enroll(db, students[0], t, now)
      case Ok((db1, _)) =>
        EnrollConservesSeats(db, students[0], t, now, t);
        NoOverbooking(db1, students[1..], t, now);
      case Fail(_) =>
        NoOverbooking(db, students[1..], t, now);
    }
  }

  /** Enrolling one student leaves another student's eligibility untouched. */
  lemma EnrollKeepsOthersEligible(db: Db, a: Id, b: Id, t: Id, now: int)
    requires FreshCounter(db) && a != b && Eligible(db, b, t)
    requires Enroll(db, a, t, now).Ok?
    ensures Eligible(Enroll(db, a, t, now).value.0, b, t)
  {
    var db' := Enroll(db, a, t, now).value.0;
    assert db.nextId !in db.matriculas;
    assert LinkedRoleNames(db', b) == LinkedRoleNames(db, b);
    assert forall x :: Slot(db', x) == Slot(db, x);
  }

  /** Distinct eligible students fill the turma exactly: as many are admitted as there are
      requests, up to the number of free seats. */
  lemma {:induction false} FillsToCapacity(db: Db, students: seq<Id>, t: Id, now: int)
    requires FreshCounter(db) && t in db.turmas && db.turmas[t].vagas >= 0
    requires forall i, j :: 0 <= i < j < |students| ==> students[i] != students[j]
    requires forall i :: 0 <= i < |students| ==> Eligible(db, students[i], t)
    ensures EnrollAll(db, students, t, now).1 ==
      if |students| <= db.turmas[t].vagas then |students| else db.turmas[t].vagas
    decreases |students|
  {
    if students != [] {
      var rest := students[1..];
      assert forall i :: 0 <= i < |rest| ==> rest[i] == students[i + 1];
      match Enroll(db, students[0], t, now)
      case Ok((db1, _)) =>
        EnrollConservesSeats(db, students[0], t, now, t);
        forall i | 0 <= i < |rest|
          ensures Eligible(db1, rest[i], t)
        {
          EnrollKeepsOthersEligible(db, students[0], rest[i], t, now);
        }
        FillsToCapacity(db1, rest, t, now);
      case Fail(_) =>
        assert db.turmas[t].vagas == 0;
        NoOverbooking(db, rest, t, now);
    }
  }
}

=== FILE: refresh_tokens_repository.dfy ===
/** The refresh-token table: tokens are stored by hash, found by hash, rotated in place. */
module RefreshTokensRepository {
  import opened Wrappers
  import opened Store

  predicate HashUsed(rs: map<Id, TokenRow>, h: string) {
    exists k :: k in rs && rs[k].tokenHash == h
  }

  /** `create({usuarioId, token, expiresAt})`: stores `hash(token)`, never the token. The
      store refuses a repeated hash and a missing user. Returns the new key. */
  function Create(db: Db, u: Id, token: string, expiresAt: Option<int>, hash: string -> string): (r: Outcome<(Db, Id)>)
    ensures r.Fail? <==> HashUsed(db.refreshTokens, hash(token)) || u !in db.usuarios
    ensures r.Fail? ==> r.error == StoreError
    ensures r.Ok? ==>
      && r.value.1 == db.nextId
      && r.value.0 == db.(refreshTokens := db.refreshTokens[db.nextId := TokenRow(u, hash(token), false, expiresAt)],
                          nextId := db.nextId + 1)
  {
    if HashUsed(db.refreshTokens, hash(token)) || u !in db.usuarios then Fail(StoreError)
    else Ok((db.(refreshTokens := db.refreshTokens[db.nextId := TokenRow(u, hash(token), false, expiresAt)],
                 nextId := db.nextId + 1), db.nextId))
  }

  /** `findByToken(token)`: the record whose stored hash is `hash(token)`. */
  function FindByToken(db: Db, token: string, hash: string -> string): (r: Option<Id>)
    requires TokenHashUnique(db.refreshTokens)
    ensures r.Some? <==> HashUsed(db.refreshTokens, hash(token))
    ensures r.Some? ==> r.value in db.refreshTokens && db.refreshTokens[r.value].tokenHash == hash(token)
  {
    if HashUsed(db.refreshTokens, hash(token)) then
      var k :| k in db.refreshTokens && db.refreshTokens[k].tokenHash == hash(token);
      Some(k)
    else None
  }

  /** `rotate(id, newToken, newExpiresAt)`: same key, new hash and expiry, revoked cleared.
      The store refuses a hash another record already holds. */
  function Rotate(db: Db, id: Id, newToken: string, newExpiresAt: Option<int>, hash: string -> string): (r: Outcome<Db>)
    ensures r.Fail? <==> id in db.refreshTokens && exists k :: k in db.refreshTokens && k != id && db.refreshTokens[k].tokenHash == hash(newToken)
    ensures r.Fail? ==> r.error == StoreError
    ensures r.Ok? && id !in db.refreshTokens ==> r.value == db
    ensures r.Ok? && id in db.refreshTokens ==>
      r.value == db.(refreshTokens := db.refreshTokens[id := db.refreshTokens[id].(tokenHash := hash(newToken),
                                                                                  expiresAt := newExpiresAt, revoked := false)])
  {
    if id !in db.refreshTokens then Ok(db)
    else if exists k :: k in db.refreshTokens && k != id && db.refreshTokens[k].tokenHash == hash(newToken) then Fail(StoreError)
    else Ok(db.(refreshTokens := db.refreshTokens[id := db.refreshTokens[id].(tokenHash := hash(newToken),
                                                                            expiresAt := newExpiresAt, revoked := false)]))
  }

  /** `revokeByUser(u)`: marks all and only the records of `u` revoked. */
  function RevokeByUser(db: Db, u: Id): (db': Db)
    ensures db'.refreshTokens.Keys == db.refreshTokens.Keys
    ensures forall k :: k in db.refreshTokens && db.refreshTokens[k].usuarioId == u ==>
      db'.refreshTokens[k] == db.refreshTokens[k].(revoked := true)
    ensures forall k :: k in db.refreshTokens && db.refreshTokens[k].usuarioId != u ==>
      db'.refreshTokens[k] == db.refreshTokens[k]
    ensures db' == db.(refreshTokens := db'.refreshTokens)
  {
    db.(refreshTokens := map k | k in db.refreshTokens ::
      if db.refreshTokens[k].usuarioId == u then db.refreshTokens[k].(revoked := true) else db.refreshTokens[k])
  }

  /** `deleteByUser(u)`: removes all and only the records of `u`. */
  function DeleteByUser(db: Db, u: Id): (db': Db)
    ensures forall k :: k in db'.refreshTokens <==> k in db.refreshTokens && db.refreshTokens[k].usuarioId != u
    ensures forall k :: k in db'.refreshTokens ==> db'.refreshTokens[k] == db.refreshTokens[k]
    ensures db' == db.(refreshTokens := db'.refreshTokens)
  {
    db.(refreshTokens := map k | k in db.refreshTokens && db.refreshTokens[k].usuarioId != u :: db.refreshTokens[k])
  }

  /** A stored token is found again through the same hash. */
  lemma CreateThenFind(db: Db, u: Id, token: string, expiresAt: Option<int>, hash: string -> string)
    requires TokenHashUnique(db.refreshTokens) && FreshCounter(db)
    requires Create(db, u, token, expiresAt, hash).Ok?
    ensures var (db', id) := Create(db, u, token, expiresAt, hash).value;
      TokenHashUnique(db'.refreshTokens) && FindByToken(db', token, hash) == Some(id)
  {
    var (db', id) := Create(db, u, token, expiresAt, hash).value;
    assert db'.refreshTokens[id].tokenHash == hash(token);
  }

  /** After a rotation the new token finds the same record, now unrevoked, and the old
      token finds nothing, provided the two hashes differ. */
  lemma RotateThenFind(db: Db, id: Id, oldToken: string, newToken: string, e: Option<int>, hash: string -> string)
    requires TokenHashUnique(db.refreshTokens)
    requires FindByToken(db, oldToken, hash) == Some(id)
    requires hash(oldToken) != hash(newToken)
    requires Rotate(db, id, newToken, e, hash).Ok?
    ensures var db' := Rotate(db, id, newToken, e, hash).value;
      && TokenHashUnique(db'.refreshTokens)
      && FindByToken(db', newToken, hash) == Some(id)
      && !db'.refreshTokens[id].revoked && db'.refreshTokens[id].expiresAt == e
      && FindByToken(db', oldToken, hash) == None
  {
    var db' := Rotate(db, id, newToken, e, hash).value;
    assert db'.refreshTokens[id].tokenHash == hash(newToken);
  }
}

=== FILE: roles.dfy ===
/** Role names and the two shapes in which a user's roles travel through the code. */
module Roles {

  const ADMIN: string := "ADMIN"
  const PROFESSOR: string := "PROFESSOR"
  const ALUNO: string := "ALUNO"

  /** The legacy `usuarios.roles` text column: NULL, a JSON array of names,
      or text that does not parse as JSON. */
  datatype RolesColumn = NoRolesText | JsonArray(names: set<string>) | RawText(text: string)

  /** Roles as a loaded user or a token payload carries them: an array of names,
      or a string that failed to parse as JSON. */
  datatype UserRoles = Names(names: set<string>) | Text(text: string)

  predicate StartsWith(s: string, prefix: string) {
    |prefix| <= |s| && s[..|prefix|] == prefix
  }

  /** JavaScript `String.prototype.includes`: `sub` occurs somewhere in `s`. */
  predicate Contains(s: string, sub: string)
    decreases |s|
  {
    StartsWith(s, sub) || (|s| > 0 && Contains(s[1..], sub))
  }

  /** JavaScript `roles.includes(role)`: membership for an array, substring for a string. */
  predicate Includes(r: UserRoles, role: string) {
    match r
    case Names(ns) => role in ns
    case Text(t) => Contains(t, role)
  }

  /** `Array.isArray(roles) && roles.includes(role)`, the test the turma service applies. */
  predicate ArrayIncludes(r: UserRoles, role: string) {
    r.Names? && role in r.names
  }

  /** The roles the enrollment engine works with: a string is passed through `JSON.parse`,
      which fails on non-JSON text, so the fallback `[roles]` applies. */
  function EnrollRoles(r: UserRoles): (names: set<string>)
    ensures r.Names? ==> names == r.names
    ensures r.Text? ==> names == {r.text}
  {
    match r
    case Names(ns) => ns
    case Text(t) => {t}
  }

  lemma {:induction false} ContainsItself(s: string)
    ensures Contains(s, s)
  {
    assert s[..|s|] == s;
  }

  /** A role string that is exactly the role name passes every `.includes` test in the code. */
  lemma TextRoleIncludesItself(role: string)
    ensures Includes(Text(role), role)
    ensures role in EnrollRoles(Text(role))
  {
    ContainsItself(role);
  }

  /** A string holding a longer name passes `.includes` for every name it contains:
      "ADMINISTRATOR" passes a test for "ADMIN". */
  lemma {:induction false} TextIncludesSubstring(prefix: string, role: string, suffix: string)
    ensures Includes(Text(prefix + role + suffix), role)
    decreases |prefix|
  {
    var s := prefix + role + suffix;
    if |prefix| == 0 {
      assert s == role + suffix;
      assert s[..|role|] == role;
    } else {
      assert s[1..] == prefix[1..] + role + suffix;
      TextIncludesSubstring(prefix[1..], role, suffix);
    }
  }
}

=== FILE: store.dfy ===
/** The relational store: one map per table, keyed by primary key, plus the link table
    `usuario_roles` as a set of (usuario_id, role_id) pairs. */
module Store {
  import opened Wrappers
  import opened Roles

  type Id = nat

  datatype UserRow = UserRow(
    email: string,
    nome: string,
    senha: string,
    roles: RolesColumn,
    ra: Option<string>,
    siape: Option<string>,
    tokenVersion: int)

  datatype DisciplinaRow = DisciplinaRow(codigo: string, nome: string, cargaHoraria: Option<int>)

  datatype HorarioRow = HorarioRow(dia: int, turno: int, codigo: string, descricao: Option<string>)

  datatype TurmaRow = TurmaRow(
    codigo: string,
    nome: string,
    vagas: int,
    disciplinaId: Option<Id>,
    professorId: Option<Id>,
    horarioId: Option<Id>,
    createdAt: int)

  /** `status` NULL reads as 'ativa' once loaded into the domain record. */
  datatype MatriculaRow = MatriculaRow(alunoId: Id, turmaId: Id, status: Option<string>, createdAt: Option<int>)

  /** A refresh token is stored by its hash only. */
  datatype TokenRow = TokenRow(usuarioId: Id, tokenHash: string, revoked: bool, expiresAt: Option<int>)

  /** The whole database. `nextId` stands for the auto-increment counters: every key in
      use is below it, so it is always free. */
  datatype Db = Db(
    usuarios: map<Id, UserRow>,
    roles: map<Id, string>,
    usuarioRoles: set<(Id, Id)>,
    disciplinas: map<Id, DisciplinaRow>,
    horarios: map<Id, HorarioRow>,
    turmas: map<Id, TurmaRow>,
    matriculas: map<Id, MatriculaRow>,
    refreshTokens: map<Id, TokenRow>,
    nextId: Id)

  /** Every key in use lies below `nextId`. */
  ghost predicate FreshCounter(db: Db) {
    && (forall k :: k in db.usuarios ==> k < db.nextId)
    && (forall k :: k in db.disciplinas ==> k < db.nextId)
    && (forall k :: k in db.horarios ==> k < db.nextId)
    && (forall k :: k in db.turmas ==> k < db.nextId)
    && (forall k :: k in db.matriculas ==> k < db.nextId)
    && (forall k :: k in db.refreshTokens ==> k < db.nextId)
    && (forall p :: p in db.usuarioRoles ==> p.0 < db.nextId)
  }

  /** `usuarios.email` is unique. */
  ghost predicate EmailUnique(us: map<Id, UserRow>) {
    forall i, j :: i in us && j in us && us[i].email == us[j].email ==> i == j
  }

  /** `turmas.codigo` is unique. */
  ghost predicate TurmaCodigoUnique(ts: map<Id, TurmaRow>) {
    forall i, j :: i in ts && j in ts && ts[i].codigo == ts[j].codigo ==> i == j
  }

  /** The unique index on `turmas (professor_id, horario_id)`; NULLs never collide. */
  ghost predicate ProfessorHorarioUnique(ts: map<Id, TurmaRow>) {
    forall i, j ::
      (i in ts && j in ts && ts[i].professorId.Some? && ts[i].horarioId.Some? &&
       ts[i].professorId == ts[j].professorId && ts[i].horarioId == ts[j].horarioId) ==> i == j
  }

  /** `matriculas (aluno_id, turma_id)` is unique. */
  ghost predicate PairUnique(ms: map<Id, MatriculaRow>) {
    forall i, j ::
      (i in ms && j in ms && ms[i].alunoId == ms[j].alunoId && ms[i].turmaId == ms[j].turmaId) ==> i == j
  }

  ghost predicate DisciplinaCodigoUnique(ds: map<Id, DisciplinaRow>) {
    forall i, j :: i in ds && j in ds && ds[i].codigo == ds[j].codigo ==> i == j
  }

  ghost predicate HorarioCodigoUnique(hs: map<Id, HorarioRow>) {
    forall i, j :: i in hs && j in hs && hs[i].codigo == hs[j].codigo ==> i == j
  }

  /** `refresh_tokens.token` (the hash) is unique. */
  ghost predicate TokenHashUnique(rs: map<Id, TokenRow>) {
    forall i, j :: i in rs && j in rs && rs[i].tokenHash == rs[j].tokenHash ==> i == j
  }

  /** The foreign keys of `matriculas` hold; the cascades keep them so. */
  ghost predicate MatriculaRefs(db: Db) {
    forall k :: k in db.matriculas ==>
      db.matriculas[k].alunoId in db.usuarios && db.matriculas[k].turmaId in db.turmas
  }

  /** The constraints the schema declares. */
  ghost predicate Valid(db: Db) {
    && FreshCounter(db)
    && EmailUnique(db.usuarios)
    && TurmaCodigoUnique(db.turmas)
    && ProfessorHorarioUnique(db.turmas)
    && PairUnique(db.matriculas)
    && DisciplinaCodigoUnique(db.disciplinas)
    && HorarioCodigoUnique(db.horarios)
    && TokenHashUnique(db.refreshTokens)
    && MatriculaRefs(db)
  }

  /** Changing the free seats of one turma keeps the turma keys unique. */
  lemma VagasKeepTurmaKeys(ts: map<Id, TurmaRow>, t: Id, v: int)
    requires t in ts && TurmaCodigoUnique(ts) && ProfessorHorarioUnique(ts)
    ensures TurmaCodigoUnique(ts[t := ts[t].(vagas := v)])
    ensures ProfessorHorarioUnique(ts[t := ts[t].(vagas := v)])
  {
    var ts' := ts[t := ts[t].(vagas := v)];
    assert forall k :: k in ts' ==> k in ts && ts'[k].(vagas := 0) == ts[k].(vagas := 0);
  }

  /** Names of the roles linked to user `u` through `usuario_roles`. */
  function LinkedRoleNames(db: Db, u: Id): (names: set<string>)
    ensures forall n :: n in names <==> exists r :: (u, r) in db.usuarioRoles && r in db.roles && db.roles[r] == n
  {
    set p | p in db.usuarioRoles && p.0 == u && p.1 in db.roles :: db.roles[p.1]
  }

  /** The empty database. */
  function Empty(): (db: Db)
    ensures Valid(db)
  {
    Db(map[], map[], {}, map[], map[], map[], map[], map[], 0)
  }
}

/** How an UPDATE writes one column from a request field: `undefined` leaves it alone. */
module Columns {
  import opened Wrappers

  /** A nullable column: `null` clears it. */
  function SetNullable<T>(f: Field<T>, cur: Option<T>): (r: Option<T>)
    ensures f.Undefined? ==> r == cur
    ensures f.Null? ==> r.None?
    ensures f.Val? ==> r == Some(f.value)
  {
    match f
    case Undefined => cur
    case Null => None
    case Val(v) => Some(v)
  }

  /** A NOT NULL column: `null` is refused by the store, so the caller checks `f.Null?` first. */
  function SetRequired<T>(f: Field<T>, cur: T): (r: T)
    ensures f.Val? ==> r == f.value
    ensures !f.Val? ==> r == cur
  {
    if f.Val? then f.value else cur
  }
}

=== FILE: turma_controller.dfy ===
/** The turma endpoints. */
module TurmaController {
  import opened Wrappers
  import opened Store
  import opened TurmaDomain
  import opened Http
  import TS = TurmaService
  import TR = TurmaRepository
  import MR = MatriculaRepository

  /** `vagas || 0` on a number: an absent, null or zero count becomes 0. */
  function VagasOrZero(f: Field<int>): (r: Field<int>)
    ensures r.Val?
    ensures f.Val? && f.value != 0 ==> r == f
    ensures !(f.Val? && f.value != 0) ==> r == Val(0)
  {
    if f.Val? && f.value != 0 then f else Val(0)
  }

  /** `POST /turmas`: 400 unless `codigo` and `nome` are truthy; otherwise the service runs
      with `vagas` defaulted to 0, answering 201 with the turma, the service's own code for
      its refusals, and 500 for a store error. */
  function Create(db: Db, body: TR.Payload, now: int): (r: (Db, Response<Turma>))
    ensures !TextTruthy(body.codigo) || !TextTruthy(body.nome) ==> r == (db, NoBody(400))
    ensures r.1.status != 201 ==> r.0 == db && r.1.body.None?
    ensures TextTruthy(body.codigo) && TextTruthy(body.nome) ==>
      var out := TS.Create(db, body.(vagas := VagasOrZero(body.vagas)), now);
      && (r.1.status == 201 <==> out.Ok?)
      && (out.Fail? ==> r.1.status == StatusOf(out.error))
      && (out.Ok? ==> r == (out.value.0, Send(201, out.value.1)))
  {
    if !TextTruthy(body.codigo) || !TextTruthy(body.nome) then (db, NoBody(400))
    else match TS.Create(db, body.(vagas := VagasOrZero(body.vagas)), now)
      case Fail(e) => (db, NoBody(StatusOf(e)))
      case Ok((db', t)) => (db', Send(201, t))
  }

  /** A turma created without a (truthy) seat count starts with no free seats, and one
      created through this endpoint never fails for a missing count. */
  lemma CreateDefaultsVagas(db: Db, body: TR.Payload, now: int)
    requires Create(db, body, now).1.status == 201
    ensures var (db', resp) := Create(db, body, now);
      && db.nextId in db'.turmas
      && db'.turmas[db.nextId].vagas == (if body.vagas.Val? then body.vagas.value else 0)
      && resp.body == Some(TR.ToDomain(db.nextId, db'.turmas[db.nextId]))
  {
  }

  /** `PUT /turmas/:id`: 404 when the service finds no turma, the service's code for its
      refusals, 500 for a store error (an empty body among them), otherwise 200. */
  function Update(db: Db, id: Id, body: TR.Payload): (r: (Db, Response<Turma>))
    ensures id !in db.turmas ==> r == (db, NoBody(404))
    ensures TS.Update(db, id, body).Fail? ==> r == (db, NoBody(StatusOf(TS.Update(db, id, body).error)))
    ensures r.1.status != 200 ==> r.0 == db && r.1.body.None?
    ensures r.1.status == 200 <==> TS.Update(db, id, body).Ok? && TS.Update(db, id, body).value.1.Some?
    ensures r.1.status == 200 ==> r.1.body.Some? && r.1.body.value.id == id && id in r.0.turmas
  {
    match TS.Update(db, id, body)
    case Fail(e) => (db, NoBody(StatusOf(e)))
    case Ok((_, None)) => (db, NoBody(404))
    case Ok((db', Some(t))) => (db', Send(200, t))
  }

  /** A body with none of the columns reaches the store as an empty update, which is
      refused: the answer is 500, not a validation error. */
  lemma EmptyUpdateIsServerError(db: Db, id: Id, body: TR.Payload)
    requires ProfessorHorarioUnique(db.turmas)
    requires id in db.turmas && TR.EmptyPayload(body)
    ensures Update(db, id, body) == (db, NoBody(500))
  {
  }

  /** `DELETE /turmas/:id`: 204 whenever the service accepts, even for an unknown id; its
      refusal of a referenced turma, like any error, comes back as 500. */
  function Remove(db: Db, id: Id): (r: (Db, Response<()>))
    ensures r.1.status == 204 <==> MR.CountByTurma(db.matriculas, id) == 0
    ensures r.1.status != 204 ==> r == (db, NoBody(500))
    ensures r.1.status == 204 ==> r.0.turmas == db.turmas - {id} && r.0.matriculas == db.matriculas
  {
    match TS.Remove(db, id)
    case Fail(_) => (db, NoBody(500))
    case Ok((db', _)) =>
      TS.RemoveNeverCascades(db, id);
      (db', NoBody(204))
  }

  /** A turma with enrollments survives a delete request, and the answer does not tell
      the conflict apart from a server failure. */
  lemma ReferencedTurmaSurvivesRemove(db: Db, id: Id, k: Id)
    requires k in db.matriculas && db.matriculas[k].turmaId == id
    ensures Remove(db, id) == (db, NoBody(500))
  {
    MR.CountPositiveIffSomeRow(db.matriculas, id);
  }
}

=== FILE: turma_domain.dfy ===
/** The `Turma` entity: a course section with a seat counter `vagas`. */
module TurmaDomain {
  import opened Wrappers
  import opened Json

  /** `vagas` as the object holds it: a number, or a non-numeric value read from the row. */
  datatype Vagas = Count(n: int) | Text(s: string)

  datatype Turma = Turma(
    id: nat,
    codigo: string,
    nome: string,
    vagas: Vagas,
    disciplinaId: Option<nat>,
    professorId: Option<nat>,
    horarioId: Option<nat>,
    createdAt: Option<int>)

  /** The constructor: `vagas` NULL or absent becomes the number 0; the optional
      links and `created_at` stay NULL when absent. */
  function Make(id: nat, codigo: string, nome: string, vagas: Option<Vagas>, disciplinaId: Option<nat>,
                professorId: Option<nat>, horarioId: Option<nat>, createdAt: Option<int>): (t: Turma)
    ensures vagas.None? ==> t.vagas == Count(0)
    ensures vagas.Some? ==> t.vagas == vagas.value
    ensures t.disciplinaId == disciplinaId && t.professorId == professorId && t.horarioId == horarioId
    ensures t.createdAt == createdAt && t.id == id && t.codigo == codigo && t.nome == nome
  {
    Turma(id, codigo, nome, vagas.GetOr(Count(0)), disciplinaId, professorId, horarioId, createdAt)
  }

  /** `hasVagas()`: a number above zero. */
  predicate HasVagas(t: Turma) {
    t.vagas.Count? && t.vagas.n > 0
  }

  /** `ocuparVaga()`: the record after the call and the call's result. */
  function OcuparVaga(t: Turma): (r: (Turma, bool))
    ensures r.1 <==> HasVagas(t)
    ensures r.1 ==> r.0 == t.(vagas := Count(t.vagas.n - 1))
    ensures !r.1 ==> r.0 == t
    ensures r.1 ==> r.0.vagas.n >= 0
  {
    if !HasVagas(t) then (t, false) else (t.(vagas := Count(t.vagas.n - 1)), true)
  }

  /** `liberarVaga()`: `vagas += 1`, which concatenates "1" when vagas is a string. */
  function LiberarVaga(t: Turma): (r: (Turma, Vagas))
    ensures r.0 == t.(vagas := r.1)
    ensures t.vagas.Count? ==> r.1 == Count(t.vagas.n + 1)
    ensures t.vagas.Text? ==> r.1 == Text(t.vagas.s + "1")
  {
    var v := match t.vagas
      case Count(n) => Count(n + 1)
      case Text(s) => Text(s + "1");
    (t.(vagas := v), v)
  }

  /** Occupying a seat never drives a non-negative counter below zero. */
  lemma OcuparKeepsNonNegative(t: Turma)
    requires t.vagas.Count? && t.vagas.n >= 0
    ensures OcuparVaga(t).0.vagas.Count? && OcuparVaga(t).0.vagas.n >= 0
  {
  }

  /** Releasing a seat undoes occupying one. */
  lemma LiberarUndoesOcupar(t: Turma)
    requires OcuparVaga(t).1
    ensures LiberarVaga(OcuparVaga(t).0).0 == t
  {
  }

  function VagasJson(v: Vagas): Json {
    match v
    case Count(n) => JNum(n)
    case Text(s) => JStr(s)
  }

  /** `toJSON()`: exactly the eight fields. */
  function ToJson(t: Turma): (j: Object)
    ensures j.Keys == {"id", "codigo", "nome", "vagas", "disciplina_id", "professor_id", "horario_id", "created_at"}
  {
    map["id" := JNum(t.id), "codigo" := JStr(t.codigo), "nome" := JStr(t.nome), "vagas" := VagasJson(t.vagas),
        "disciplina_id" := OptNum(t.disciplinaId), "professor_id" := OptNum(t.professorId),
        "horario_id" := OptNum(t.horarioId), "created_at" := OptNum(t.createdAt)]
  }

  function ToSafeJson(t: Turma): (j: Object)
    ensures j == ToJson(t)
  {
    ToJson(t)
  }

  function NatOpt(j: Json): Option<nat> {
    if j.JNum? && j.n >= 0 then Some(j.n) else None
  }

  /** Reads a record back from its JSON object. */
  function FromJson(j: Object): Option<Turma> {
    if && "id" in j && j["id"].JNum? && j["id"].n >= 0
       && "codigo" in j && j["codigo"].JStr? && "nome" in j && j["nome"].JStr?
       && "vagas" in j && (j["vagas"].JNum? || j["vagas"].JStr?)
       && "disciplina_id" in j && "professor_id" in j && "horario_id" in j && "created_at" in j
    then
      var v := if j["vagas"].JNum? then Count(j["vagas"].n) else Text(j["vagas"].s);
      Some(Turma(j["id"].n, j["codigo"].s, j["nome"].s, v, NatOpt(j["disciplina_id"]), NatOpt(j["professor_id"]),
                 NatOpt(j["horario_id"]), NumOpt(j["created_at"])))
    else None
  }

  /** The JSON form loses nothing. */
  lemma JsonRoundTrip(t: Turma)
    ensures FromJson(ToSafeJson(t)) == Some(t)
  {
    OptNumRoundTrip(t.createdAt);
  }
}

=== FILE: turma_repository.dfy ===
/** Queries on `turmas`. */
module TurmaRepository {
  import opened Wrappers
  import opened Store
  import opened Columns
  import opened TurmaDomain
  import MatriculaRepository

  function ToDomain(id: Id, row: TurmaRow): Turma {
    Make(id, row.codigo, row.nome, Some(Count(row.vagas)), row.disciplinaId, row.professorId, row.horarioId,
         Some(row.createdAt))
  }

  /** `findById(id)`. */
  function FindById(db: Db, id: Id): (r: Option<Turma>)
    ensures r.Some? <==> id in db.turmas
    ensures r.Some? ==> r.value == ToDomain(id, db.turmas[id])
  {
    if id in db.turmas then Some(ToDomain(id, db.turmas[id])) else None
  }

  predicate CodigoUsed(ts: map<Id, TurmaRow>, c: string) {
    exists k :: k in ts && ts[k].codigo == c
  }

  /** `findByCodigo(c)`: the turma with that code, or null. The code is unique. */
  function FindByCodigo(db: Db, c: string): (r: Option<Turma>)
    requires TurmaCodigoUnique(db.turmas)
    ensures r.Some? <==> CodigoUsed(db.turmas, c)
    ensures r.Some? ==> r.value.id in db.turmas && db.turmas[r.value.id].codigo == c
    ensures r.Some? ==> r.value == ToDomain(r.value.id, db.turmas[r.value.id])
  {
    if CodigoUsed(db.turmas, c) then
      var k :| k in db.turmas && db.turmas[k].codigo == c;
      Some(ToDomain(k, db.turmas[k]))
    else None
  }

  function TurmasOfDisciplina(ts: map<Id, TurmaRow>, d: Id): set<Id> {
    set k | k in ts && ts[k].disciplinaId == Some(d)
  }

  function TurmasOfHorario(ts: map<Id, TurmaRow>, h: Id): set<Id> {
    set k | k in ts && ts[k].horarioId == Some(h)
  }

  /** `countByDisciplina(d)`. */
  function CountByDisciplina(db: Db, d: Id): nat {
    |TurmasOfDisciplina(db.turmas, d)|
  }

  /** `countByHorario(h)`. */
  function CountByHorario(db: Db, h: Id): nat {
    |TurmasOfHorario(db.turmas, h)|
  }

  /** The counts the delete guards use are positive exactly when a turma references the key. */
  lemma {:induction false} CountsDetectReferences(db: Db, x: Id)
    ensures CountByDisciplina(db, x) > 0 <==> exists k :: k in db.turmas && db.turmas[k].disciplinaId == Some(x)
    ensures CountByHorario(db, x) > 0 <==> exists k :: k in db.turmas && db.turmas[k].horarioId == Some(x)
  {
    if CountByDisciplina(db, x) > 0 {
      var k :| k in TurmasOfDisciplina(db.turmas, x);
    }
    if exists k :: k in db.turmas && db.turmas[k].disciplinaId == Some(x) {
      var k :| k in db.turmas && db.turmas[k].disciplinaId == Some(x);
      assert k in TurmasOfDisciplina(db.turmas, x);
    }
    if CountByHorario(db, x) > 0 {
      var k :| k in TurmasOfHorario(db.turmas, x);
    }
    if exists k :: k in db.turmas && db.turmas[k].horarioId == Some(x) {
      var k :| k in db.turmas && db.turmas[k].horarioId == Some(x);
      assert k in TurmasOfHorario(db.turmas, x);
    }
  }

  /** `findByProfessorId(p)`: the turmas of professor `p`. */
  function FindByProfessorId(db: Db, p: Id): (r: set<Turma>)
    ensures forall t :: t in r <==>
      (t.id in db.turmas && db.turmas[t.id].professorId == Some(p) && t == ToDomain(t.id, db.turmas[t.id]))
  {
    set k | k in db.turmas && db.turmas[k].professorId == Some(p) :: ToDomain(k, db.turmas[k])
  }

  /** The body of an insert or update. */
  datatype Payload = Payload(
    codigo: Field<string>,
    nome: Field<string>,
    vagas: Field<int>,
    disciplinaId: Field<Id>,
    horarioId: Field<Id>,
    professorId: Field<Id>)

  /** The row would keep both unique keys of the table when stored under `id`. */
  predicate KeysFree(ts: map<Id, TurmaRow>, id: Id, row: TurmaRow) {
    && !(exists k :: k in ts && k != id && ts[k].codigo == row.codigo)
    && !(row.professorId.Some? && row.horarioId.Some? &&
         exists k :: k in ts && k != id && ts[k].professorId == row.professorId && ts[k].horarioId == row.horarioId)
  }

  /** The row an insert stores: absent columns take their defaults (vagas 0, links NULL). */
  function InsertRow(p: Payload, now: int): TurmaRow
    requires p.codigo.Val? && p.nome.Val?
  {
    TurmaRow(p.codigo.value, p.nome.value, SetRequired(p.vagas, 0),
             SetNullable(p.disciplinaId, None), SetNullable(p.professorId, None), SetNullable(p.horarioId, None), now)
  }

  /** `create(payload)`: inserts and reads the row back. The store refuses a missing
      NOT NULL column or a repeated unique key. */
  function Create(db: Db, p: Payload, now: int): (r: Outcome<(Db, Turma)>)
    ensures r.Fail? ==> r.error == StoreError
    ensures !p.codigo.Val? || !p.nome.Val? || p.vagas.Null? ==> r.Fail?
    ensures r.Ok? ==>
      && p.codigo.Val? && p.nome.Val?
      && var row := InsertRow(p, now);
      && KeysFree(db.turmas, db.nextId, row)
      && r.value.0 == db.(turmas := db.turmas[db.nextId := row], nextId := db.nextId + 1)
      && r.value.1 == ToDomain(db.nextId, row)
    ensures p.codigo.Val? && p.nome.Val? && !p.vagas.Null? && KeysFree(db.turmas, db.nextId, InsertRow(p, now)) ==> r.Ok?
  {
    if !p.codigo.Val? || !p.nome.Val? || p.vagas.Null? then Fail(StoreError)
    else
      var row := InsertRow(p, now);
      if !KeysFree(db.turmas, db.nextId, row) then Fail(StoreError)
      else Ok((db.(turmas := db.turmas[db.nextId := row], nextId := db.nextId + 1), ToDomain(db.nextId, row)))
  }

  predicate EmptyPayload(p: Payload) {
    && p.codigo.Undefined? && p.nome.Undefined? && p.vagas.Undefined?
    && p.disciplinaId.Undefined? && p.horarioId.Undefined? && p.professorId.Undefined?
  }

  /** The row after writing the supplied columns. */
  function UpdateRow(row: TurmaRow, p: Payload): TurmaRow {
    TurmaRow(SetRequired(p.codigo, row.codigo), SetRequired(p.nome, row.nome), SetRequired(p.vagas, row.vagas),
             SetNullable(p.disciplinaId, row.disciplinaId), SetNullable(p.professorId, row.professorId),
             SetNullable(p.horarioId, row.horarioId), row.createdAt)
  }

  /** `update(id, payload)`: writes only the supplied columns and reads the row back. */
  function Update(db: Db, id: Id, p: Payload): (r: Outcome<(Db, Option<Turma>)>)
    ensures EmptyPayload(p) ==> r == Fail(StoreError)
    ensures r.Fail? ==> r.error == StoreError
    ensures !EmptyPayload(p) && id !in db.turmas ==> r == Ok((db, None))
    ensures r.Ok? && id in db.turmas ==>
      var row := UpdateRow(db.turmas[id], p);
      && KeysFree(db.turmas, id, row)
      && r.value.0 == db.(turmas := db.turmas[id := row])
      && r.value.1 == Some(ToDomain(id, row))
  {
    if EmptyPayload(p) then Fail(StoreError)
    else if id !in db.turmas then Ok((db, None))
    else if p.codigo.Null? || p.nome.Null? || p.vagas.Null? then Fail(StoreError)
    else
      var row := UpdateRow(db.turmas[id], p);
      if !KeysFree(db.turmas, id, row) then Fail(StoreError)
      else Ok((db.(turmas := db.turmas[id := row]), Some(ToDomain(id, row))))
  }

  /** `remove(id)`: the number of deleted turmas; its matriculas go with it (ON DELETE CASCADE). */
  function Remove(db: Db, id: Id): (r: (Db, nat))
    ensures r.1 == (if id in db.turmas then 1 else 0)
    ensures r.0.turmas == db.turmas - {id}
    ensures forall k :: k in r.0.matriculas <==> k in db.matriculas && db.matriculas[k].turmaId != id
    ensures forall k :: k in r.0.matriculas ==> r.0.matriculas[k] == db.matriculas[k]
  {
    var ms := map k | k in db.matriculas && db.matriculas[k].turmaId != id :: db.matriculas[k];
    (db.(turmas := db.turmas - {id}, matriculas := ms), if id in db.turmas then 1 else 0)
  }

  /** Removal keeps every declared constraint, references from matriculas included. */
  lemma RemoveKeepsValid(db: Db, id: Id)
    requires Valid(db)
    ensures Valid(Remove(db, id).0)
  {
  }

  /** Storing a row whose keys are free keeps both unique keys of the table. */
  lemma {:induction false} StoreKeepsUniqueKeys(ts: map<Id, TurmaRow>, id: Id, row: TurmaRow)
    requires TurmaCodigoUnique(ts) && ProfessorHorarioUnique(ts) && KeysFree(ts, id, row)
    ensures TurmaCodigoUnique(ts[id := row]) && ProfessorHorarioUnique(ts[id := row])
  {
    var ts' := ts[id := row];
    forall i, j | i in ts' && j in ts' && ts'[i].codigo == ts'[j].codigo
      ensures i == j
    {
      if i != id && j != id {
        assert ts[i].codigo == ts[j].codigo;
      }
    }
    forall i, j | (i in ts' && j in ts' && ts'[i].professorId.Some? && ts'[i].horarioId.Some? &&
                   ts'[i].professorId == ts'[j].professorId && ts'[i].horarioId == ts'[j].horarioId)
      ensures i == j
    {
      if i != id && j != id {
        assert ts[i].professorId == ts[j].professorId;
      }
    }
  }

  /** A successful create keeps both unique keys of the table. */
  lemma CreateKeepsUniqueKeys(db: Db, p: Payload, now: int)
    requires TurmaCodigoUnique(db.turmas) && ProfessorHorarioUnique(db.turmas)
    requires Create(db, p, now).Ok?
    ensures TurmaCodigoUnique(Create(db, p, now).value.0.turmas)
    ensures ProfessorHorarioUnique(Create(db, p, now).value.0.turmas)
  {
    StoreKeepsUniqueKeys(db.turmas, db.nextId, InsertRow(p, now));
  }

  /** A successful update keeps both unique keys of the table. */
  lemma UpdateKeepsUniqueKeys(db: Db, id: Id, p: Payload)
    requires TurmaCodigoUnique(db.turmas) && ProfessorHorarioUnique(db.turmas)
    requires Update(db, id, p).Ok?
    ensures TurmaCodigoUnique(Update(db, id, p).value.0.turmas)
    ensures ProfessorHorarioUnique(Update(db, id, p).value.0.turmas)
  {
    if id in db.turmas {
      StoreKeepsUniqueKeys(db.turmas, id, UpdateRow(db.turmas[id], p));
    }
  }
}

=== FILE: turma_service.dfy ===
/** Business rules for creating, changing and deleting turmas. */
module TurmaService {
  import opened Wrappers
  import opened Roles
  import opened Store
  import opened Columns
  import opened TurmaDomain
  import UsuarioRepository
  import TR = TurmaRepository
  import MR = MatriculaRepository

  /** The user exists and its loaded roles are an array that holds PROFESSOR. */
  predicate IsProfessor(db: Db, u: Id) {
    u in db.usuarios && ArrayIncludes(UsuarioRepository.ToDomain(db, u).roles, PROFESSOR)
  }

  /** Professor `p` already teaches a turma, other than `self`, at the truthy horario `h`. */
  predicate ProfessorBusy(ts: map<Id, TurmaRow>, p: Id, h: Id, self: Option<Id>) {
    exists k :: k in ts && Some(k) != self && ts[k].professorId == Some(p)
      && SomeId(ts[k].horarioId) && ts[k].horarioId == Some(h)
  }

  /** A turma other than `id` already uses code `c`. */
  predicate CodigoTakenByOther(ts: map<Id, TurmaRow>, c: string, id: Id) {
    exists k :: k in ts && k != id && ts[k].codigo == c
  }

  /** A truthy reference names an existing row. */
  predicate Known<T>(f: Field<Id>, table: map<Id, T>) {
    IdTruthy(f) ==> f.value in table
  }

  /** The truthy disciplina and horario references of a body name existing rows. */
  predicate RefsKnown(db: Db, p: TR.Payload) {
    Known(p.disciplinaId, db.disciplinas) && Known(p.horarioId, db.horarios)
  }

  /** A truthy professor reference names a user holding PROFESSOR. */
  predicate ProfessorOk(db: Db, f: Field<Id>) {
    IdTruthy(f) ==> IsProfessor(db, f.value)
  }

  /** The truthy code of a new turma is not in use. */
  predicate CodigoFree(db: Db, p: TR.Payload) {
    !(TextTruthy(p.codigo) && TR.CodigoUsed(db.turmas, p.codigo.value))
  }

  /** A new turma would put its truthy professor twice at its truthy horario. */
  predicate CreateClash(db: Db, p: TR.Payload) {
    IdTruthy(p.professorId) && IdTruthy(p.horarioId)
    && ProfessorBusy(db.turmas, p.professorId.value, p.horarioId.value, None)
  }

  /** `create(payload)`. Checks in order: a truthy disciplina exists (404), a truthy horario
      exists (404), a truthy professor exists (404) and is a professor (400), a truthy code
      is free (409), the professor has no turma at a truthy horario (409); then inserts. */
  function Create(db: Db, p: TR.Payload, now: int): (r: Outcome<(Db, Turma)>)
    ensures !Known(p.disciplinaId, db.disciplinas) ==> r == Fail(HttpError(404))
    ensures Known(p.disciplinaId, db.disciplinas) && !Known(p.horarioId, db.horarios) ==> r == Fail(HttpError(404))
    ensures RefsKnown(db, p) && IdTruthy(p.professorId) && p.professorId.value !in db.usuarios ==> r == Fail(HttpError(404))
    ensures (RefsKnown(db, p) && IdTruthy(p.professorId) && p.professorId.value in db.usuarios
             && !IsProfessor(db, p.professorId.value)) ==> r == Fail(HttpError(400))
    ensures RefsKnown(db, p) && ProfessorOk(db, p.professorId) && !CodigoFree(db, p) ==> r == Fail(HttpError(409))
    ensures RefsKnown(db, p) && ProfessorOk(db, p.professorId) && CodigoFree(db, p) && CreateClash(db, p) ==>
      r == Fail(HttpError(409))
    ensures RefsKnown(db, p) && ProfessorOk(db, p.professorId) && CodigoFree(db, p) && !CreateClash(db, p) ==>
      r == TR.Create(db, p, now)
    ensures r.Ok? ==>
      && Known(p.disciplinaId, db.disciplinas) && Known(p.horarioId, db.horarios)
      && (IdTruthy(p.professorId) ==> IsProfessor(db, p.professorId.value))
      && (IdTruthy(p.professorId) && IdTruthy(p.horarioId) ==>
            !ProfessorBusy(db.turmas, p.professorId.value, p.horarioId.value, None))
      && r == TR.Create(db, p, now)
    ensures r.Fail? && r.error.HttpError? ==> r.error.status in {400, 404, 409}
  {
    if !Known(p.disciplinaId, db.disciplinas) then Fail(HttpError(404))
    else if !Known(p.horarioId, db.horarios) then Fail(HttpError(404))
    else if IdTruthy(p.professorId) && p.professorId.value !in db.usuarios then Fail(HttpError(404))
    else if IdTruthy(p.professorId) && !IsProfessor(db, p.professorId.value) then Fail(HttpError(400))
    else if TextTruthy(p.codigo) && TR.CodigoUsed(db.turmas, p.codigo.value) then Fail(HttpError(409))
    else if IdTruthy(p.professorId) && IdTruthy(p.horarioId)
         && ProfessorBusy(db.turmas, p.professorId.value, p.horarioId.value, None) then Fail(HttpError(409))
    else TR.Create(db, p, now)
  }

  /** The professor and horario a turma will have after an update: an absent field keeps
      the stored value, `null` clears it. */
  function Effective(f: Field<Id>, cur: Option<Id>): Option<Id> {
    SetNullable(f, cur)
  }

  /** A truthy code in an update body is not another turma's. */
  predicate CodigoFreeFor(db: Db, id: Id, p: TR.Payload) {
    !(TextTruthy(p.codigo) && CodigoTakenByOther(db.turmas, p.codigo.value, id))
  }

  /** After the update, turma `id`'s truthy professor would have another turma at its
      truthy horario. */
  predicate UpdateClash(db: Db, id: Id, p: TR.Payload)
    requires id in db.turmas
  {
    var np := Effective(p.professorId, db.turmas[id].professorId);
    var nh := Effective(p.horarioId, db.turmas[id].horarioId);
    SomeId(np) && SomeId(nh) && ProfessorBusy(db.turmas, np.value, nh.value, Some(id))
  }

  /** `update(id, payload)`. Checks in order: the turma exists (404), a truthy disciplina
      and horario exist (404), a truthy code is not another turma's (409), a truthy new
      professor exists (404) and is a professor (400), and, when the resulting professor
      and horario are both truthy, no other turma of that professor sits at that horario
      (409); then writes the supplied columns. */
  function Update(db: Db, id: Id, p: TR.Payload): (r: Outcome<(Db, Option<Turma>)>)
    ensures id !in db.turmas ==> r == Fail(HttpError(404))
    ensures id in db.turmas && !Known(p.disciplinaId, db.disciplinas) ==> r == Fail(HttpError(404))
    ensures id in db.turmas && Known(p.disciplinaId, db.disciplinas) && !Known(p.horarioId, db.horarios) ==>
      r == Fail(HttpError(404))
    ensures id in db.turmas && RefsKnown(db, p) && !CodigoFreeFor(db, id, p) ==> r == Fail(HttpError(409))
    ensures (id in db.turmas && RefsKnown(db, p) && CodigoFreeFor(db, id, p)
             && IdTruthy(p.professorId) && p.professorId.value !in db.usuarios) ==> r == Fail(HttpError(404))
    ensures (id in db.turmas && RefsKnown(db, p) && CodigoFreeFor(db, id, p)
             && IdTruthy(p.professorId) && p.professorId.value in db.usuarios
             && !IsProfessor(db, p.professorId.value)) ==> r == Fail(HttpError(400))
    ensures (id in db.turmas && RefsKnown(db, p) && CodigoFreeFor(db, id, p) && ProfessorOk(db, p.professorId)
             && UpdateClash(db, id, p)) ==> r == Fail(HttpError(409))
    ensures (id in db.turmas && RefsKnown(db, p) && CodigoFreeFor(db, id, p) && ProfessorOk(db, p.professorId)
             && !UpdateClash(db, id, p)) ==> r == TR.Update(db, id, p)
    ensures r.Ok? ==>
      && id in db.turmas
      && Known(p.disciplinaId, db.disciplinas) && Known(p.horarioId, db.horarios)
      && (IdTruthy(p.professorId) ==> IsProfessor(db, p.professorId.value))
      && (TextTruthy(p.codigo) ==> !CodigoTakenByOther(db.turmas, p.codigo.value, id))
      && r == TR.Update(db, id, p)
    ensures r.Ok? ==>
      var np := Effective(p.professorId, db.turmas[id].professorId);
      var nh := Effective(p.horarioId, db.turmas[id].horarioId);
      SomeId(np) && SomeId(nh) ==> !ProfessorBusy(db.turmas, np.value, nh.value, Some(id))
    ensures r.Fail? && r.error.HttpError? ==> r.error.status in {400, 404, 409}
  {
    if id !in db.turmas then Fail(HttpError(404))
    else if !Known(p.disciplinaId, db.disciplinas) then Fail(HttpError(404))
    else if !Known(p.horarioId, db.horarios) then Fail(HttpError(404))
    else if TextTruthy(p.codigo) && CodigoTakenByOther(db.turmas, p.codigo.value, id) then Fail(HttpError(409))
    else if IdTruthy(p.professorId) && p.professorId.value !in db.usuarios then Fail(HttpError(404))
    else if IdTruthy(p.professorId) && !IsProfessor(db, p.professorId.value) then Fail(HttpError(400))
    else
      var np := Effective(p.professorId, db.turmas[id].professorId);
      var nh := Effective(p.horarioId, db.turmas[id].horarioId);
      if SomeId(np) && SomeId(nh) && ProfessorBusy(db.turmas, np.value, nh.value, Some(id)) then Fail(HttpError(409))
      else TR.Update(db, id, p)
  }

  /** `remove(id)`: refused (409) while any matricula row references the turma. */
  function Remove(db: Db, id: Id): (r: Outcome<(Db, nat)>)
    ensures r.Fail? <==> MR.CountByTurma(db.matriculas, id) > 0
    ensures r.Fail? ==> r.error == HttpError(409)
    ensures r.Ok? ==> r.value == TR.Remove(db, id)
  {
    if MR.CountByTurma(db.matriculas, id) > 0 then Fail(HttpError(409)) else Ok(TR.Remove(db, id))
  }

  /** The delete guard makes the cascade a no-op: a turma that is removed takes no
      matricula with it, and only that turma disappears. */
  lemma RemoveNeverCascades(db: Db, id: Id)
    requires Remove(db, id).Ok?
    ensures var (db', n) := Remove(db, id).value;
      && db'.matriculas == db.matriculas
      && db'.turmas == db.turmas - {id}
      && n == (if id in db.turmas then 1 else 0)
  {
    assert MR.RowsOfTurma(db.matriculas, id) == {};
    forall k | k in db.matriculas
      ensures db.matriculas[k].turmaId != id
    {
      assert k !in MR.RowsOfTurma(db.matriculas, id);
    }
  }

  /** When every business check passes and the body carries what the table needs, the
      insert goes through: the checks are exactly what the unique keys demand. */
  lemma CreateSucceedsWhenChecksPass(db: Db, p: TR.Payload, now: int)
    requires FreshCounter(db)
    requires Known(p.disciplinaId, db.disciplinas) && Known(p.horarioId, db.horarios)
    requires IdTruthy(p.professorId) ==> IsProfessor(db, p.professorId.value)
    requires TextTruthy(p.codigo) && !TR.CodigoUsed(db.turmas, p.codigo.value)
    requires p.nome.Val? && !p.vagas.Null?
    requires p.professorId.Val? && p.horarioId.Val? ==> IdTruthy(p.professorId) && IdTruthy(p.horarioId)
    requires IdTruthy(p.professorId) && IdTruthy(p.horarioId) ==>
      !ProfessorBusy(db.turmas, p.professorId.value, p.horarioId.value, None)
    ensures Create(db, p, now).Ok?
  {
    var row := TR.InsertRow(p, now);
    assert db.nextId !in db.turmas;
    assert row.professorId.Some? && row.horarioId.Some? ==>
      forall k :: k in db.turmas && db.turmas[k].professorId == row.professorId && db.turmas[k].horarioId == row.horarioId
        ==> ProfessorBusy(db.turmas, p.professorId.value, p.horarioId.value, None);
  }

  /** The same completeness for updates: when the checks pass, no NOT NULL column is
      cleared, and the resulting code and professor/horario pair are ones the checks
      looked at, the update goes through. */
  lemma UpdateSucceedsWhenChecksPass(db: Db, id: Id, p: TR.Payload)
    requires TurmaCodigoUnique(db.turmas) && ProfessorHorarioUnique(db.turmas)
    requires id in db.turmas && !TR.EmptyPayload(p)
    requires Known(p.disciplinaId, db.disciplinas) && Known(p.horarioId, db.horarios)
    requires IdTruthy(p.professorId) ==> IsProfessor(db, p.professorId.value)
    requires p.codigo.Undefined? || (TextTruthy(p.codigo) && !CodigoTakenByOther(db.turmas, p.codigo.value, id))
    requires !p.nome.Null? && !p.vagas.Null?
    requires var np := Effective(p.professorId, db.turmas[id].professorId);
      var nh := Effective(p.horarioId, db.turmas[id].horarioId);
      && (np.Some? && nh.Some? ==> SomeId(np) && SomeId(nh))
      && (SomeId(np) && SomeId(nh) ==> !ProfessorBusy(db.turmas, np.value, nh.value, Some(id)))
    ensures Update(db, id, p).Ok?
    ensures Update(db, id, p).value.1 == Some(TR.ToDomain(id, TR.UpdateRow(db.turmas[id], p)))
  {
  }

  /** A professor cannot be given two turmas at the same truthy horario through `create`:
      after a successful create, the new turma is the professor's only one at that horario. */
  lemma CreateKeepsProfessorFree(db: Db, p: TR.Payload, now: int)
    requires FreshCounter(db)
    requires Create(db, p, now).Ok? && IdTruthy(p.professorId) && IdTruthy(p.horarioId)
    ensures var (db', t) := Create(db, p, now).value;
      forall k :: (k in db'.turmas && db'.turmas[k].professorId == Some(p.professorId.value)
                   && db'.turmas[k].horarioId == Some(p.horarioId.value)) ==> k == t.id
  {
  }
}

=== FILE: usuario_controller.dfy ===
/** The user endpoints. */
module UsuarioController {
  import opened Wrappers
  import opened Roles
  import opened Store
  import opened UsuarioDomain
  import opened TurmaDomain
  import opened AuthMiddleware
  import opened Http
  import US = UsuarioService
  import UR = UsuarioRepository
  import TR = TurmaRepository

  /** The registration body as it arrives. */
  datatype RegisterBody = RegisterBody(nome: Field<string>, email: Field<string>, senha: Field<string>,
                                       ra: Field<string>, siape: Field<string>, roles: seq<US.RoleRef>)

  /** `POST /register`: 400 unless name, e-mail and password are all truthy; a store
      refusal (a repeated e-mail) reaches the error handler and gives 500; otherwise 201
      with the new user. */
  function Register(db: Db, body: RegisterBody, hash: string -> string): (r: (Db, Response<Usuario>))
    requires US.RoleNameUnique(db.roles)
    ensures !TextTruthy(body.nome) || !TextTruthy(body.email) || !TextTruthy(body.senha) ==> r == (db, NoBody(400))
    ensures r.1.status in {201, 400, 500}
    ensures r.1.status != 201 ==> r.0 == db && r.1.body.None?
    ensures TextTruthy(body.nome) && TextTruthy(body.email) && TextTruthy(body.senha) ==>
      (r.1.status == 500 <==> UR.EmailUsed(db.usuarios, body.email.value))
    ensures r.1.status == 201 ==>
      && r.1.body.Some? && r.1.body.value.id == db.nextId && db.nextId in r.0.usuarios
      && r.0.usuarios[db.nextId].email == body.email.value
      && r.0.usuarios[db.nextId].senha == hash(body.senha.value)
  {
    if !TextTruthy(body.nome) || !TextTruthy(body.email) || !TextTruthy(body.senha) then (db, NoBody(400))
    else
      var reg := US.Registration(body.nome.value, body.email.value, body.senha.value, body.ra, body.siape, body.roles);
      match US.CreateUser(db, reg, hash)
      case Fail(_) => (db, NoBody(500))
      case Ok((db', u)) => (db', Send(201, u))
  }

  /** A registered user can log in with the password it registered with, and the stored
      password is never the plain one when the hash differs from it. */
  lemma RegisteredPasswordLogsIn(db: Db, body: RegisterBody, hash: string -> string,
                                 compare: (string, string) -> bool, candidate: string)
    requires US.RoleNameUnique(db.roles)
    requires Register(db, body, hash).1.status == 201
    requires hash(body.senha.value) != ""
    ensures var (db', resp) := Register(db, body, hash);
      var u := UR.ToDomain(db', resp.body.value.id);
      ComparePassword(u, candidate, compare) == compare(candidate, hash(body.senha.value))
  {
    var (db', resp) := Register(db, body, hash);
    var u := UR.ToDomain(db', resp.body.value.id);
    assert u.senha == Some(db'.usuarios[resp.body.value.id].senha);
  }

  /** ADMIN, or the requester acting on itself. */
  predicate SelfOrAdmin(user: Claims, id: Id) {
    HasRole(user, ADMIN) || user.id == id
  }

  /** `GET /professores/:id/turmas`: 401 without a user, 403 unless ADMIN or the professor
      itself, otherwise the professor's turmas. */
  function GetProfessorTurmas(db: Db, user: Option<Claims>, id: Id): (r: Response<set<Turma>>)
    ensures user.None? ==> r == NoBody(401)
    ensures user.Some? ==> (r.status == 200 <==> SelfOrAdmin(user.value, id))
    ensures user.Some? && !SelfOrAdmin(user.value, id) ==> r == NoBody(403)
    ensures r.status == 200 ==> r.body.Some? && forall t :: t in r.body.value ==> t.professorId == Some(id)
  {
    if user.None? then NoBody(401)
    else if !SelfOrAdmin(user.value, id) then NoBody(403)
    else Send(200, TR.FindByProfessorId(db, id))
  }

  /** `GET /usuarios/:id`: 404 for an unknown id, otherwise the user. */
  function Get(db: Db, id: Id): (r: Response<Usuario>)
    ensures r.status == 200 <==> id in db.usuarios
    ensures r.status != 200 ==> r == NoBody(404)
    ensures r.status == 200 ==> r.body == Some(UR.ToDomain(db, id))
  {
    match UR.FindById(db, id)
    case None => NoBody(404)
    case Some(u) => Send(200, u)
  }

  /** The body's `role` is truthy: present, not the empty name and not the number 0. */
  predicate RoleGiven(role: Option<US.RoleRef>) {
    role.Some? && role.value != US.ByName("") && role.value != US.ById(0)
  }

  /** `POST /usuarios/:id/roles`: 400 without a (truthy) role; 404 when no role matches;
      otherwise the role's key. */
  function AssignRole(db: Db, id: Id, role: Option<US.RoleRef>): (r: (Db, Response<Id>))
    requires US.RoleNameUnique(db.roles)
    ensures !RoleGiven(role) ==> r == (db, NoBody(400))
    ensures RoleGiven(role) ==> (r.1.status == 200 <==> US.FindRole(db, role.value).Some?)
    ensures r.1.status != 200 ==> r.0 == db
    ensures r.1.status == 200 ==> r.1.body.Some? && r.1.body.value in db.roles
  {
    if !RoleGiven(role) then (db, NoBody(400))
    else match US.AssignRole(db, id, role.value)
      case (_, None) => (db, NoBody(404))
      case (db', Some(k)) => (db', Send(200, k))
  }

  /** `DELETE /usuarios/:id/roles/:roleId`: 404 when the link did not exist. */
  function RemoveRole(db: Db, id: Id, roleId: Id): (r: (Db, Response<()>))
    ensures r.1.status == 200 <==> (id, roleId) in db.usuarioRoles
    ensures r.1.status != 200 ==> r == (db, NoBody(404))
    ensures r.1.status == 200 ==> r.0.usuarioRoles == db.usuarioRoles - {(id, roleId)}
  {
    var (db', ok) := US.RemoveRole(db, id, roleId);
    if !ok then (db, NoBody(404)) else (db', NoBody(200))
  }

  /** `PUT /usuarios/:id`: 401 without a user, 403 unless ADMIN or the user itself; 404
      when the update yields nothing, which covers an unknown id and every store refusal
      (an empty body, a null name). */
  function Update(db: Db, user: Option<Claims>, id: Id, c: US.UserChanges, hash: string -> string): (r: (Db, Response<Usuario>))
    ensures user.None? ==> r == (db, NoBody(401))
    ensures user.Some? && !SelfOrAdmin(user.value, id) ==> r == (db, NoBody(403))
    ensures r.1.status != 200 ==> r.0 == db
    ensures r.1.status in {200, 401, 403, 404}
    ensures r.1.status == 200 ==> user.Some? && SelfOrAdmin(user.value, id) && id in db.usuarios
    ensures user.Some? && SelfOrAdmin(user.value, id) && id !in db.usuarios ==> r == (db, NoBody(404))
    ensures user.Some? && SelfOrAdmin(user.value, id) ==>
      (r.1.status == 200 <==> id in db.usuarios && US.WritesSomething(c) && !c.nome.Null?)
    ensures r.1.status == 200 ==> id in r.0.usuarios && r.1.body == Some(UR.ToDomain(r.0, id))
  {
    if user.None? then (db, NoBody(401))
    else if !SelfOrAdmin(user.value, id) then (db, NoBody(403))
    else match US.UpdateUser(db, id, c, hash)
      case (_, None) => (db, NoBody(404))
      case (db', Some(u)) => (db', Send(200, u))
  }

  /** An update that changes nothing is answered as if the user did not exist. */
  lemma EmptyUpdateLooksLikeMissingUser(db: Db, user: Claims, id: Id, c: US.UserChanges, hash: string -> string)
    requires SelfOrAdmin(user, id) && id in db.usuarios
    requires c.nome.Undefined? && c.ra.Undefined? && c.siape.Undefined?
    requires !(c.senha.Val? && c.senha.value != "")
    ensures Update(db, Some(user), id, c, hash) == (db, NoBody(404))
  {
  }

  /** `DELETE /usuarios/:id`: 404 for an unknown id, otherwise 204 after the cascade. */
  function Remove(db: Db, id: Id): (r: (Db, Response<()>))
    ensures r.1.status == 204 <==> id in db.usuarios
    ensures r.1.status != 204 ==> r == (db, NoBody(404))
    ensures r.1.status == 204 ==> id !in r.0.usuarios
  {
    var (db', ok) := US.DeleteUser(db, id);
    if !ok then (db, NoBody(404)) else (db', NoBody(204))
  }
}

=== FILE: usuario_domain.dfy ===
/** The `Usuario` entity: identity, credential and roles. */
module UsuarioDomain {
  import opened Wrappers
  import opened Roles
  import opened Json

  /** `senha` is absent when a query did not select it. */
  datatype Usuario = Usuario(
    id: nat,
    email: string,
    nome: string,
    senha: Option<string>,
    roles: UserRoles,
    ra: Option<string>,
    siape: Option<string>)

  /** `data.roles || []`: an absent roles value, or the empty string, becomes the empty array. */
  function DefaultRoles(r: Option<UserRoles>): (roles: UserRoles)
    ensures r.None? ==> roles == Names({})
    ensures r == Some(Text("")) ==> roles == Names({})
    ensures r.Some? && r.value != Text("") ==> roles == r.value
  {
    match r
    case None => Names({})
    case Some(Text(t)) => if t == "" then Names({}) else Text(t)
    case Some(v) => v
  }

  /** The constructor. */
  function Make(id: nat, email: string, nome: string, senha: Option<string>, roles: Option<UserRoles>,
                ra: Option<string>, siape: Option<string>): (u: Usuario)
    ensures u.roles == DefaultRoles(roles)
    ensures u.id == id && u.email == email && u.nome == nome && u.senha == senha && u.ra == ra && u.siape == siape
  {
    Usuario(id, email, nome, senha, DefaultRoles(roles), ra, siape)
  }

  /** A password is present when it is a non-empty string. */
  predicate HasSenha(u: Usuario) {
    u.senha.Some? && u.senha.value != ""
  }

  /** The object's own properties. */
  function Fields(u: Usuario): Object {
    map["id" := JNum(u.id), "email" := JStr(u.email), "nome" := JStr(u.nome), "senha" := OptStr(u.senha),
        "roles" := JRoles(u.roles), "ra" := OptStr(u.ra), "siape" := OptStr(u.siape)]
  }

  /** `toSafeJSON()`: every property except `senha`. */
  function ToSafeJson(u: Usuario): (j: Object)
    ensures "senha" !in j
    ensures j.Keys == Fields(u).Keys - {"senha"}
    ensures forall k :: k in j ==> j[k] == Fields(u)[k]
  {
    Fields(u) - {"senha"}
  }

  /** `comparePassword(candidate)`; `compare` stands for bcrypt's comparison. */
  function ComparePassword(u: Usuario, candidate: string, compare: (string, string) -> bool): (ok: bool)
    ensures !HasSenha(u) ==> !ok
    ensures HasSenha(u) ==> ok == compare(candidate, u.senha.value)
  {
    if !HasSenha(u) then false else compare(candidate, u.senha.value)
  }

  /** `hashPassword()`; `hash` stands for bcrypt. A missing password is left alone. */
  function HashPassword(u: Usuario, hash: string -> string): (v: Usuario)
    ensures !HasSenha(u) ==> v == u
    ensures HasSenha(u) ==> v == u.(senha := Some(hash(u.senha.value)))
  {
    if HasSenha(u) then u.(senha := Some(hash(u.senha.value))) else u
  }

  /** The safe form differs from the full object only by the password. */
  lemma SafeJsonHidesOnlySenha(u: Usuario, v: Usuario)
    requires u.(senha := v.senha) == v
    ensures ToSafeJson(u) == ToSafeJson(v)
  {
  }
}

=== FILE: usuario_repository.dfy ===
/** Queries on `usuarios` and `usuario_roles`. */
module UsuarioRepository {
  import opened Wrappers
  import opened Roles
  import opened Store
  import opened Columns
  import opened UsuarioDomain

  /** The roles value `findById` leaves on the row before the constructor runs: a JSON
      column is parsed (text that fails to parse stays a string), and a non-empty join
      over `usuario_roles` replaces it with the linked names. */
  function LoadedRoles(col: RolesColumn, linked: set<string>): Option<UserRoles> {
    if linked != {} then Some(Names(linked))
    else match col
      case NoRolesText => None
      case JsonArray(ns) => Some(Names(ns))
      case RawText(t) => Some(Text(t))
  }

  function ToDomain(db: Db, id: Id): Usuario
    requires id in db.usuarios
  {
    var row := db.usuarios[id];
    Make(id, row.email, row.nome, Some(row.senha), LoadedRoles(row.roles, LinkedRoleNames(db, id)), row.ra, row.siape)
  }

  /** The roles a loaded user carries: the linked names when there are any, otherwise the
      column; NULL and the empty string both give the empty array. */
  lemma RoleAggregation(db: Db, id: Id)
    requires id in db.usuarios
    ensures var roles := ToDomain(db, id).roles;
      var col := db.usuarios[id].roles;
      && (LinkedRoleNames(db, id) != {} ==> roles == Names(LinkedRoleNames(db, id)))
      && (LinkedRoleNames(db, id) == {} && col.JsonArray? ==> roles == Names(col.names))
      && (LinkedRoleNames(db, id) == {} && col.NoRolesText? ==> roles == Names({}))
      && (LinkedRoleNames(db, id) == {} && col.RawText? ==>
            roles == if col.text == "" then Names({}) else Text(col.text))
  {
  }

  /** `findById(id)`: null when no row matches. */
  function FindById(db: Db, id: Id): (r: Option<Usuario>)
    ensures r.Some? <==> id in db.usuarios
    ensures r.Some? ==> r.value == ToDomain(db, id) && r.value.id == id
  {
    if id in db.usuarios then Some(ToDomain(db, id)) else None
  }

  predicate EmailUsed(us: map<Id, UserRow>, email: string) {
    exists k :: k in us && us[k].email == email
  }

  /** `findByEmail(email)`: null when no row matches. The e-mail is unique. */
  function FindByEmail(db: Db, email: string): (r: Option<Usuario>)
    requires EmailUnique(db.usuarios)
    ensures r.Some? <==> EmailUsed(db.usuarios, email)
    ensures r.Some? ==> r.value.id in db.usuarios && db.usuarios[r.value.id].email == email
    ensures r.Some? ==> r.value == ToDomain(db, r.value.id)
  {
    if EmailUsed(db.usuarios, email) then
      var k :| k in db.usuarios && db.usuarios[k].email == email;
      Some(ToDomain(db, k))
    else None
  }

  /** The insert `create` performs; `senha` is already hashed. */
  datatype NewUser = NewUser(nome: string, email: string, senha: string, ra: Field<string>, siape: Field<string>)

  /** `create(user)`: falsy `ra` and `siape` are stored as NULL; the roles column stays
      NULL and `token_version` takes its default 0. A repeated e-mail is refused. */
  function Create(db: Db, nu: NewUser): (r: Outcome<(Db, Usuario)>)
    ensures r.Fail? <==> EmailUsed(db.usuarios, nu.email)
    ensures r.Fail? ==> r.error == StoreError
    ensures r.Ok? ==>
      var row := UserRow(nu.email, nu.nome, nu.senha, NoRolesText, OrNull(nu.ra), OrNull(nu.siape), 0);
      && r.value.0 == db.(usuarios := db.usuarios[db.nextId := row], nextId := db.nextId + 1)
      && r.value.1 == ToDomain(r.value.0, db.nextId)
  {
    if EmailUsed(db.usuarios, nu.email) then Fail(StoreError)
    else
      var row := UserRow(nu.email, nu.nome, nu.senha, NoRolesText, OrNull(nu.ra), OrNull(nu.siape), 0);
      var db' := db.(usuarios := db.usuarios[db.nextId := row], nextId := db.nextId + 1);
      Ok((db', ToDomain(db', db.nextId)))
  }

  /** `addRole(u, r)`: true when the link was inserted; false when the store refused it
      (the pair already exists, or a referenced row is missing). */
  function AddRole(db: Db, u: Id, role: Id): (r: (Db, bool))
    ensures r.1 <==> (u, role) !in db.usuarioRoles && u in db.usuarios && role in db.roles
    ensures r.1 ==> r.0 == db.(usuarioRoles := db.usuarioRoles + {(u, role)})
    ensures !r.1 ==> r.0 == db
  {
    if (u, role) in db.usuarioRoles || u !in db.usuarios || role !in db.roles then (db, false)
    else (db.(usuarioRoles := db.usuarioRoles + {(u, role)}), true)
  }

  /** `removeRole(u, r)`: true exactly when a link row was deleted. */
  function RemoveRole(db: Db, u: Id, role: Id): (r: (Db, bool))
    ensures r.1 <==> (u, role) in db.usuarioRoles
    ensures r.0 == db.(usuarioRoles := db.usuarioRoles - {(u, role)})
  {
    (db.(usuarioRoles := db.usuarioRoles - {(u, role)}), (u, role) in db.usuarioRoles)
  }

  /** `incrementTokenVersion(u)`. */
  function IncrementTokenVersion(db: Db, u: Id): (db': Db)
    ensures u in db.usuarios ==>
      db' == db.(usuarios := db.usuarios[u := db.usuarios[u].(tokenVersion := db.usuarios[u].tokenVersion + 1)])
    ensures u !in db.usuarios ==> db' == db
  {
    if u in db.usuarios then
      db.(usuarios := db.usuarios[u := db.usuarios[u].(tokenVersion := db.usuarios[u].tokenVersion + 1)])
    else db
  }

  /** The token counter rises by exactly one and nothing else about the user changes. */
  lemma IncrementBumpsByOne(db: Db, u: Id)
    requires u in db.usuarios
    ensures var db' := IncrementTokenVersion(db, u);
      && db'.usuarios.Keys == db.usuarios.Keys
      && db'.usuarios[u].tokenVersion == db.usuarios[u].tokenVersion + 1
      && db'.usuarios[u].(tokenVersion := 0) == db.usuarios[u].(tokenVersion := 0)
      && FindById(db', u) == FindById(db, u)
  {
    var db' := IncrementTokenVersion(db, u);
    assert LinkedRoleNames(db', u) == LinkedRoleNames(db, u);
  }

  /** The columns `updateById` may write. */
  datatype Changes = Changes(nome: Field<string>, senha: Field<string>, ra: Field<string>, siape: Field<string>)

  predicate NoChanges(c: Changes) {
    c.nome.Undefined? && c.senha.Undefined? && c.ra.Undefined? && c.siape.Undefined?
  }

  function ChangeRow(row: UserRow, c: Changes): UserRow {
    row.(nome := SetRequired(c.nome, row.nome), senha := SetRequired(c.senha, row.senha),
         ra := SetNullable(c.ra, row.ra), siape := SetNullable(c.siape, row.siape))
  }

  /** `updateById(id, changes)`: writes the supplied columns and reads the user back.
      The query builder refuses an empty update; the store refuses NULL in NOT NULL columns. */
  function UpdateById(db: Db, id: Id, c: Changes): (r: Outcome<(Db, Option<Usuario>)>)
    ensures NoChanges(c) ==> r == Fail(StoreError)
    ensures r.Fail? ==> r.error == StoreError
    ensures !NoChanges(c) && id !in db.usuarios ==> r == Ok((db, None))
    ensures !NoChanges(c) && id in db.usuarios && !c.nome.Null? && !c.senha.Null? ==> r.Ok?
    ensures r.Ok? && id in db.usuarios ==>
      && r.value.0 == db.(usuarios := db.usuarios[id := ChangeRow(db.usuarios[id], c)])
      && r.value.1 == Some(ToDomain(r.value.0, id))
  {
    if NoChanges(c) then Fail(StoreError)
    else if id !in db.usuarios then Ok((db, None))
    else if c.nome.Null? || c.senha.Null? then Fail(StoreError)
    else
      var db' := db.(usuarios := db.usuarios[id := ChangeRow(db.usuarios[id], c)]);
      Ok((db', Some(ToDomain(db', id))))
  }

  /** `deleteById(id)`: the number of deleted users. Matriculas, role links and refresh
      tokens of the user go with it (ON DELETE CASCADE); turmas lose their professor
      (ON DELETE SET NULL, which only the migration branch for clients other than SQLite
      declares). */
  function DeleteById(db: Db, id: Id): (r: (Db, nat))
    ensures r.1 == (if id in db.usuarios then 1 else 0)
    ensures r.0.usuarios == db.usuarios - {id}
    ensures forall k :: k in r.0.matriculas <==> k in db.matriculas && db.matriculas[k].alunoId != id
    ensures forall k :: k in r.0.refreshTokens <==> k in db.refreshTokens && db.refreshTokens[k].usuarioId != id
    ensures forall p :: p in r.0.usuarioRoles <==> p in db.usuarioRoles && p.0 != id
    ensures r.0.turmas.Keys == db.turmas.Keys
    ensures forall k :: k in r.0.turmas ==> r.0.turmas[k].professorId != Some(id)
    ensures forall k :: k in r.0.turmas ==> r.0.turmas[k].(professorId := None) == db.turmas[k].(professorId := None)
    ensures forall k :: k in r.0.turmas && db.turmas[k].professorId != Some(id) ==> r.0.turmas[k] == db.turmas[k]
    ensures forall k :: k in r.0.matriculas ==> r.0.matriculas[k] == db.matriculas[k]
    ensures forall k :: k in r.0.refreshTokens ==> r.0.refreshTokens[k] == db.refreshTokens[k]
    ensures r.0 == db.(usuarios := r.0.usuarios, matriculas := r.0.matriculas, refreshTokens := r.0.refreshTokens,
                       usuarioRoles := r.0.usuarioRoles, turmas := r.0.turmas)
  {
    var ms := map k | k in db.matriculas && db.matriculas[k].alunoId != id :: db.matriculas[k];
    var rs := map k | k in db.refreshTokens && db.refreshTokens[k].usuarioId != id :: db.refreshTokens[k];
    var links := set p | p in db.usuarioRoles && p.0 != id;
    var ts := map k | k in db.turmas ::
      if db.turmas[k].professorId == Some(id) then db.turmas[k].(professorId := None) else db.turmas[k];
    (db.(usuarios := db.usuarios - {id}, matriculas := ms, refreshTokens := rs, usuarioRoles := links, turmas := ts),
     if id in db.usuarios then 1 else 0)
  }
}

=== FILE: usuario_service.dfy ===
/** User management: registration with roles, role assignment, profile update, deletion. */
module UsuarioService {
  import opened Wrappers
  import opened Roles
  import opened Store
  import opened UsuarioDomain
  import UR = UsuarioRepository
  import RT = RefreshTokensRepository

  /** A role given by name (a string) or by key (anything else). */
  datatype RoleRef = ByName(name: string) | ById(id: Id)

  /** `roles.name` is unique. */
  ghost predicate RoleNameUnique(rs: map<Id, string>) {
    forall i, j :: i in rs && j in rs && rs[i] == rs[j] ==> i == j
  }

  /** The role lookup: by name for a string, by key otherwise; nothing when no role matches. */
  function FindRole(db: Db, r: RoleRef): (o: Option<Id>)
    requires RoleNameUnique(db.roles)
    ensures o.Some? ==> o.value in db.roles
    ensures r.ById? ==> o == (if r.id in db.roles then Some(r.id) else None)
    ensures r.ByName? ==> (o.Some? <==> exists k :: k in db.roles && db.roles[k] == r.name)
    ensures r.ByName? && o.Some? ==> db.roles[o.value] == r.name
  {
    match r
    case ById(k) => if k in db.roles then Some(k) else None
    case ByName(n) =>
      if exists k :: k in db.roles && db.roles[k] == n then
        var k :| k in db.roles && db.roles[k] == n;
        Some(k)
      else None
  }

  /** The keys of the entries of `refs` that resolve to a role. */
  function Resolved(db: Db, refs: seq<RoleRef>): (ks: set<Id>)
    requires RoleNameUnique(db.roles)
    ensures forall k :: k in ks ==> k in db.roles
    decreases |refs|
  {
    if refs == [] then {}
    else
      var rest := Resolved(db, refs[1..]);
      match FindRole(db, refs[0])
      case Some(k) => {k} + rest
      case None => rest
  }

  /** Links user `u` to every entry that resolves, in order; entries that do not resolve
      and links that already exist are skipped silently. */
  function LinkRoles(db: Db, u: Id, refs: seq<RoleRef>): (db': Db)
    requires RoleNameUnique(db.roles)
    ensures db'.roles == db.roles
    decreases |refs|
  {
    if refs == [] then db
    else
      var db1 := match FindRole(db, refs[0])
        case Some(k) => UR.AddRole(db, u, k).0
        case None => db;
      LinkRoles(db1, u, refs[1..])
  }

  /** The link rows pairing user `u` with each role of `ks`. */
  function Links(u: Id, ks: set<Id>): (ps: set<(Id, Id)>)
    ensures forall p :: p in ps <==> p.0 == u && p.1 in ks
  {
    set k | k in ks :: (u, k)
  }

  /** Linking adds exactly the pairs of `u` with the resolved roles, when `u` exists,
      and changes nothing else. */
  lemma {:induction false} LinkRolesAddsResolved(db: Db, u: Id, refs: seq<RoleRef>)
    requires RoleNameUnique(db.roles)
    ensures var db' := LinkRoles(db, u, refs);
      && db' == db.(usuarioRoles := db'.usuarioRoles)
      && (u in db.usuarios ==> db'.usuarioRoles == db.usuarioRoles + Links(u, Resolved(db, refs)))
      && (u !in db.usuarios ==> db' == db)
    decreases |refs|
  {
    if refs != [] {
      var db1 := match FindRole(db, refs[0])
        case Some(k) => UR.AddRole(db, u, k).0
        case None => db;
      var first: set<Id> := match FindRole(db, refs[0])
        case Some(k) => {k}
        case None => {};
      var rest := Resolved(db, refs[1..]);
      assert db1 == db.(usuarioRoles := db1.usuarioRoles);
      assert u in db.usuarios ==> db1.usuarioRoles == db.usuarioRoles + Links(u, first);
      assert u !in db.usuarios ==> db1 == db;
      LinkRolesAddsResolved(db1, u, refs[1..]);
      ResolvedDependsOnRoles(db, db1, refs[1..]);
      assert Resolved(db, refs) == first + rest;
      assert Links(u, first + rest) == Links(u, first) + Links(u, rest);
    }
  }

  lemma {:induction false} ResolvedDependsOnRoles(db: Db, db1: Db, refs: seq<RoleRef>)
    requires RoleNameUnique(db.roles) && db1.roles == db.roles
    ensures Resolved(db1, refs) == Resolved(db, refs)
    decreases |refs|
  {
    if refs != [] {
      ResolvedDependsOnRoles(db, db1, refs[1..]);
    }
  }

  /** The registration body, after the controller's presence check. */
  datatype Registration = Registration(nome: string, email: string, senha: string, ra: Field<string>,
                                       siape: Field<string>, roles: seq<RoleRef>)

  /** `createUser`: hashes the password, inserts the user, links the resolvable roles, and
      reads the user back. The store refuses a repeated e-mail. */
  function CreateUser(db: Db, reg: Registration, hash: string -> string): (r: Outcome<(Db, Usuario)>)
    requires RoleNameUnique(db.roles)
    ensures r.Fail? <==> UR.EmailUsed(db.usuarios, reg.email)
    ensures r.Fail? ==> r.error == StoreError
    ensures r.Ok? ==>
      var (db', u) := r.value;
      && u.id == db.nextId && u.id in db'.usuarios
      && db'.usuarios[u.id].senha == hash(reg.senha)
      && db'.usuarios[u.id].email == reg.email
      && u == UR.ToDomain(db', u.id)
  {
    match UR.Create(db, UR.NewUser(reg.nome, reg.email, hash(reg.senha), reg.ra, reg.siape))
    case Fail(e) => Fail(e)
    case Ok((db1, created)) =>
      var db2 := LinkRoles(db1, created.id, reg.roles);
      LinkRolesAddsResolved(db1, created.id, reg.roles);
      Ok((db2, UR.ToDomain(db2, created.id)))
  }

  /** A new user carries the names of the roles its registration named and the store
      knows, and no others. */
  lemma CreatedUserCarriesRequestedRoles(db: Db, reg: Registration, hash: string -> string)
    requires RoleNameUnique(db.roles) && FreshCounter(db)
    requires CreateUser(db, reg, hash).Ok?
    ensures var (db', u) := CreateUser(db, reg, hash).value;
      u.roles == Names(set k | k in Resolved(db, reg.roles) :: db.roles[k])
  {
    var db1 := UR.Create(db, UR.NewUser(reg.nome, reg.email, hash(reg.senha), reg.ra, reg.siape)).value.0;
    var id := db.nextId;
    LinkRolesAddsResolved(db1, id, reg.roles);
    ResolvedDependsOnRoles(db, db1, reg.roles);
    var db' := LinkRoles(db1, id, reg.roles);
    var want := set k | k in Resolved(db, reg.roles) :: db.roles[k];
    assert LinkedRoleNames(db', id) == want;
  }

  /** `assignRole(u, role)`: nothing when the role is unknown; otherwise the link is added
      (an existing link is ignored), the user's token counter rises and all the user's
      refresh tokens are deleted, so that every session must log in again. */
  function AssignRole(db: Db, u: Id, r: RoleRef): (res: (Db, Option<Id>))
    requires RoleNameUnique(db.roles)
    ensures res.1 == FindRole(db, r)
    ensures res.1.None? ==> res.0 == db
    ensures res.1.Some? ==>
      && (u in db.usuarios ==> res.0.usuarioRoles == db.usuarioRoles + {(u, res.1.value)})
      && (u !in db.usuarios ==> res.0.usuarioRoles == db.usuarioRoles)
      && res.0.roles == db.roles
      && res.0.usuarios.Keys == db.usuarios.Keys
      && (forall k :: k in res.0.refreshTokens <==> k in db.refreshTokens && db.refreshTokens[k].usuarioId != u)
      && (u in db.usuarios ==> res.0.usuarios[u].tokenVersion == db.usuarios[u].tokenVersion + 1)
  {
    match FindRole(db, r)
    case None => (db, None)
    case Some(k) =>
      var db1 := UR.AddRole(db, u, k).0;
      var db2 := UR.IncrementTokenVersion(db1, u);
      (RT.DeleteByUser(db2, u), Some(k))
  }

  /** After an assignment the user carries the role's name. */
  lemma AssignedRoleIsCarried(db: Db, u: Id, r: RoleRef)
    requires RoleNameUnique(db.roles) && u in db.usuarios
    requires AssignRole(db, u, r).1.Some?
    ensures var (db', k) := AssignRole(db, u, r);
      u in db'.usuarios && db.roles[k.value] in LinkedRoleNames(db', u)
      && UR.ToDomain(db', u).roles == Names(LinkedRoleNames(db', u))
  {
    var (db', k) := AssignRole(db, u, r);
    assert (u, k.value) in db'.usuarioRoles;
    UR.RoleAggregation(db', u);
  }

  /** `removeRole(u, role)`: true exactly when the link existed. */
  function RemoveRole(db: Db, u: Id, role: Id): (res: (Db, bool))
    ensures res.1 <==> (u, role) in db.usuarioRoles
    ensures (u, role) !in res.0.usuarioRoles
    ensures res.0 == db.(usuarioRoles := res.0.usuarioRoles)
  {
    UR.RemoveRole(db, u, role)
  }

  /** Removing a role the assignment just added takes the links back to where they were. */
  lemma RemoveUndoesAssign(db: Db, u: Id, r: RoleRef)
    requires RoleNameUnique(db.roles)
    requires AssignRole(db, u, r).1.Some?
    requires (u, AssignRole(db, u, r).1.value) !in db.usuarioRoles
    ensures var (db', k) := AssignRole(db, u, r);
      RemoveRole(db', u, k.value).0.usuarioRoles == db.usuarioRoles
  {}

  /** The profile changes a user may submit. */
  datatype UserChanges = UserChanges(nome: Field<string>, senha: Field<string>, ra: Field<string>, siape: Field<string>)

  /** The columns `updateUser` writes: a password is hashed and written only when it is a
      non-empty string; null or empty leave it out. */
  function ChangesFor(c: UserChanges, hash: string -> string): (r: UR.Changes)
    ensures r.nome == c.nome && r.ra == c.ra && r.siape == c.siape
    ensures r.senha.Val? <==> c.senha.Val? && c.senha.value != ""
    ensures r.senha.Val? ==> r.senha.value == hash(c.senha.value)
    ensures !r.senha.Val? ==> r.senha.Undefined?
  {
    UR.Changes(c.nome, if c.senha.Val? && c.senha.value != "" then Val(hash(c.senha.value)) else Undefined,
               c.ra, c.siape)
  }

  /** The update writes at least one column: a name, a registration number or a siape
      given (null included), or a non-empty new password. */
  predicate WritesSomething(c: UserChanges) {
    !c.nome.Undefined? || !c.ra.Undefined? || !c.siape.Undefined? || (c.senha.Val? && c.senha.value != "")
  }

  /** `updateUser(id, changes)`: the updated user, or nothing when the id is unknown or
      the store refuses the update (an empty change set, a NULL name). */
  function UpdateUser(db: Db, id: Id, c: UserChanges, hash: string -> string): (res: (Db, Option<Usuario>))
    ensures res.1.Some? <==> id in db.usuarios && WritesSomething(c) && !c.nome.Null?
    ensures res.1.Some? ==> id in res.0.usuarios && res.1.value == UR.ToDomain(res.0, id)
    ensures id !in db.usuarios ==> res == (db, None)
    ensures res.1.None? ==> res.0 == db
    ensures c.nome.Null? ==> res == (db, None)
  {
    match UR.UpdateById(db, id, ChangesFor(c, hash))
    case Fail(_) => (db, None)
    case Ok((db', o)) => (db', o)
  }

  /** An update writes the hash of a non-empty new password and keeps the stored password
      otherwise; the e-mail, the roles and the token counter never change. */
  lemma UpdatePasswordRule(db: Db, id: Id, c: UserChanges, hash: string -> string)
    requires UpdateUser(db, id, c, hash).1.Some?
    ensures var db' := UpdateUser(db, id, c, hash).0;
      var (old_, new_) := (db.usuarios[id], db'.usuarios[id]);
      && id in db.usuarios
      && new_.senha == (if c.senha.Val? && c.senha.value != "" then hash(c.senha.value) else old_.senha)
      && new_.email == old_.email && new_.roles == old_.roles && new_.tokenVersion == old_.tokenVersion
      && db'.usuarioRoles == db.usuarioRoles
  {}

  /** A user who sets a new password can log in with it and only with passwords the
      comparison accepts against its hash. */
  lemma NewPasswordLogsIn(db: Db, id: Id, c: UserChanges, hash: string -> string,
                          compare: (string, string) -> bool, candidate: string)
    requires UpdateUser(db, id, c, hash).1.Some? && c.senha.Val? && c.senha.value != ""
    requires hash(c.senha.value) != ""
    ensures var u := UpdateUser(db, id, c, hash).1.value;
      ComparePassword(u, candidate, compare) == compare(candidate, hash(c.senha.value))
  {
    UpdatePasswordRule(db, id, c, hash);
    var (db', u) := UpdateUser(db, id, c, hash);
    assert u.value.senha == Some(db'.usuarios[id].senha);
  }

  /** `deleteUser(id)`: true exactly when a row was deleted. */
  function DeleteUser(db: Db, id: Id): (res: (Db, bool))
    ensures res.1 <==> id in db.usuarios
    ensures id !in res.0.usuarios
    ensures forall k :: k in res.0.matriculas ==> res.0.matriculas[k].alunoId != id
    ensures forall k :: k in res.0.refreshTokens ==> res.0.refreshTokens[k].usuarioId != id
  {
    var (db', n) := UR.DeleteById(db, id);
    (db', n > 0)
  }

  /** Deleting a user keeps the turma keys unique: a turma only loses its professor. */
  lemma DeleteUserKeepsTurmaKeys(db: Db, id: Id)
    requires TurmaCodigoUnique(db.turmas) && ProfessorHorarioUnique(db.turmas)
    ensures TurmaCodigoUnique(DeleteUser(db, id).0.turmas)
    ensures ProfessorHorarioUnique(DeleteUser(db, id).0.turmas)
  {
    var ts' := DeleteUser(db, id).0.turmas;
    assert forall k :: k in ts' ==> ts'[k].codigo == db.turmas[k].codigo && ts'[k].horarioId == db.turmas[k].horarioId
      by {
        forall k | k in ts' ensures ts'[k].codigo == db.turmas[k].codigo && ts'[k].horarioId == db.turmas[k].horarioId {
          assert ts'[k].(professorId := None) == db.turmas[k].(professorId := None);
        }
      }
    assert forall k :: k in ts' && ts'[k].professorId.Some? ==> ts'[k].professorId == db.turmas[k].professorId;
  }

  /** Deleting a user keeps the remaining rows' keys and references. */
  lemma DeleteUserKeepsRows(db: Db, id: Id)
    requires Valid(db)
    ensures var db' := DeleteUser(db, id).0;
      FreshCounter(db') && EmailUnique(db'.usuarios) && PairUnique(db'.matriculas)
      && TokenHashUnique(db'.refreshTokens) && MatriculaRefs(db')
  {
    DeleteKeepsCounter(db, id);
    DeleteKeepsUniqueRows(db, id);
    DeleteKeepsMatriculaRefs(db, id);
  }

  lemma DeleteKeepsCounter(db: Db, id: Id)
    requires FreshCounter(db)
    ensures FreshCounter(UR.DeleteById(db, id).0)
  {
    var db' := UR.DeleteById(db, id).0;
    assert db'.nextId == db.nextId && db'.disciplinas == db.disciplinas && db'.horarios == db.horarios;
    assert db'.turmas.Keys == db.turmas.Keys;
  }

  lemma DeleteKeepsUniqueRows(db: Db, id: Id)
    requires EmailUnique(db.usuarios) && PairUnique(db.matriculas) && TokenHashUnique(db.refreshTokens)
    ensures var db' := UR.DeleteById(db, id).0;
      EmailUnique(db'.usuarios) && PairUnique(db'.matriculas) && TokenHashUnique(db'.refreshTokens)
  {
  }

  lemma DeleteKeepsMatriculaRefs(db: Db, id: Id)
    requires MatriculaRefs(db)
    ensures MatriculaRefs(UR.DeleteById(db, id).0)
  {
    var db' := UR.DeleteById(db, id).0;
    forall k | k in db'.matriculas
      ensures db'.matriculas[k].alunoId in db'.usuarios && db'.matriculas[k].turmaId in db'.turmas
    {
      assert db'.matriculas[k] == db.matriculas[k];
    }
  }

  /** Deleting a user keeps every declared constraint. */
  lemma DeleteUserKeepsValid(db: Db, id: Id)
    requires Valid(db)
    ensures Valid(DeleteUser(db, id).0)
  {
    DeleteUserKeepsTurmaKeys(db, id);
    DeleteUserKeepsRows(db, id);
  }
}

=== FILE: validators.dfy ===
/** The request-body schemas for horarios and disciplinas: which bodies pass, and the
    body the services receive after the schema's sanitizers ran. A body that fails any
    rule is answered with 400 before it reaches a service. */
module Validators {
  import opened Wrappers
  import HS = HorarioService
  import DS = DisciplinaService
  import Store

  /** A body field as it arrives: absent, null, an integral number, a string, or anything
      else (a boolean, a fraction, an object). */
  datatype Input = Absent | Null | Num(n: int) | Str(s: string) | Other

  // ---------------------------------------------------------------------------
  // Integer text

  predicate IsDigit(c: char) {
    '0' <= c <= '9'
  }

  predicate AllDigits(s: string) {
    forall i :: 0 <= i < |s| ==> IsDigit(s[i])
  }

  /** The integer syntax: an optional sign, then one digit or more; leading zeros allowed. */
  predicate IsIntText(s: string) {
    if |s| > 0 && (s[0] == '+' || s[0] == '-') then |s| > 1 && AllDigits(s[1..])
    else |s| > 0 && AllDigits(s)
  }

  function DigitChar(d: nat): (c: char)
    requires d < 10
    ensures IsDigit(c) && c as int - '0' as int == d
  {
    ('0' as int + d) as char
  }

  /** The value of a string of decimal digits. */
  function DigitsValue(s: string): nat
    requires AllDigits(s)
    decreases |s|
  {
    if s == [] then 0 else DigitsValue(s[..|s| - 1]) * 10 + (s[|s| - 1] as int - '0' as int)
  }

  /** `parseInt(s, 10)` on text of the integer syntax. */
  function ParseInt(s: string): int
    requires IsIntText(s)
  {
    if s[0] == '-' then -(DigitsValue(s[1..]) as int)
    else if s[0] == '+' then DigitsValue(s[1..])
    else DigitsValue(s)
  }

  /** The decimal digits of `n`, without leading zeros. */
  function ShowNat(n: nat): (s: string)
    ensures |s| > 0 && AllDigits(s)
    decreases n
  {
    if n < 10 then [DigitChar(n)] else ShowNat(n / 10) + [DigitChar(n % 10)]
  }

  /** `String(n)` for an integral number. */
  function ShowInt(n: int): string {
    if n < 0 then "-" + ShowNat(-n) else ShowNat(n)
  }

  lemma {:induction false} ShowNatRoundTrip(n: nat)
    ensures DigitsValue(ShowNat(n)) == n
    decreases n
  {
    if n >= 10 {
      var s := ShowNat(n / 10) + [DigitChar(n % 10)];
      assert s[..|s| - 1] == ShowNat(n / 10);
      ShowNatRoundTrip(n / 10);
    }
  }

  /** A number, written in decimal, passes the integer syntax and parses back to itself. */
  lemma IntRoundTrip(n: int)
    ensures IsIntText(ShowInt(n)) && ParseInt(ShowInt(n)) == n
  {
    if n < 0 {
      assert ShowInt(n)[1..] == ShowNat(-n);
      ShowNatRoundTrip(-n);
    } else {
      ShowNatRoundTrip(n);
    }
  }

  predicate InRange(v: int, lo: Option<int>, hi: Option<int>) {
    (lo.Some? ==> lo.value <= v) && (hi.Some? ==> v <= hi.value)
  }

  /** The integer rule on the text it inspects. */
  function CheckText(t: string, lo: Option<int>, hi: Option<int>): Option<int> {
    if IsIntText(t) && InRange(ParseInt(t), lo, hi) then Some(ParseInt(t)) else None
  }

  /** `isInt({min, max})` followed by `toInt`: the rule reads a string as it is and a
      number in decimal; anything else fails. */
  function CheckInt(i: Input, lo: Option<int>, hi: Option<int>): (r: Option<int>)
    ensures r.Some? ==> InRange(r.value, lo, hi)
    ensures i.Num? ==> r == (if InRange(i.n, lo, hi) then Some(i.n) else None)
    ensures i.Str? ==> (r.Some? <==> IsIntText(i.s) && InRange(ParseInt(i.s), lo, hi))
    ensures i.Str? && r.Some? ==> r.value == ParseInt(i.s)
    ensures !i.Num? && !i.Str? ==> r.None?
  {
    match i
    case Num(n) =>
      IntRoundTrip(n);
      CheckText(ShowInt(n), lo, hi)
    case Str(t) => CheckText(t, lo, hi)
    case _ => None
  }

  // ---------------------------------------------------------------------------
  // Trimming

  /** The characters JavaScript's `\s` matches. */
  predicate IsSpace(c: char) {
    || c == ' ' || c == '\t' || c == '\n' || c == '\r' || c == '\U{000B}' || c == '\U{000C}'
    || c == '\U{00A0}' || c == '\U{1680}' || ('\U{2000}' <= c <= '\U{200A}')
    || c == '\U{2028}' || c == '\U{2029}' || c == '\U{202F}' || c == '\U{205F}' || c == '\U{3000}'
    || c == '\U{FEFF}'
  }

  predicate AllSpace(s: string) {
    forall i :: 0 <= i < |s| ==> IsSpace(s[i])
  }

  function TrimStart(s: string): (r: string)
    ensures exists k :: 0 <= k <= |s| && r == s[k..] && AllSpace(s[..k])
    ensures r == [] || !IsSpace(r[0])
    decreases |s|
  {
    if s != [] && IsSpace(s[0]) then
      var r := TrimStart(s[1..]);
      var k :| 0 <= k <= |s[1..]| && r == s[1..][k..] && AllSpace(s[1..][..k]);
      assert r == s[k + 1..] && s[..k + 1] == [s[0]] + s[1..][..k];
      r
    else
      assert s == s[0..] && s[..0] == [];
      s
  }

  function TrimEnd(s: string): (r: string)
    ensures exists k :: 0 <= k <= |s| && r == s[..k] && AllSpace(s[k..])
    ensures r == [] || !IsSpace(r[|r| - 1])
    decreases |s|
  {
    if s != [] && IsSpace(s[|s| - 1]) then
      var r := TrimEnd(s[..|s| - 1]);
      var k :| 0 <= k <= |s| - 1 && r == s[..|s| - 1][..k] && AllSpace(s[..|s| - 1][k..]);
      assert r == s[..k] && s[k..] == s[..|s| - 1][k..] + [s[|s| - 1]];
      r
    else
      assert s == s[..|s|] && s[|s|..] == [];
      s
  }

  /** The `trim` sanitizer. */
  function Trim(s: string): string {
    TrimEnd(TrimStart(s))
  }

  /** Trimming leaves a non-empty string exactly when the input has a character that is
      not white space: this is what `notEmpty` after `trim` checks. */
  lemma TrimEmptyIff(s: string)
    ensures Trim(s) == "" <==> AllSpace(s)
  {
    var t := TrimStart(s);
    var k :| 0 <= k <= |s| && t == s[k..] && AllSpace(s[..k]);
    var j :| 0 <= j <= |t| && Trim(s) == t[..j] && AllSpace(t[j..]);
    if Trim(s) == "" {
      forall i | 0 <= i < |s| ensures IsSpace(s[i]) {
        assert s[i] == s[..k][i];
      }
    }
  }

  /** Trimming twice is trimming once. */
  lemma TrimIdempotent(s: string)
    ensures Trim(Trim(s)) == Trim(s)
  {
    var t := Trim(s);
    if t != [] {
      var j :| 0 <= j <= |TrimStart(s)| && t == TrimStart(s)[..j] && AllSpace(TrimStart(s)[j..]);
      assert t[0] == TrimStart(s)[0];
      assert TrimStart(t) == t;
    }
  }

  // ---------------------------------------------------------------------------
  // Field rules

  /** A required string: `isString`, `trim`, `notEmpty`. */
  function RequiredText(i: Input): (r: Option<string>)
    ensures r.Some? <==> i.Str? && !AllSpace(i.s)
    ensures r.Some? ==> r.value == Trim(i.s) && r.value != ""
  {
    match i
    case Str(t) =>
      TrimEmptyIff(t);
      if Trim(t) != "" then Some(Trim(t)) else None
    case _ => None
  }

  /** An optional string (`optional`, `isString`, `trim`): absent stays absent; anything
      but a string, null included, fails. */
  function OptionalText(i: Input): (r: Option<Field<string>>)
    ensures r.Some? <==> i.Absent? || i.Str?
    ensures i.Absent? ==> r == Some(Undefined)
    ensures i.Str? ==> r == Some(Val(Trim(i.s)))
  {
    match i
    case Absent => Some(Undefined)
    case Str(s) => Some(Val(Trim(s)))
    case _ => None
  }

  /** A required integer in range: `isInt({min, max})`, `toInt`. */
  function RequiredInt(i: Input, lo: Option<int>, hi: Option<int>): (r: Option<Field<int>>)
    ensures r.Some? <==> CheckInt(i, lo, hi).Some?
    ensures r.Some? ==> r.value == Val(CheckInt(i, lo, hi).value)
  {
    match CheckInt(i, lo, hi)
    case None => None
    case Some(v) => Some(Val(v))
  }

  /** An optional integer in range: absent stays absent. */
  function OptionalInt(i: Input, lo: Option<int>, hi: Option<int>): (r: Option<Field<int>>)
    ensures i.Absent? ==> r == Some(Undefined)
    ensures !i.Absent? ==> r == RequiredInt(i, lo, hi)
  {
    if i.Absent? then Some(Undefined) else RequiredInt(i, lo, hi)
  }

  // ---------------------------------------------------------------------------
  // Schemas

  /** A request body: the keys a schema checks, and whether the body also carries a key
      that names no column of the table (the schemas do not look at other keys). */
  datatype HorarioBody = HorarioBody(dia: Input, turno: Input, codigo: Input, descricao: Input, unknownColumn: bool)
  datatype DisciplinaBody = DisciplinaBody(codigo: Input, nome: Input, cargaHoraria: Input, unknownColumn: bool)

  /** The horario create schema: `dia` an integer from 1 to 7, `turno` from 1 to 3,
      `codigo` a string that is not blank, `descricao` an optional string. */
  function HorarioCreate(b: HorarioBody): (r: Option<HS.Payload>)
    ensures r.Some? <==>
      && CheckInt(b.dia, Some(1), Some(7)).Some? && CheckInt(b.turno, Some(1), Some(3)).Some?
      && b.codigo.Str? && !AllSpace(b.codigo.s) && (b.descricao.Absent? || b.descricao.Str?)
    ensures r.Some? ==>
      && r.value.dia.Val? && 1 <= r.value.dia.value <= 7
      && r.value.turno.Val? && 1 <= r.value.turno.value <= 3
      && r.value.codigo == Val(Trim(b.codigo.s)) && r.value.codigo.value != ""
      && r.value.unknownColumn == b.unknownColumn
  {
    var dia := RequiredInt(b.dia, Some(1), Some(7));
    var turno := RequiredInt(b.turno, Some(1), Some(3));
    var codigo := RequiredText(b.codigo);
    var descricao := OptionalText(b.descricao);
    if dia.Some? && turno.Some? && codigo.Some? && descricao.Some? then
      Some(HS.Payload(dia.value, turno.value, Val(codigo.value), descricao.value, b.unknownColumn))
    else None
  }

  /** The horario update schema: the same rules, every field optional, and no emptiness
      check on `codigo`. */
  function HorarioUpdate(b: HorarioBody): (r: Option<HS.Payload>)
    ensures r.Some? <==>
      && (b.dia.Absent? || CheckInt(b.dia, Some(1), Some(7)).Some?)
      && (b.turno.Absent? || CheckInt(b.turno, Some(1), Some(3)).Some?)
      && (b.codigo.Absent? || b.codigo.Str?) && (b.descricao.Absent? || b.descricao.Str?)
    ensures r.Some? ==>
      && !r.value.dia.Null? && !r.value.turno.Null? && !r.value.codigo.Null? && !r.value.descricao.Null?
      && (r.value.dia.Val? ==> 1 <= r.value.dia.value <= 7)
      && (r.value.turno.Val? ==> 1 <= r.value.turno.value <= 3)
      && r.value.unknownColumn == b.unknownColumn
  {
    var dia := OptionalInt(b.dia, Some(1), Some(7));
    var turno := OptionalInt(b.turno, Some(1), Some(3));
    var codigo := OptionalText(b.codigo);
    var descricao := OptionalText(b.descricao);
    if dia.Some? && turno.Some? && codigo.Some? && descricao.Some? then
      Some(HS.Payload(dia.value, turno.value, codigo.value, descricao.value, b.unknownColumn))
    else None
  }

  /** The disciplina create schema: `codigo` and `nome` strings that are not blank,
      `carga_horaria` an optional integer of at least 0. */
  function DisciplinaCreate(b: DisciplinaBody): (r: Option<DS.Payload>)
    ensures r.Some? <==>
      && b.codigo.Str? && !AllSpace(b.codigo.s) && b.nome.Str? && !AllSpace(b.nome.s)
      && (b.cargaHoraria.Absent? || CheckInt(b.cargaHoraria, Some(0), None).Some?)
    ensures r.Some? ==>
      && r.value.codigo == Val(Trim(b.codigo.s)) && r.value.nome == Val(Trim(b.nome.s))
      && (r.value.cargaHoraria.Val? ==> r.value.cargaHoraria.value >= 0)
      && !r.value.cargaHoraria.Null?
      && r.value.unknownColumn == b.unknownColumn
  {
    var codigo := RequiredText(b.codigo);
    var nome := RequiredText(b.nome);
    var carga := OptionalInt(b.cargaHoraria, Some(0), None);
    if codigo.Some? && nome.Some? && carga.Some? then
      Some(DS.Payload(Val(codigo.value), Val(nome.value), carga.value, b.unknownColumn))
    else None
  }

  /** The disciplina update schema: every field optional, no emptiness checks. */
  function DisciplinaUpdate(b: DisciplinaBody): (r: Option<DS.Payload>)
    ensures r.Some? <==>
      && (b.codigo.Absent? || b.codigo.Str?) && (b.nome.Absent? || b.nome.Str?)
      && (b.cargaHoraria.Absent? || CheckInt(b.cargaHoraria, Some(0), None).Some?)
    ensures r.Some? ==>
      && !r.value.codigo.Null? && !r.value.nome.Null? && !r.value.cargaHoraria.Null?
      && (r.value.cargaHoraria.Val? ==> r.value.cargaHoraria.value >= 0)
      && r.value.unknownColumn == b.unknownColumn
  {
    var codigo := OptionalText(b.codigo);
    var nome := OptionalText(b.nome);
    var carga := OptionalInt(b.cargaHoraria, Some(0), None);
    if codigo.Some? && nome.Some? && carga.Some? then
      Some(DS.Payload(codigo.value, nome.value, carga.value, b.unknownColumn))
    else None
  }

  /** A horario body the create schema accepts always fills the table's required columns:
      the service inserts it or refuses a taken code with 409, and a store error comes only
      from a key that names no column. */
  lemma ValidHorarioCreateReachesStore(db: Store.Db, b: HorarioBody)
    requires HorarioCreate(b).Some?
    ensures var r := HS.Create(db, HorarioCreate(b).value);
      r.Ok? || r == Fail(HttpError(409)) || (b.unknownColumn && r == Fail(StoreError))
  {
  }

  /** Likewise for disciplinas. */
  lemma ValidDisciplinaCreateReachesStore(db: Store.Db, b: DisciplinaBody)
    requires DisciplinaCreate(b).Some?
    ensures var r := DS.Create(db, DisciplinaCreate(b).value);
      r.Ok? || r == Fail(HttpError(409)) || (b.unknownColumn && r == Fail(StoreError))
  {
  }

  /** An accepted horario update never writes NULL into a required column, so on a known
      horario whose new code is free the store accepts a non-empty body exactly when every
      key names a column. */
  lemma ValidHorarioUpdateReachesStore(db: Store.Db, id: Store.Id, b: HorarioBody)
    requires HorarioUpdate(b).Some? && id in db.horarios
    requires !HS.EmptyPayload(HorarioUpdate(b).value)
    requires HorarioUpdate(b).value.codigo.Val? ==> !HS.CodigoTakenByOther(db.horarios, HorarioUpdate(b).value.codigo.value, id)
    ensures HS.Update(db, id, HorarioUpdate(b).value).Ok? <==> !b.unknownColumn
  {
  }
}

=== FILE: wrappers.dfy ===
/** Failure-carrying datatypes shared by every layer of the model. */
module Wrappers {

  /** A nullable column or an optional lookup result. */
  datatype Option<+T> = None | Some(value: T) {
    function GetOr(default: T): T {
      match this
      case Some(v) => v
      case None => default
    }
  }

  /** A field of a JSON request body: absent (`undefined`), an explicit `null`, or a value. */
  datatype Field<+T> = Undefined | Null | Val(value: T)

  /** What a service throws: an HttpError with a status code, a raw store error
      (a violated constraint, a refused query) that carries no status code, or an error
      a library raises on a bad argument (bcrypt given a password that is not a string). */
  datatype Error = HttpError(status: nat) | StoreError | LibraryError

  /** The outcome of a service call: a value, or the error it throws. */
  datatype Outcome<+T> = Ok(value: T) | Fail(error: Error)

  /** JavaScript truthiness of an optional id: `null`, `undefined` and 0 are falsy. */
  predicate IdTruthy(f: Field<nat>) {
    f.Val? && f.value != 0
  }

  /** JavaScript truthiness of an optional string: `null`, `undefined` and "" are falsy. */
  predicate TextTruthy(f: Field<string>) {
    f.Val? && f.value != ""
  }

  /** JavaScript truthiness of a nullable id column. */
  predicate SomeId(o: Option<nat>) {
    o.Some? && o.value != 0
  }

  /** `x || null` on a string field: falsy values become NULL. */
  function OrNull(f: Field<string>): (r: Option<string>)
    ensures r.Some? <==> TextTruthy(f)
    ensures r.Some? ==> r.value == f.value
  {
    if TextTruthy(f) then Some(f.value) else None
  }
}
